=== FILE: README.md ===
# Radiomics experiment framework: splits and bookkeeping, in Dafny

This project models the split-and-bookkeeping core of a radiomics
classification framework and proves properties of the model. It covers four
source files:

- `autorad/data/dataset.py`, modelled in `AutoradDataset`:
  - a `FeatureDataset` applies a persisted split document (test ids, plus
    train/validation ids per fold stored under `fold_0 … fold_{n-1}`) to its
    table;
  - `full_split` and `full_split_with_test_from_column` check that each id has
    one label;
  - `ImageDataset` validates its columns, assigns ids and joins a root
    directory onto the image and mask paths.
- `classrad/data/dataset.py`, modelled in `ClassradDataset`, is the older
  variant of the same logic. It adds:
  - selecting cross-validation folds by position;
  - collecting the validation labels of every fold;
  - the fit-on-train order of standardisation;
  - restricting the feature tables to the selected features;
  - the `ImageDataset` column setters.
- `Radiomics/training/trainer.py` has two parts:
  - `RadiomicsTrainer` models the result table of the grid-search trainer:
    the `test` flag, the `cv_split` column, each model's sentinel-initialised
    prediction columns, fold predictions written by validation label, and
    test predictions written at the test labels;
  - `Hyperparams` models the `HyperparamOptimizer`: the four fixed grids,
    the per-model parameter cache `<param_dir>/<name>.json`, grid search
    whose failures are swallowed, and load-or-tune.
- `autorad/training/trainer.py`, modelled in `OptunaTrainer`:
  - selecting the optimizer;
  - the Optuna objective, which is NaN when a fold's fit raises ValueError
    and otherwise the mean fold AUC recorded with the model;
  - the two-level lookup of preprocessed data;
  - the order of the saving steps after a study.

## How the model is built

- **Shared modules.** `Wrappers` has `Option`, `Result` and `Check`, plus the
  Python exception kinds. `Seqs` has mask selection, keep-first
  de-duplication, zips and flattening. `Text` has decimal rendering and path
  joining. `Frames` is a small pandas model. `SplitDocuments` is the JSON
  split document.
- **DataFrames and cells.** A DataFrame is a `Frame`: an ordered column list
  and a sequence of rows. Each row carries its index label and a map from
  column to cell. An absent cell reads as `Null`, which stands for NaN.
- **pandas operations.**
  - Boolean-mask selection, `.iloc` and `.loc` writes are pure functions.
  - `.iloc` raises IndexError outside Python's `[-n, n)` range.
  - A `.loc` write of a list of values raises ValueError unless it selects
    exactly one row per value: a length mismatch, or a written label that
    several rows share. A scalar `.loc` write sets every row with the label.
  - A `.loc` write at an unknown label raises KeyError.
- **Exceptions and object state.** Exceptions are `Raise(e)` results. Mutating
  methods return the new object state.
- **What becomes a parameter.** Anything the source delegates to code outside
  the model is a function parameter:
  - classifier fitting and prediction;
  - the grid search;
  - the splitters;
  - the scaler arithmetic;
  - Optuna's sampler and study;
  - a model's own parameter suggestions;
  - AUC scoring.
- **Files and paths.** The parameter cache is a map from path to file
  content. Paths are joined as `os.path.join` does: an absolute second part
  replaces the first.

Behaviour a reader may not expect:

- **Overlapping folds.** Nothing in the code checks that the folds'
  validation sets are disjoint. When folds overlap, the later fold's
  `cv_split` number and predictions overwrite the earlier ones, and the
  model states that "last fold wins" rule.
- **Unassigned rows.** Every row that is in no validation fold gets
  `cv_split` -1, whether or not it is a test row.
- **Positions.** Validation rows are found through `X_train.index[val_idx]`.
  A negative position counts from the end, as in Python.
- **Dataset variants.** classrad reads the folds in document order, whatever
  their keys. autorad looks them up by the keys `fold_0 … fold_{n-1}`.
- **classrad folds from JSON.** classrad's `load_splits_from_json` sets
  `n_splits` and the fold lists but never `cv_splits`. On a new dataset,
  `create_cross_validation_labels` therefore still raises TypeError after a
  load.

## Model

| member | source | states |
|---|---|---|
| AutoradDataset.XPreprocessed | autorad/data/dataset.py:58-62 | raises exactly while preprocessing has not run; otherwise returns the stored preprocessed partitions |
| AutoradDataset.SelectedFeatures | autorad/data/dataset.py:64-68 | raises exactly while preprocessing has not run |
| AutoradDataset.SelectedFeaturesArePreprocessedColumns | autorad/data/dataset.py:58-68 | the two accessors fail together, and the selected features are the preprocessed training table's columns |
| AutoradDataset.NewFeatureDataset | autorad/data/dataset.py:76-111 | construction succeeds iff every feature (defaulting to the radiomics-named columns), the target, the metadata and the id column exist; nothing is split yet |
| AutoradDataset.Data | autorad/data/dataset.py:113-121 | `data` raises exactly until a split is loaded, then returns that split |
| AutoradDataset.LoadSplitsFromJson | autorad/data/dataset.py:123-171 | succeeds iff the split column (id column by default) exists and every key fold_0..fold_{n-1} is present; test/train parts of X, y and meta are the rows whose value is / is not a test id; n folds each of X, y, meta, and fold i holds exactly the rows whose value is in fold i's train or validation ids; only the split and the folds change |
| AutoradDataset.LoadSplitsCoversTable | autorad/data/dataset.py:133-146 | test and train feature rows together are the table's rows (as a multiset); a row lands in test iff its split value is a test id, otherwise in train |
| AutoradDataset.CheckIdLabels | autorad/data/dataset.py:184-192 | succeeds iff both columns exist, the id column is not the target, and every id has one label; an id column equal to the target raises AttributeError (the selection is then a table); with distinct columns and an id carrying two labels, ValueError naming the id column; the ids passed on are unique, aligned with the labels, and the (id, label) pairs are exactly those of the rows |
| AutoradDataset.IdLabelPairsUnique | autorad/data/dataset.py:186-190 | ids are unique after de-duplicating (id, label) pairs iff no id occurs with two labels |
| AutoradDataset.IdLabelPairsCover | autorad/data/dataset.py:186-192 | the de-duplicated id and label lists zip back to exactly the table's (id, label) pairs |
| AutoradDataset.FullSplit | autorad/data/dataset.py:173-200 | succeeds iff the label check does; the splitter receives the checked ids and labels |
| AutoradDataset.IdRecordsUnique | autorad/data/dataset.py:256-262 | ids are unique after de-duplicating (id, label, column) triples iff no id varies in label or in the test column |
| AutoradDataset.FullSplitWithTestFromColumn | autorad/data/dataset.py:238-282 | succeeds iff the three columns exist, are pairwise different and the ids are consistent; a repeated id column raises AttributeError (`is_unique`), inconsistent ids ValueError naming the id column, a label column equal to the test column AttributeError (`tolist`); the test ids are exactly the distinct ids whose column equals the test value, the cross-validation ids exactly the others, each once, in order of first occurrence, with their own labels; the saved document holds both |
| AutoradDataset.ColumnSplitMembers | autorad/data/dataset.py:263-268 | an id is on the test side iff some row with that id has the test value, on the train side iff some row has another value; train labels pair with their ids |
| AutoradDataset.CheckColumn | autorad/data/dataset.py:314-321 | passes iff the column exists and has no null cell; an absent column fails with its message |
| AutoradDataset.AutoIdColumn | autorad/data/dataset.py:323-328 | the generated id column is "ID", or "ID_autogenerated" when "ID" is taken |
| AutoradDataset.NewImageDataset | autorad/data/dataset.py:290-344 | succeeds iff image and mask columns validate and a given id column exists with unique values; the image column is checked first; without an id column, sequential ids 0..n-1 are written to the generated column |
| AutoradDataset.NewImageDatasetIdsUnique | autorad/data/dataset.py:323-338 | every constructed dataset has unique ids, one per row, given or generated |
| AutoradDataset.NewImageDatasetKeepsOtherColumns | autorad/data/dataset.py:323-329 | generating ids leaves every other cell and every row label unchanged |
| AutoradDataset.ResolvePaths | autorad/data/dataset.py:352-364 | succeeds iff every path cell is a string; each becomes the root joined with it |
| AutoradDataset.Df | autorad/data/dataset.py:346-364 | without a root the stored table is returned; with one it succeeds iff the image and mask cells are strings |
| AutoradDataset.DfResolvesOnlyPaths | autorad/data/dataset.py:346-364 | resolving keeps columns, rows, labels and every cell outside the image and mask columns; those become root-joined paths |
| AutoradDataset.Column | autorad/data/dataset.py:366-378 | a column read through `df` fails iff path resolution fails, and otherwise is that column of the resolved table, one value per row |
| AutoradDataset.PathsAreResolved | autorad/data/dataset.py:346-372 | `image_paths` and `mask_paths` hold each stored path joined onto the root directory, or the stored path itself without a root |
| AutoradDataset.IdsAreIdColumn | autorad/data/dataset.py:374-378 | the reported ids are the stored id column, untouched by path resolution |
| SplitDocuments.FoldKeyInjective | autorad/data/dataset.py:150-153 | distinct fold numbers have distinct keys fold_i |
| SplitDocuments.LookupAt | autorad/data/dataset.py:150-153 | in a JSON object (distinct keys) looking up an entry's key finds that entry |
| SplitDocuments.CvSplits | autorad/data/dataset.py:148-153 | succeeds iff fold_0..fold_{n-1} are all present (n = number of entries); the i-th fold is the one stored under fold_i |
| SplitDocuments.FoldsInOrder | classrad/data/dataset.py:201-203 | the folds in document order, one per entry |
| SplitDocuments.RoundTrip | autorad/data/dataset.py:124-153 | a document written with keys fold_0..fold_{n-1} reads back to the same folds by key and in document order |
| ClassradDataset.NewDataset | classrad/data/dataset.py:31-68 | construction succeeds iff every named column exists; the table and column roles are the given ones; X, y and meta are row-aligned with the table; every partition is unset, the four fold lists are empty, and there are no folds, labels, selected features or fitted scaler yet |
| ClassradDataset.AppendAll | classrad/data/dataset.py:203-211 | appending to a fold list extends it in order; a single selected-fold frame has no append |
| ClassradDataset.LoadSplitsFromJson | classrad/data/dataset.py:187-212 | test parts of X, y and meta are the rows whose id is a test id, train parts the rest; n_splits is the number of entries; one train and one validation fold of X and y is appended per entry in document order (the fold slots are untouched when there is none); nothing else changes, so `cv_splits` keeps its value |
| ClassradDataset.LoadSplitsPartitions | classrad/data/dataset.py:191-199 | the test and train parts of X are a disjoint cover of X's rows; a row is in test iff its id is a test id; test X, y and meta have equal lengths |
| ClassradDataset.SplitTrainTestFromColumn | classrad/data/dataset.py:166-173 | KeyError when the column, a feature or the target is absent; test is the rows whose column equals the value, train the rows where it differs, for the table, X and y alike; nothing else changes |
| ClassradDataset.SplitTrainTestPartitions | classrad/data/dataset.py:166-173 | the two sides together are the table's rows, and a row is test iff its column equals the value |
| ClassradDataset.GetCrossValidationFold | classrad/data/dataset.py:149-164 | without folds nothing changes; otherwise succeeds iff the positions are valid for the training tables, and the fold attributes become their positional selections |
| ClassradDataset.ValidationLabelsSnoc | classrad/data/dataset.py:70-77 | the labels of the first i+1 folds are those of the first i followed by fold i's |
| ClassradDataset.SelectedFoldLabels | classrad/data/dataset.py:149-164 | selecting a fold succeeds iff its positions are valid, and the validation labels are then that fold's |
| ClassradDataset.CollectValidationLabels | classrad/data/dataset.py:74-76 | the loop succeeds iff every fold is selectable and yields the concatenated validation labels in fold order |
| ClassradDataset.CreateCrossValidationLabels | classrad/data/dataset.py:70-77 | TypeError without folds; otherwise the validation labels of all folds are appended in order (length = sum of fold sizes) and the fold attributes are left at the last fold |
| ClassradDataset.Transform | classrad/data/dataset.py:244-252 | a table with the fitted columns is scaled cell by cell, keeping its row labels |
| ClassradDataset.StandardizeFeatures | classrad/data/dataset.py:242-253 | the scaler is fitted on X_train only; X_train, X_val (skipped when unset), X_test and X are transformed with that fit; nothing else changes |
| ClassradDataset.StandardizeKeepsAligned | classrad/data/dataset.py:242-253 | standardising keeps X row-aligned with the table |
| ClassradDataset.DropUnselectedFeaturesFromX | classrad/data/dataset.py:267-273 | AssertionError without selected features; otherwise X_train, X_test, X and (when set) X_val are the same tables cut down to exactly the selected columns: same rows and labels, same cells in those columns; nothing else changed |
| ClassradDataset.DropUnselectedKeepsAligned | classrad/data/dataset.py:267-273 | restricting features keeps X row-aligned with the table |
| ClassradDataset.CheckSetColumn | classrad/data/dataset.py:319-327 | passes iff a table is set and has the column |
| ClassradDataset.SetImageColumn | classrad/data/dataset.py:319-322 | sets the image column iff the table has it; otherwise ValueError with the source's message (trailing space) |
| ClassradDataset.SetMaskColumn | classrad/data/dataset.py:324-327 | sets the mask column iff the table has it; otherwise ValueError |
| ClassradDataset.SetIdColumn | classrad/data/dataset.py:329-344 | ValueError without a table; a named id column must exist and be unique |
| ClassradDataset.FromDataframe | classrad/data/dataset.py:345-359 | succeeds iff image, mask and (if named) a unique id column exist; the image column is checked first |
| ClassradDataset.FromDataframeIdsUnique | classrad/data/dataset.py:329-340 | a dataset built with a named id column has pairwise distinct ids |
| Hyperparams.ModelNames | Radiomics/training/trainer.py:25 | one name per model, in the caller's order |
| Hyperparams.SetParamsIdempotent | Radiomics/training/trainer.py:165 | setting the same parameters twice is setting them once |
| Hyperparams.GetParamGrid | Radiomics/training/trainer.py:194-209 | a grid exactly for "Random Forest", "XGBoost", "Logistic Regression" and "SVM", each its own fixed grid; none otherwise (the ValueError is returned, not raised) |
| Hyperparams.ExtendMember | Radiomics/training/trainer.py:112-152 | each candidate built from a grid row sets that key to one of its values on top of a candidate of the remaining rows |
| Hyperparams.CombinationsCount | Radiomics/training/trainer.py:112-152 | a grid has as many candidates as the product of its value-list lengths |
| Hyperparams.CombinationsDrawFromGrid | Radiomics/training/trainer.py:112-152 | every candidate sets every grid key to one of that key's listed values |
| Hyperparams.GridSizes | Radiomics/training/trainer.py:112-152 | the grids have 216, 540, 28 and 20 candidates |
| Hyperparams.ParamPath | Radiomics/training/trainer.py:156-161 | the cache path ends with `<name>.json` (or is it, when absolute) |
| Hyperparams.SaveParams | Radiomics/training/trainer.py:154-158 | writes the parameters at the model's path and changes no other file |
| Hyperparams.LoadParams | Radiomics/training/trainer.py:160-172 | FileNotFoundError when the file is absent; succeeds iff it holds valid parameters, which are then set on the model |
| Hyperparams.SaveThenLoad | Radiomics/training/trainer.py:154-172 | saved parameters load back onto the model |
| Hyperparams.UpdateModelParamsGridSearch | Radiomics/training/trainer.py:174-192 | "First select param grid!" without a grid; otherwise the best parameters are set on the model and saved at its path |
| Hyperparams.TuneHyperparameters | Radiomics/training/trainer.py:211-218 | without a grid or when the search fails nothing changes; otherwise the best parameters are set and saved |
| Hyperparams.LoadOrTune | Radiomics/training/trainer.py:220-227 | never raises; tunes exactly when loading fails; otherwise returns the loaded model with the cache unchanged |
| Hyperparams.LoadOrTuneIdempotent | Radiomics/training/trainer.py:220-227 | once parameters are cached, a second call (on the original or the returned model) loads them without tuning and returns the same model |
| Hyperparams.UnsupportedModelUnchanged | Radiomics/training/trainer.py:194-218 | a model with no grid and no cache file is returned unchanged and nothing is written |
| Hyperparams.TunedParamsFromGrid | Radiomics/training/trainer.py:174-192 | when the search returns a grid candidate, every tuned grid parameter holds one of its listed values |
| RadiomicsTrainer.LabelsAt | Radiomics/training/trainer.py:38 | `X_train.index[val_idx]` succeeds iff every position is in range; k-th label is the row label at the k-th (Python) position |
| RadiomicsTrainer.LastFold | Radiomics/training/trainer.py:37-38 | the last fold containing a label, or -1; no later fold contains it |
| RadiomicsTrainer.WriteCvSplits | Radiomics/training/trainer.py:37-38 | the fold loop keeps the row labels and adds only the cv_split column |
| RadiomicsTrainer.WriteCvSplitsOk | Radiomics/training/trainer.py:37-38 | the loop succeeds iff every fold's positions are in range and their labels are table labels |
| RadiomicsTrainer.WriteCvSplitsValues | Radiomics/training/trainer.py:36-38 | other columns are unchanged; a row's cv_split is the last fold whose validation rows contain it, or its previous value |
| RadiomicsTrainer.MarkTest | Radiomics/training/trainer.py:32-35 | succeeds iff the metadata columns exist and the test labels are table labels; metadata kept; test is 1 exactly at X_test's labels, 0 elsewhere |
| RadiomicsTrainer.InitResultDf | Radiomics/training/trainer.py:31-38 | the result table has the metadata, test and cv_split columns and the table's row labels |
| RadiomicsTrainer.InitResultDfOk | Radiomics/training/trainer.py:31-38 | initialisation succeeds iff the metadata exists, the test labels are table labels and every fold is in range with known labels |
| RadiomicsTrainer.InitResultDfValues | Radiomics/training/trainer.py:31-38 | metadata preserved; test is 1 iff the row is a test row; cv_split is the number of the last fold whose validation rows contain the row, -1 when none |
| RadiomicsTrainer.PredictFold | Radiomics/training/trainer.py:68-78 | a fold is fitted on the train positions of X_train/y_train and predicts the validation positions; its labels are X_train's labels there |
| RadiomicsTrainer.PredictFolds | Radiomics/training/trainer.py:65-78 | one output per fold, in fold order, labelled by the fold's validation labels |
| RadiomicsTrainer.OverlayAt | Radiomics/training/trainer.py:80-85 | after all folds a validation row holds the prediction of the last fold containing it |
| RadiomicsTrainer.WriteFolds | Radiomics/training/trainer.py:65-85 | writing fold by fold equals writing every fold's predictions at once, later folds winning, in both columns |
| RadiomicsTrainer.ColumnNamesDistinct | Radiomics/training/trainer.py:51-52 | a `_pred` column is never a `_pred_proba` column, and each determines the model name |
| RadiomicsTrainer.TrainModel | Radiomics/training/trainer.py:49-94 | one model's pass adds exactly its two prediction columns |
| RadiomicsTrainer.TrainModelSharedTestLabel | Radiomics/training/trainer.py:86-94 | a test label that several result rows share makes the test write raise ValueError, as pandas does when a `.loc` list write selects more rows than values |
| RadiomicsTrainer.TrainModelOverlay | Radiomics/training/trainer.py:53-94 | the pass is: both columns set to -1, fold predictions overlaid, test predictions written at the test labels |
| RadiomicsTrainer.TrainModelCells | Radiomics/training/trainer.py:53-94 | other cells unchanged; a test row holds the test prediction; else a validation row holds its last fold's prediction; else both cells are -1 |
| RadiomicsTrainer.TrainModelRows | Radiomics/training/trainer.py:53-94 | the pass keeps the rows, their labels and every cell outside the model's prediction and probability columns |
| RadiomicsTrainer.LoadOrTuneKeepsName | Radiomics/training/trainer.py:63 | resolving parameters keeps the model's name, so its columns are named after it |
| RadiomicsTrainer.TrainAll | Radiomics/training/trainer.py:49-94 | rows and labels kept; the columns are the previous ones plus every model's two columns; cells outside the model columns unchanged |
| RadiomicsTrainer.TrainAllColumnOrder | Radiomics/training/trainer.py:49-54 | with distinct model names, the columns are appended per model in the models' order |
| RadiomicsTrainer.ResultsPath | Radiomics/training/trainer.py:99-101 | the results file ends with `predictions_<task>.csv` |
| RadiomicsTrainer.TrainCrossValidation | Radiomics/training/trainer.py:40-97 | succeeds only after initialisation succeeded; the prediction table keeps the row labels and has the metadata, test, cv_split and every model's columns; it is saved at the results path |
| RadiomicsTrainer.TrainCrossValidationMarks | Radiomics/training/trainer.py:31-95 | in the final table test is 1 iff the row is a test row and cv_split is its last validation fold (or -1), unless a model column shadows them |
| OptunaTrainer.NewTrainer | autorad/training/trainer.py:30-43 | a new trainer has no optimizer |
| OptunaTrainer.SetOptimizer | autorad/training/trainer.py:45-51 | succeeds iff the name is "optuna"; otherwise ValueError "Optimizer not recognized."; nothing else changes |
| OptunaTrainer.GetOptimizer | autorad/training/trainer.py:53-57 | raises "Optimizer is not set!" exactly while no optimizer is set |
| OptunaTrainer.OptimizerAfterSet | autorad/training/trainer.py:45-57 | a new trainer's optimizer raises; after a successful set it is Optuna with the requested trial count |
| OptunaTrainer.Suggest | autorad/training/trainer.py:111-117 | a categorical suggestion is one of the choices; ValueError when there are none |
| OptunaTrainer.SuggestReachesEveryChoice | autorad/training/trainer.py:129-131 | every choice is the suggestion of some trial |
| OptunaTrainer.Lookup | autorad/training/trainer.py:116-118 | a key lookup finds an entry iff the key is present |
| OptunaTrainer.OptimizePreprocessing | autorad/training/trainer.py:107-120 | FileNotFoundError at `preprocessed.pkl` when absent; otherwise the feature-selection method is one of the file's keys, the oversampling method one of that entry's keys, and the data is stored under both; both choices are recorded |
| OptunaTrainer.TrialData | autorad/training/trainer.py:124-127 | with auto-preprocessing the data comes from the lookup; otherwise it is `dataset.data`, which raises until a split is loaded |
| OptunaTrainer.Mean | autorad/training/trainer.py:151 | NaN exactly for no values; otherwise mean × count = sum |
| OptunaTrainer.ScoreFoldsSpec | autorad/training/trainer.py:135-150 | if every fold fits, the fold AUCs in fold order; else the first failing fit decides: NaN for ValueError, the exception itself otherwise |
| OptunaTrainer.TrialModel | autorad/training/trainer.py:59-62 | the model looked up by name keeps its name; every parameter `param_fn` returns is set to its value, and the model's other parameters are kept |
| OptunaTrainer.TrialModelStable | autorad/training/trainer.py:59-62 | setting the trial's parameters again leaves the trial model unchanged |
| OptunaTrainer.Objective | autorad/training/trainer.py:122-160 | a recorded AUC equals the returned value; a result requires the data step to succeed and a model to exist; the model name recorded is one of the models' names |
| OptunaTrainer.ObjectiveOutcomes | autorad/training/trainer.py:143-153 | all folds fit: value = mean of fold AUCs, recorded with the model; a fit ValueError first: NaN and nothing recorded; another exception propagates |
| OptunaTrainer.SaveBestParams | autorad/training/trainer.py:102-105 | the best parameters go to `result_dir/best_params.json` |
| OptunaTrainer.SaveBestPreprocessor | autorad/training/trainer.py:64-74 | succeeds iff both preprocessing choices were recorded and the dataset is split; KeyError for a missing feature-selection choice |
| OptunaTrainer.SaveBestModel | autorad/training/trainer.py:96-100 | succeeds iff the best trial recorded a model, and logs it with its AUC |
| OptunaTrainer.RunAsWritten | autorad/training/trainer.py:76-94 | without an optimizer, or with no completed trial, the run raises before saving anything; otherwise the best parameters are saved first |
| OptunaTrainer.RunAsWrittenWithPreprocessing | autorad/training/trainer.py:76-94 | with `auto_preprocess` the code as written is the corrected run, so it saves parameters, preprocessor and model in that order |
| OptunaTrainer.ObjectiveParamsWithoutPreprocessing | autorad/training/trainer.py:122-131 | without automatic preprocessing a trial records no "feature_selection_method" unless a model's `param_fn` suggests it on the trial, which is why `run` can later miss it |
| OptunaTrainer.RunAsWrittenFailsWithoutPreprocessing | autorad/training/trainer.py:92-94 | as written, a best trial without a preprocessing choice saves the parameters and then ends in KeyError; the model is never saved |
| OptunaTrainer.Run | autorad/training/trainer.py:76-94 | without an optimizer, or with no completed trial, nothing is saved and the run raises |
| OptunaTrainer.RunSavesInOrder | autorad/training/trainer.py:83-105 | a completed study is saved as parameters (at `best_params.json`), then the preprocessor when preprocessing was optimised, then the model |
| OptunaTrainer.RunEffectsArePrefix | autorad/training/trainer.py:92-94 | every run saves the parameters first; a run without error ends with the model saved; an error comes from the model or preprocessor step |
| Text.PathJoin | autorad/data/dataset.py:355 | an absolute second part replaces the root; otherwise the result starts with the root and ends with the second part |

## Left out

- The pandas model is small. DataFrames hold cells of a few scalar kinds.
  Dtypes, NaN arithmetic, `drop_duplicates` beyond keep-first and
  copy-versus-view semantics are not modelled. An exception discards any
  partial mutation the source made before raising.
- These are parameters and are not modelled:
  - classifier `fit` and `predict` (`Learner`, `Learning.fit`);
  - `GridSearchCV` (`Search`);
  - the splitters `split_full_dataset` and `split_cross_validation`;
  - `get_pyradiomics_names`;
  - the scaler arithmetic;
  - `get_model_by_name`;
  - a model's `param_fn`: the dictionary it returns (`Learning.paramFn`)
    and the names and values it suggests on the trial (`Learning.suggested`);
  - `roc_auc_score`;
  - Optuna's sampler, study and best-trial selection.
- JSON, CSV and pickle I/O are not modelled. The parameter cache is a map
  from path to file content. The preprocessed pickle is an optional value.
  The results table and the split document are values.
- Directory creation, printing, logging and mlflow tracking are not
  modelled. They are side effects with no bearing on results.
- Trainer set-up steps the model does not contain:
  - `Radiomics/training/trainer.py` calls `standardize_features` and
    `select_features` between initialising the result table and training;
  - that dataset module is not part of this model.
  - `RadiomicsTrainer.TrainCrossValidation` takes the training and test
    partitions as they are after those steps;
  - fold selection follows `get_cross_validation_fold` as modelled for
    classrad.
- autorad `get_train_test_split_from_column` and
  `split_train_val_test_from_column`: not modelled. The first indexes a
  label Series by a column name. The second passes keywords `TrainingData`
  does not accept. Both fail on every input.
- classrad `cross_validation_split_test_from_column`: not modelled. It
  unpacks the dataset object as a 4-tuple, so it fails on every input.
- classrad `cross_validation_split`, `full_split`,
  `standardize_features_cross_validation`, `inverse_standardize` and
  `boxplot_by_class`: not modelled. They are sklearn splitting, scaling and
  plotting with nothing to state beyond the splitter's output.
- `TrainingData.__repr__` is not modelled. It is formatting only.
- The commented-out grouped k-fold is not modelled.
- `n_jobs` parallelism is not modelled.
- ClassradDataset.SetIdColumn: without a name, the source writes the row
  index into a column keyed `None`. The model only records that no id
  column is set, because a column name is a string here.
- ClassradDataset.GetCrossValidationFold: the message printed when no folds
  exist is not modelled.
- ClassradDataset.AppendAll: after a fold was selected by position, the
  fold attributes are single frames. Appending to them raises
  AttributeError, as pandas 2 does. Older pandas had `DataFrame.append`
  with different behaviour.
- Hyperparams.SetParams: `set_params` of the model wrapper is not part of
  this model. It is taken as a map merge in which the new values win.
- Hyperparams.LoadParams:
  - the FileNotFoundError carries the file's path rather than the source's
    message text;
  - an unparsable file raises ValueError, as the JSON reader does.
- Hyperparams.UpdateModelParamsGridSearch: a failing grid search is a
  `FitFailed` exception in place of whatever sklearn raises. Only the fact
  that it raises matters to the callers.
- RadiomicsTrainer.TrainAllColumnOrder: it is stated only for distinct model
  names and for a result table that lacks their columns. With repeated names
  pandas overwrites the existing columns in place, so the order is not
  simply appended.
- OptunaTrainer.Suggest: the sampler's choice is any position, read modulo
  the number of choices. Optuna's own checks on repeated parameter names
  are not modelled.
- OptunaTrainer.ScoreFoldsSpec: `Learning.auc` is a total function returning
  a real, so prediction and scoring never raise here. In the source,
  `predict_proba_binary` and `roc_auc_score` (autorad/training/trainer.py:148-149)
  run outside the `try` around `fit`. scikit-learn's `roc_auc_score` raises
  ValueError on a validation fold with a single class. That exception would
  leave `_objective`, Optuna's `optimize` re-raises it by default, and `run`
  stops before any save. This path is not modelled.
- OptunaTrainer.Objective: the trial's parameters are a map. The order in
  which Optuna records them is not modelled.
- OptunaTrainer.Objective: a classifier is a value here. The source calls
  `set_params` on the object `get_model_by_name` returns and stores a
  reference to that object as the trial's "model" attribute. If that
  function hands out one shared instance, a later trial changes the model
  an earlier trial recorded. `get_model_by_name` is not part of this model,
  so each trial's model is taken as its own value.
- AutoradDataset.FullSplitWithTestFromColumn: when the label column is the
  test column (and not the id column), the source indexes the table with a
  boolean table and then calls `tolist` on a table. The model raises the
  AttributeError from `tolist`; whether pandas' alignment of the boolean
  table raises first depends on the pandas version.
- OptunaTrainer.SaveBestModel: it logs the model as the best trial recorded
  it. Under the sharing described for `Objective`, the source could log the
  state a later trial left on the shared object; that is not modelled.
- AutoradDataset.FullSplitWithTestFromColumn: the saved document has no
  "split_type" entry. The source writes a free-text description there,
  formatted from the column name and the test value with Python's `str`,
  and nothing reads it back.

## Findings

| source | as written | input that shows it | evidently intended | confidence | as-written member | corrected member |
|---|---|---|---|---|---|---|
| autorad/training/trainer.py:92-94 | `run` always calls `save_best_preprocessor`, which reads `params["feature_selection_method"]`; that parameter is only suggested when `auto_preprocess` is true | `run(auto_preprocess=False)` (the default) with models whose `param_fn` does not suggest preprocessing: best_params.json is written, then KeyError, and the best model is never saved | save the preprocessor only when preprocessing was optimised, then save the model | medium, not executed | OptunaTrainer.RunAsWrittenFailsWithoutPreprocessing | OptunaTrainer.RunSavesInOrder |

=== FILE: autorad_dataset.dfy ===
/** The autorad feature and image datasets: training-data accessors, applying
    a persisted split document, the id/label consistency check made before a
    split is built, and ImageDataset column validation, id assignment and path
    resolution. */
module AutoradDataset {
  import opened Wrappers
  import opened Seqs
  import opened Text
  import opened Frames
  import opened SplitDocuments

  /** One role's partitions (TrainingInput, TrainingLabels or TrainingMeta). */
  datatype Partitions = Partitions(
    train: Frame, test: Frame, val: Option<Frame>,
    trainFolds: seq<Frame>, valFolds: seq<Frame>)

  /** Features, labels and metadata split alike, plus the preprocessed
      features and labels once preprocessing has run. */
  datatype TrainingData = TrainingData(
    X: Partitions, y: Partitions, meta: Partitions,
    xPreprocessed: Option<Partitions>, yPreprocessed: Option<Partitions>)

  /** `TrainingData.X_preprocessed`: raises while preprocessing has not run. */
  function XPreprocessed(d: TrainingData): (r: Result<Partitions>)
    ensures r.Raise? <==> d.xPreprocessed.None?
    ensures r.Ok? ==> Some(r.value) == d.xPreprocessed
  {
    match d.xPreprocessed
    case None => Raise(ValueError("Preprocessing not performed!"))
    case Some(p) => Ok(p)
  }

  /** `TrainingData.selected_features`: the preprocessed training columns. */
  function SelectedFeatures(d: TrainingData): (r: Result<seq<string>>)
    ensures r.Raise? <==> d.xPreprocessed.None?
  {
    match d.xPreprocessed
    case None => Raise(ValueError("Feature selection not performed!"))
    case Some(p) => Ok(p.train.columns)
  }

  /** The two accessors fail together, and once preprocessing has run the
      selected features are exactly the columns of the preprocessed training
      features. */
  lemma SelectedFeaturesArePreprocessedColumns(d: TrainingData)
    ensures SelectedFeatures(d).Ok? <==> XPreprocessed(d).Ok?
    ensures SelectedFeatures(d).Ok? ==> SelectedFeatures(d).value == XPreprocessed(d).value.train.columns
  {
  }

  /** A FeatureDataset: the table, its column roles, and the split state. */
  datatype FeatureDataset = FeatureDataset(
    df: Frame, target: string, idColumn: string,
    features: seq<string>, metaColumns: seq<string>,
    split: Option<TrainingData>, cvSplits: Option<seq<FoldIds>>)
  {
    /** `self.X`: the feature columns. */
    function X(): Frame { Frame(features, ProjectRows(df.rows, features)) }
    /** `self.meta_df`: the metadata columns followed by the id column. */
    function MetaColumnsWithId(): seq<string> { metaColumns + [idColumn] }
  }

  /** `FeatureDataset(...)`: features default to the radiomics-named columns
      (`radiomicsNames` stands for the name filter, which is not modelled);
      KeyError when a feature, the target, a metadata or the id column is absent. */
  function NewFeatureDataset(
    df: Frame, target: string, idColumn: string, features: Option<seq<string>>,
    metaColumns: seq<string>, radiomicsNames: seq<string> -> seq<string>): (r: Result<FeatureDataset>)
    ensures r.Ok? <==>
      var fs := features.GetOr(radiomicsNames(df.columns));
      (forall c :: c in fs + [target] + metaColumns + [idColumn] ==> c in df.columns)
    ensures r.Ok? ==> r.value.split.None? && r.value.cvSplits.None? && r.value.df == df
    ensures r.Ok? ==> r.value.features == features.GetOr(radiomicsNames(df.columns))
  {
    var fs := features.GetOr(radiomicsNames(df.columns));
    :- HasColumns(df, fs);
    :- HasColumns(df, [target]);
    :- HasColumns(df, metaColumns + [idColumn]);
    Ok(FeatureDataset(df, target, idColumn, fs, metaColumns, None, None))
  }

  /** `FeatureDataset.data`: raises until a split has been loaded. */
  function Data(ds: FeatureDataset): (r: Result<TrainingData>)
    ensures r.Raise? <==> ds.split.None?
    ensures r.Ok? ==> Some(r.value) == ds.split
  {
    match ds.split
    case None => Raise(AttributeError("Data is not split into training/validation/test."))
    case Some(d) => Ok(d)
  }

  /** `part` holds, in table order, the rows of df where `keep` is true,
      restricted to `cols`. */
  predicate RowsOf(part: Frame, df: Frame, cols: seq<string>, keep: seq<bool>) {
    |keep| == |df.rows| && part.columns == cols && part.rows == ProjectRows(Select(df.rows, keep), cols)
  }

  /** `view.loc[keep]` for the `cols` view of df: the kept rows, restricted
      to `cols`. */
  function Part(df: Frame, cols: seq<string>, keep: seq<bool>): (part: Frame)
    requires |keep| == |df.rows|
    ensures RowsOf(part, df, cols, keep)
  {
    SelectProjectRows(df.rows, keep, cols);
    Where(Frame(cols, ProjectRows(df.rows, cols)), keep)
  }

  /** Splits the `cols` view of df: test rows are those whose `col` value is a
      test id, train rows the rest, and fold i's rows are those whose value is
      among fold i's training (validation) ids. */
  function SplitBy(df: Frame, cols: seq<string>, col: string, testIds: seq<Value>, folds: seq<FoldIds>): (p: Partitions)
    ensures RowsOf(p.test, df, cols, IsIn(df, col, testIds))
    ensures RowsOf(p.train, df, cols, Negate(IsIn(df, col, testIds)))
    ensures p.val.None?
    ensures |p.trainFolds| == |folds| && |p.valFolds| == |folds|
    ensures forall i :: 0 <= i < |folds| ==>
      RowsOf(p.trainFolds[i], df, cols, IsIn(df, col, folds[i].trainIds))
      && RowsOf(p.valFolds[i], df, cols, IsIn(df, col, folds[i].valIds))
  {
    var testRows := IsIn(df, col, testIds);
    Partitions(
      Part(df, cols, Negate(testRows)), Part(df, cols, testRows), None,
      seq(|folds|, i requires 0 <= i < |folds| => Part(df, cols, IsIn(df, col, folds[i].trainIds))),
      seq(|folds|, i requires 0 <= i < |folds| => Part(df, cols, IsIn(df, col, folds[i].valIds))))
  }

  /** `load_splits_from_json`: applies a split document, matching rows on the
      `splitOn` column (the id column by default). KeyError when that column
      or one of the keys fold_0 .. fold_{n-1} is absent, n being the number of
      entries under "train"; the dataset is then unchanged. */
  function LoadSplitsFromJson(ds: FeatureDataset, doc: SplitDocument, splitOn: Option<string>): (r: Result<FeatureDataset>)
    ensures var col := splitOn.GetOr(ds.idColumn);
      r.Ok? <==> col in ds.df.columns && forall i :: 0 <= i < |doc.train| ==> Lookup(doc.train, FoldKey(i)).Some?
    ensures r.Ok? ==> r.value.df == ds.df && r.value.features == ds.features && r.value.split.Some?
    ensures r.Ok? ==> r.value == ds.(split := r.value.split, cvSplits := r.value.cvSplits)
    ensures r.Ok? ==> r.value.cvSplits.Some? && |r.value.cvSplits.value| == |doc.train|
    ensures r.Ok? ==> forall i :: 0 <= i < |doc.train| ==>
      Lookup(doc.train, FoldKey(i)) == Some(r.value.cvSplits.value[i])
    ensures r.Ok? ==>
      var col := splitOn.GetOr(ds.idColumn);
      var d := r.value.split.value;
      var test := IsIn(ds.df, col, doc.test);
      var n := |doc.train|;
      && RowsOf(d.X.test, ds.df, ds.features, test)
      && RowsOf(d.y.test, ds.df, [ds.target], test)
      && RowsOf(d.meta.test, ds.df, ds.MetaColumnsWithId(), test)
      && RowsOf(d.X.train, ds.df, ds.features, Negate(test))
      && RowsOf(d.y.train, ds.df, [ds.target], Negate(test))
      && RowsOf(d.meta.train, ds.df, ds.MetaColumnsWithId(), Negate(test))
      && |d.X.trainFolds| == n && |d.X.valFolds| == n
      && |d.y.trainFolds| == n && |d.y.valFolds| == n
      && |d.meta.trainFolds| == n && |d.meta.valFolds| == n
      && (forall i :: 0 <= i < n ==>
           var fold := r.value.cvSplits.value[i];
           && RowsOf(d.X.trainFolds[i], ds.df, ds.features, IsIn(ds.df, col, fold.trainIds))
           && RowsOf(d.X.valFolds[i], ds.df, ds.features, IsIn(ds.df, col, fold.valIds))
           && RowsOf(d.y.trainFolds[i], ds.df, [ds.target], IsIn(ds.df, col, fold.trainIds))
           && RowsOf(d.y.valFolds[i], ds.df, [ds.target], IsIn(ds.df, col, fold.valIds))
           && RowsOf(d.meta.trainFolds[i], ds.df, ds.MetaColumnsWithId(), IsIn(ds.df, col, fold.trainIds))
           && RowsOf(d.meta.valFolds[i], ds.df, ds.MetaColumnsWithId(), IsIn(ds.df, col, fold.valIds)))
  {
    var col := splitOn.GetOr(ds.idColumn);
    :- HasColumns(ds.df, [col]);
    var folds :- CvSplits(doc);
    var data := TrainingData(
      SplitBy(ds.df, ds.features, col, doc.test, folds),
      SplitBy(ds.df, [ds.target], col, doc.test, folds),
      SplitBy(ds.df, ds.MetaColumnsWithId(), col, doc.test, folds),
      None, None);
    Ok(ds.(split := Some(data), cvSplits := Some(folds)))
  }

  /** After loading, the test and training feature rows are a disjoint cover
      of the table: each row lands in exactly one of them, and a row is a test
      row exactly when its `splitOn` value is a test id. */
  lemma LoadSplitsCoversTable(ds: FeatureDataset, doc: SplitDocument, splitOn: Option<string>, i: int)
    requires LoadSplitsFromJson(ds, doc, splitOn).Ok?
    requires 0 <= i < |ds.df.rows|
    ensures var d := LoadSplitsFromJson(ds, doc, splitOn).value.split.value;
      multiset(d.X.test.rows) + multiset(d.X.train.rows) == multiset(ds.X().rows)
    ensures var d := LoadSplitsFromJson(ds, doc, splitOn).value.split.value;
      var row := ProjectRow(ds.df.rows[i], ds.features);
      Get(ds.df.rows[i], splitOn.GetOr(ds.idColumn)) in doc.test ==> row in d.X.test.rows
    ensures var d := LoadSplitsFromJson(ds, doc, splitOn).value.split.value;
      var row := ProjectRow(ds.df.rows[i], ds.features);
      Get(ds.df.rows[i], splitOn.GetOr(ds.idColumn)) !in doc.test ==> row in d.X.train.rows
  {
    var d := LoadSplitsFromJson(ds, doc, splitOn).value.split.value;
    var test := IsIn(ds.df, splitOn.GetOr(ds.idColumn), doc.test);
    var view := ProjectRows(ds.df.rows, ds.features);
    SelectProjectRows(ds.df.rows, test, ds.features);
    SelectProjectRows(ds.df.rows, Negate(test), ds.features);
    SelectPartition(view, test);
    SelectMember(view, test, view[i]);
    SelectMember(view, Negate(test), view[i]);
  }

  /** The id and label of every row, de-duplicated keeping first occurrences. */
  function IdLabelPairs(df: Frame, idCol: string, labelCol: string): (ps: seq<(Value, Value)>)
    ensures |ps| == |df.rows|
    ensures forall i :: 0 <= i < |df.rows| ==> ps[i] == (Get(df.rows[i], idCol), Get(df.rows[i], labelCol))
  {
    seq(|df.rows|, i requires 0 <= i < |df.rows| => (Get(df.rows[i], idCol), Get(df.rows[i], labelCol)))
  }

  /** Every id occurs with one label only. */
  predicate ConsistentLabels(df: Frame, idCol: string, labelCol: string) {
    forall i, j :: (0 <= i < |df.rows| && 0 <= j < |df.rows|
      && Get(df.rows[i], idCol) == Get(df.rows[j], idCol)) ==> Get(df.rows[i], labelCol) == Get(df.rows[j], labelCol)
  }

  /** The error raised when a column selection that names a column twice
      yields a table, and a Series attribute is then asked of it. */
  function NotASeries(attribute: string): Exception {
    AttributeError("'DataFrame' object has no attribute '" + attribute + "'")
  }

  /** The error raised when an id occurs with more than one label. */
  function VaryingLabels(col: string): Exception {
    ValueError("Selected column " + col + " has varying labels for the same ID!")
  }

  /** The aligned id and label lists handed to the splitter. */
  datatype IdLabels = IdLabels(ids: seq<Value>, labels: seq<Value>)

  /** The id/label consistency step of `full_split`: de-duplicates (id, label)
      pairs and raises ValueError if an id is left with more than one label.
      When the id column is the target, the selected table has that column
      twice, selecting it gives a table rather than a column, and asking that
      for `is_unique` raises AttributeError. */
  function CheckIdLabels(ds: FeatureDataset, splitOn: Option<string>): (r: Result<IdLabels>)
    ensures var col := splitOn.GetOr(ds.idColumn);
      r.Ok? <==> (col in ds.df.columns && ds.target in ds.df.columns && col != ds.target
        && ConsistentLabels(ds.df, col, ds.target))
    ensures var col := splitOn.GetOr(ds.idColumn);
      (col in ds.df.columns && col == ds.target) ==> r == Raise(NotASeries("is_unique"))
    ensures var col := splitOn.GetOr(ds.idColumn);
      (col in ds.df.columns && ds.target in ds.df.columns && col != ds.target
        && !ConsistentLabels(ds.df, col, ds.target)) ==> r == Raise(VaryingLabels(col))
    ensures r.Ok? ==> |r.value.ids| == |r.value.labels| && NoDuplicates(r.value.ids)
    ensures r.Ok? ==> PairsCoverRows(ds.df, splitOn.GetOr(ds.idColumn), ds.target, r.value)
  {
    var col := splitOn.GetOr(ds.idColumn);
    :- HasColumns(ds.df, [col, ds.target]);
    :- Need(col != ds.target, NotASeries("is_unique"));
    var pairs := Distinct(IdLabelPairs(ds.df, col, ds.target));
    IdLabelPairsUnique(ds.df, col, ds.target);
    IdLabelPairsCover(ds.df, col, ds.target);
    :- Need(NoDuplicates(Firsts(pairs)), VaryingLabels(col));
    Ok(IdLabels(Firsts(pairs), Seconds(pairs)))
  }

  /** The aligned lists hold, position by position, exactly the (id, label)
      pairs that occur in the table's rows. */
  ghost predicate PairsCoverRows(df: Frame, col: string, lab: string, il: IdLabels)
    requires |il.ids| == |il.labels|
  {
    forall p :: p in Zip(il.ids, il.labels) <==> p in IdLabelPairs(df, col, lab)
  }

  /** Unique ids after de-duplicating the pairs is the same as consistent labels. */
  lemma IdLabelPairsUnique(df: Frame, col: string, lab: string)
    ensures NoDuplicates(Firsts(Distinct(IdLabelPairs(df, col, lab)))) <==> ConsistentLabels(df, col, lab)
  {
    var raw := IdLabelPairs(df, col, lab);
    DistinctKeysUnique(raw);
    if ConsistentLabels(df, col, lab) {
      forall i, j | 0 <= i < |raw| && 0 <= j < |raw| && raw[i].0 == raw[j].0
        ensures raw[i].1 == raw[j].1
      {
      }
    } else {
      var i, j :| 0 <= i < |df.rows| && 0 <= j < |df.rows|
        && Get(df.rows[i], col) == Get(df.rows[j], col) && Get(df.rows[i], lab) != Get(df.rows[j], lab);
      assert raw[i].0 == raw[j].0 && raw[i].1 != raw[j].1;
    }
  }

  /** The de-duplicated pairs cover the rows. */
  lemma IdLabelPairsCover(df: Frame, col: string, lab: string)
    ensures var pairs := Distinct(IdLabelPairs(df, col, lab));
      PairsCoverRows(df, col, lab, IdLabels(Firsts(pairs), Seconds(pairs)))
  {
    ZipFirstsSeconds(Distinct(IdLabelPairs(df, col, lab)));
  }

  /** `full_split`: checks id/label consistency, then hands the ids and labels
      to the splitter (`splitFull`, not modelled) and returns the document it
      produces for saving. */
  function FullSplit(
    ds: FeatureDataset, splitOn: Option<string>, testSize: real, nSplits: nat,
    splitFull: (seq<Value>, seq<Value>, real, nat) -> SplitDocument): (r: Result<SplitDocument>)
    ensures r.Ok? <==> CheckIdLabels(ds, splitOn).Ok?
    ensures r.Ok? ==> var il := CheckIdLabels(ds, splitOn).value;
      r.value == splitFull(il.ids, il.labels, testSize, nSplits)
  {
    var il :- CheckIdLabels(ds, splitOn);
    Ok(splitFull(il.ids, il.labels, testSize, nSplits))
  }

  /** The id, label and test-column value of every row. */
  function IdRecords(df: Frame, idCol: string, labelCol: string, column: string): (ps: seq<(Value, (Value, Value))>)
    ensures |ps| == |df.rows|
    ensures forall i :: 0 <= i < |df.rows| ==>
      ps[i] == (Get(df.rows[i], idCol), (Get(df.rows[i], labelCol), Get(df.rows[i], column)))
  {
    seq(|df.rows|, i requires 0 <= i < |df.rows| =>
      (Get(df.rows[i], idCol), (Get(df.rows[i], labelCol), Get(df.rows[i], column))))
  }

  /** Every id occurs with one label and one test-column value only. */
  predicate ConsistentRecords(df: Frame, idCol: string, labelCol: string, column: string) {
    forall i, j :: (0 <= i < |df.rows| && 0 <= j < |df.rows|
      && Get(df.rows[i], idCol) == Get(df.rows[j], idCol)) ==>
        Get(df.rows[i], labelCol) == Get(df.rows[j], labelCol) && Get(df.rows[i], column) == Get(df.rows[j], column)
  }

  /** The outcome of a split with a predefined test set. */
  datatype ColumnSplit = ColumnSplit(
    testIds: seq<Value>, trainIds: seq<Value>, trainLabels: seq<Value>, document: SplitDocument)

  /** Membership in the test or training side of a column split, by id. */
  predicate IdWhere(df: Frame, idCol: string, column: string, testValue: Value, isTest: bool, v: Value) {
    exists i :: 0 <= i < |df.rows| && Get(df.rows[i], idCol) == v && (Get(df.rows[i], column) == testValue) == isTest
  }

  /** Unique ids after de-duplicating the records is the same as consistent records. */
  lemma IdRecordsUnique(df: Frame, col: string, lab: string, column: string)
    ensures NoDuplicates(Firsts(Distinct(IdRecords(df, col, lab, column)))) <==> ConsistentRecords(df, col, lab, column)
  {
    var raw := IdRecords(df, col, lab, column);
    DistinctKeysUnique(raw);
    if ConsistentRecords(df, col, lab, column) {
      forall i, j | 0 <= i < |raw| && 0 <= j < |raw| && raw[i].0 == raw[j].0
        ensures raw[i].1 == raw[j].1
      {
      }
    } else {
      var i, j :| 0 <= i < |df.rows| && 0 <= j < |df.rows|
        && Get(df.rows[i], col) == Get(df.rows[j], col)
        && !(Get(df.rows[i], lab) == Get(df.rows[j], lab) && Get(df.rows[i], column) == Get(df.rows[j], column));
      assert raw[i].0 == raw[j].0 && raw[i].1 != raw[j].1;
    }
  }

  /** `full_split_with_test_from_column`: the test ids are the distinct ids
      whose `column` equals `testValue`, the cross-validation input is the
      distinct ids (with labels) whose `column` differs from it, and the folds
      come from the cross-validation splitter (`crossValidate`, not modelled).
      De-duplication is over (id, label, column) triples, so an id that varies
      in either label or column raises ValueError. The three column names must
      differ: a name given twice makes the selection a table, and the first
      Series attribute asked of it raises AttributeError (`is_unique` when the
      id column is repeated, `tolist` when the label column is the test
      column). */
  function FullSplitWithTestFromColumn(
    ds: FeatureDataset, column: string, testValue: Value, splitOn: Option<string>,
    splitLabel: Option<string>, nSplits: nat,
    crossValidate: (seq<Value>, seq<Value>, nat) -> FoldTable): (r: Result<ColumnSplit>)
    ensures var col := splitOn.GetOr(ds.idColumn);
      var lab := splitLabel.GetOr(ds.target);
      r.Ok? <==> (col in ds.df.columns && lab in ds.df.columns && column in ds.df.columns
        && col != lab && col != column && lab != column
        && ConsistentRecords(ds.df, col, lab, column))
    ensures var col := splitOn.GetOr(ds.idColumn);
      var lab := splitLabel.GetOr(ds.target);
      (col in ds.df.columns && lab in ds.df.columns && column in ds.df.columns
        && (col == lab || col == column)) ==> r == Raise(NotASeries("is_unique"))
    ensures var col := splitOn.GetOr(ds.idColumn);
      var lab := splitLabel.GetOr(ds.target);
      (col in ds.df.columns && lab in ds.df.columns && column in ds.df.columns
        && col != lab && col != column
        && !ConsistentRecords(ds.df, col, lab, column)) ==> r == Raise(VaryingLabels(col))
    ensures var col := splitOn.GetOr(ds.idColumn);
      var lab := splitLabel.GetOr(ds.target);
      (col in ds.df.columns && lab in ds.df.columns && column in ds.df.columns
        && col != lab && col != column && lab == column
        && ConsistentRecords(ds.df, col, lab, column)) ==> r == Raise(NotASeries("tolist"))
    ensures r.Ok? ==> NoDuplicates(r.value.testIds) && NoDuplicates(r.value.trainIds)
    ensures r.Ok? ==>
      var recs := Distinct(IdRecords(ds.df, splitOn.GetOr(ds.idColumn), splitLabel.GetOr(ds.target), column));
      var isTrain := TrainMask(recs, testValue);
      && r.value.testIds == Firsts(Select(recs, Negate(isTrain)))
      && r.value.trainIds == Firsts(Select(recs, isTrain))
      && r.value.trainLabels == TrainLabels(Select(recs, isTrain))
    ensures r.Ok? ==> var col := splitOn.GetOr(ds.idColumn);
      forall v :: v in r.value.testIds <==> IdWhere(ds.df, col, column, testValue, true, v)
    ensures r.Ok? ==> var col := splitOn.GetOr(ds.idColumn);
      forall v :: v in r.value.trainIds <==> IdWhere(ds.df, col, column, testValue, false, v)
    ensures r.Ok? ==> |r.value.trainLabels| == |r.value.trainIds|
    ensures r.Ok? ==> var col := splitOn.GetOr(ds.idColumn);
      var lab := splitLabel.GetOr(ds.target);
      forall p :: p in Zip(r.value.trainIds, r.value.trainLabels) ==> p in IdLabelPairs(ds.df, col, lab)
    ensures r.Ok? ==> (r.value.document.test == r.value.testIds
      && r.value.document.train == crossValidate(r.value.trainIds, r.value.trainLabels, nSplits))
  {
    var col := splitOn.GetOr(ds.idColumn);
    var lab := splitLabel.GetOr(ds.target);
    :- HasColumns(ds.df, [col, lab, column]);
    :- Need(col != lab && col != column, NotASeries("is_unique"));
    var recs := Distinct(IdRecords(ds.df, col, lab, column));
    IdRecordsUnique(ds.df, col, lab, column);
    :- Need(NoDuplicates(Firsts(recs)), VaryingLabels(col));
    :- Need(lab != column, NotASeries("tolist"));
    var isTrain := TrainMask(recs, testValue);
    var train := Select(recs, isTrain);
    var test := Select(recs, Negate(isTrain));
    SelectUniqueKeys(recs, isTrain);
    SelectUniqueKeys(recs, Negate(isTrain));
    ColumnSplitMembers(ds.df, col, lab, column, testValue, recs, isTrain);
    var ids := Firsts(train);
    var labels := TrainLabels(train);
    Ok(ColumnSplit(Firsts(test), ids, labels, SplitDocument(Firsts(test), crossValidate(ids, labels, nSplits))))
  }

  /** Which de-duplicated records go to cross-validation: those whose column
      value is not the test value. */
  function TrainMask(recs: seq<(Value, (Value, Value))>, testValue: Value): (isTrain: seq<bool>)
    ensures |isTrain| == |recs|
    ensures forall k :: 0 <= k < |recs| ==> (isTrain[k] <==> recs[k].1.1 != testValue)
  {
    seq(|recs|, k requires 0 <= k < |recs| => recs[k].1.1 != testValue)
  }

  /** The labels of the selected records. */
  function TrainLabels(recs: seq<(Value, (Value, Value))>): (labels: seq<Value>)
    ensures |labels| == |recs|
    ensures forall k :: 0 <= k < |recs| ==> labels[k] == recs[k].1.0
  {
    seq(|recs|, k requires 0 <= k < |recs| => recs[k].1.0)
  }

  /** Ids on each side of the column split are exactly the ids of rows on that
      side, and every training (id, label) pair is some row's pair. */
  lemma ColumnSplitMembers(
    df: Frame, col: string, lab: string, column: string, testValue: Value,
    recs: seq<(Value, (Value, Value))>, isTrain: seq<bool>)
    requires recs == Distinct(IdRecords(df, col, lab, column))
    requires |isTrain| == |recs| && forall k :: 0 <= k < |recs| ==> (isTrain[k] <==> recs[k].1.1 != testValue)
    ensures forall v :: v in Firsts(Select(recs, Negate(isTrain))) <==> IdWhere(df, col, column, testValue, true, v)
    ensures forall v :: v in Firsts(Select(recs, isTrain)) <==> IdWhere(df, col, column, testValue, false, v)
    ensures forall p :: p in Zip(Firsts(Select(recs, isTrain)), TrainLabels(Select(recs, isTrain))) ==>
      p in IdLabelPairs(df, col, lab)
  {
    SideMembers(df, col, lab, column, testValue, recs, Negate(isTrain), true);
    SideMembers(df, col, lab, column, testValue, recs, isTrain, false);
    TrainPairsFromRows(df, col, lab, column, recs, isTrain);
  }

  /** The ids selected by a mask that picks one side of the column split are
      the ids of the rows on that side. */
  lemma SideMembers(
    df: Frame, col: string, lab: string, column: string, testValue: Value,
    recs: seq<(Value, (Value, Value))>, mask: seq<bool>, isTest: bool)
    requires recs == Distinct(IdRecords(df, col, lab, column))
    requires |mask| == |recs| && forall k :: 0 <= k < |recs| ==> (mask[k] <==> (recs[k].1.1 == testValue) == isTest)
    ensures forall v :: v in Firsts(Select(recs, mask)) <==> IdWhere(df, col, column, testValue, isTest, v)
  {
    var raw := IdRecords(df, col, lab, column);
    var side := Select(recs, mask);
    forall v
      ensures v in Firsts(side) <==> IdWhere(df, col, column, testValue, isTest, v)
    {
      if v in Firsts(side) {
        var k :| 0 <= k < |side| && Firsts(side)[k] == v;
        SelectMember(recs, mask, side[k]);
        assert side[k] in raw;
      }
      if IdWhere(df, col, column, testValue, isTest, v) {
        var i :| 0 <= i < |df.rows| && Get(df.rows[i], col) == v && (Get(df.rows[i], column) == testValue) == isTest;
        assert raw[i] in recs;
        SelectMember(recs, mask, raw[i]);
        var j :| 0 <= j < |side| && side[j] == raw[i];
        assert Firsts(side)[j] == v;
      }
    }
  }

  /** Every (id, label) pair handed to the splitter is some row's pair. */
  lemma TrainPairsFromRows(
    df: Frame, col: string, lab: string, column: string,
    recs: seq<(Value, (Value, Value))>, isTrain: seq<bool>)
    requires recs == Distinct(IdRecords(df, col, lab, column)) && |isTrain| == |recs|
    ensures forall p :: p in Zip(Firsts(Select(recs, isTrain)), TrainLabels(Select(recs, isTrain))) ==>
      p in IdLabelPairs(df, col, lab)
  {
    var raw := IdRecords(df, col, lab, column);
    var train := Select(recs, isTrain);
    var zipped := Zip(Firsts(train), TrainLabels(train));
    var pairs := IdLabelPairs(df, col, lab);
    forall p | p in zipped
      ensures p in pairs
    {
      var k :| 0 <= k < |zipped| && zipped[k] == p;
      SelectMember(recs, isTrain, train[k]);
      assert train[k] in raw;
      var i :| 0 <= i < |raw| && raw[i] == train[k];
      assert pairs[i] == p;
    }
  }

  /** An ImageDataset: the table of image and mask paths, the names of those
      columns and of the id column, and the optional root directory the paths
      are relative to. */
  datatype ImageDataset = ImageDataset(
    table: Frame, imageColumn: string, maskColumn: string, idColumn: string, rootDir: Option<string>)

  /** `_check_if_in_df`: ValueError when the column is absent or holds a null. */
  function CheckColumn(df: Frame, c: string): (r: Check)
    ensures r.Pass? <==> (c in df.columns && forall i :: 0 <= i < |df.rows| ==> Get(df.rows[i], c) != Null)
    ensures c !in df.columns ==> r == Fail(ValueError(c + " not found in columns of the dataframe."))
  {
    if c !in df.columns then Fail(ValueError(c + " not found in columns of the dataframe."))
    else Need(Null !in Values(df, c), ValueError(c + " contains null values"))
  }

  /** The name given to generated ids: "ID", or "ID_autogenerated" when the
      table already has an "ID" column. */
  function AutoIdColumn(df: Frame): (c: string)
    ensures "ID" !in df.columns ==> c == "ID"
    ensures c !in df.columns || c == "ID_autogenerated"
    ensures c == "ID" || c == "ID_autogenerated"
  {
    if "ID" !in df.columns then "ID" else "ID_autogenerated"
  }

  /** `range(n)` as cell values. */
  function SequentialIds(n: nat): (ids: seq<Value>)
    ensures |ids| == n
    ensures forall i :: 0 <= i < n ==> ids[i] == Int(i)
  {
    seq(n, i requires 0 <= i < n => Int(i))
  }

  /** `ImageDataset(...)`: validates the image column, then the mask column,
      then sets the ids: a given id column must exist and hold unique values
      (ValueError otherwise); without one, sequential ids 0 .. n-1 are written
      to a fresh column. */
  function NewImageDataset(
    df: Frame, imageColumn: string, maskColumn: string, idColumn: Option<string>,
    rootDir: Option<string>): (r: Result<ImageDataset>)
    ensures r.Ok? <==> (CheckColumn(df, imageColumn).Pass? && CheckColumn(df, maskColumn).Pass?
      && (idColumn.Some? ==> idColumn.value in df.columns && NoDuplicates(Values(df, idColumn.value))))
    ensures CheckColumn(df, imageColumn).Fail? ==> r == Raise(CheckColumn(df, imageColumn).exc)
    ensures r.Ok? ==> (r.value.imageColumn == imageColumn && r.value.maskColumn == maskColumn
      && r.value.rootDir == rootDir)
    ensures r.Ok? && idColumn.Some? ==> r.value.table == df && r.value.idColumn == idColumn.value
    ensures r.Ok? && idColumn.None? ==>
      (r.value.idColumn == AutoIdColumn(df)
      && r.value.table == AssignValues(df, AutoIdColumn(df), SequentialIds(|df.rows|)))
  {
    (:- CheckColumn(df, imageColumn);
    :- CheckColumn(df, maskColumn);
    match idColumn
    case None =>
      var c := AutoIdColumn(df);
      Ok(ImageDataset(AssignValues(df, c, SequentialIds(|df.rows|)), imageColumn, maskColumn, c, rootDir))
    case Some(c) =>
      :- Need(c in df.columns, ValueError(c + " not in columns of dataframe."));
      :- Need(NoDuplicates(Values(df, c)), ValueError("IDs are not unique!"));
      Ok(ImageDataset(df, imageColumn, maskColumn, c, rootDir)))
  }

  /** A constructed dataset has unique ids, one per row, whether they were
      given or generated. */
  lemma NewImageDatasetIdsUnique(
    df: Frame, imageColumn: string, maskColumn: string, idColumn: Option<string>, rootDir: Option<string>)
    requires NewImageDataset(df, imageColumn, maskColumn, idColumn, rootDir).Ok?
    ensures var ds := NewImageDataset(df, imageColumn, maskColumn, idColumn, rootDir).value;
      NoDuplicates(Values(ds.table, ds.idColumn)) && |ds.table.rows| == |df.rows|
  {
    var ds := NewImageDataset(df, imageColumn, maskColumn, idColumn, rootDir).value;
    if idColumn.None? {
      var ids := Values(ds.table, ds.idColumn);
      forall i, j | 0 <= i < j < |ids|
        ensures ids[i] != ids[j]
      {
        assert ids[i] == Int(i) && ids[j] == Int(j);
      }
    }
  }

  /** Generating ids adds one column (or overwrites "ID_autogenerated") and
      leaves every other cell as it was. */
  lemma NewImageDatasetKeepsOtherColumns(
    df: Frame, imageColumn: string, maskColumn: string, rootDir: Option<string>, i: int, c: string)
    requires NewImageDataset(df, imageColumn, maskColumn, None, rootDir).Ok?
    requires 0 <= i < |df.rows| && c != AutoIdColumn(df)
    ensures var ds := NewImageDataset(df, imageColumn, maskColumn, None, rootDir).value;
      Get(ds.table.rows[i], c) == Get(df.rows[i], c) && ds.table.rows[i].index == df.rows[i].index
  {
  }

  /** The paths of column c joined onto root; TypeError when a cell is not a
      string. */
  function ResolvePaths(f: Frame, root: string, c: string): (r: Result<seq<Value>>)
    ensures r.Ok? <==> forall i :: 0 <= i < |f.rows| ==> Get(f.rows[i], c).Str?
    ensures r.Ok? ==> |r.value| == |f.rows|
    ensures r.Ok? ==> forall i :: 0 <= i < |f.rows| ==> r.value[i] == Str(PathJoin(root, Get(f.rows[i], c).s))
  {
    (:- Need(forall i :: 0 <= i < |f.rows| ==> Get(f.rows[i], c).Str?,
      TypeError("expected str, bytes or os.PathLike object"));
    Ok(seq(|f.rows|, i requires 0 <= i < |f.rows| => Str(PathJoin(root, Get(f.rows[i], c).s)))))
  }

  /** `ImageDataset.df`: the table itself without a root directory; otherwise a
      copy whose image and mask paths (read from the stored table) are joined
      onto the root. */
  function Df(ds: ImageDataset): (r: Result<Frame>)
    ensures ds.rootDir.None? ==> r == Ok(ds.table)
    ensures ds.rootDir.Some? ==> (r.Ok? <==> (forall i :: 0 <= i < |ds.table.rows| ==>
      Get(ds.table.rows[i], ds.imageColumn).Str? && Get(ds.table.rows[i], ds.maskColumn).Str?))
  {
    match ds.rootDir
    case None => Ok(ds.table)
    case Some(root) =>
      var images :- ResolvePaths(ds.table, root, ds.imageColumn);
      var masks :- ResolvePaths(ds.table, root, ds.maskColumn);
      Ok(AssignValues(AssignValues(ds.table, ds.imageColumn, images), ds.maskColumn, masks))
  }

  /** Resolving paths keeps the rows, their labels and every column other
      than the image and mask columns, and turns each path into one that ends
      with the stored relative path (or is it, when that path is absolute). */
  lemma DfResolvesOnlyPaths(ds: ImageDataset, i: int, c: string)
    requires Df(ds).Ok? && 0 <= i < |ds.table.rows|
    requires ds.imageColumn in ds.table.columns && ds.maskColumn in ds.table.columns
    ensures var g := Df(ds).value;
      g.columns == ds.table.columns && |g.rows| == |ds.table.rows| && g.rows[i].index == ds.table.rows[i].index
    ensures c != ds.imageColumn && c != ds.maskColumn ==> Get(Df(ds).value.rows[i], c) == Get(ds.table.rows[i], c)
    ensures ds.rootDir.Some? && (c == ds.imageColumn || c == ds.maskColumn) ==>
      Get(Df(ds).value.rows[i], c) == Str(PathJoin(ds.rootDir.value, Get(ds.table.rows[i], c).s))
  {
  }

  /** `image_paths`, `mask_paths` and `ids`: the columns of the resolved table. */
  function Column(ds: ImageDataset, c: string): (r: Result<seq<Value>>)
    ensures r.Ok? <==> Df(ds).Ok?
    ensures r.Ok? ==> |r.value| == |ds.table.rows|
    ensures r.Ok? ==> r.value == Values(Df(ds).value, c)
  {
    var g :- Df(ds);
    Ok(Values(g, c))
  }

  /** `image_paths` and `mask_paths`: with a root directory, each entry is the
      stored relative path joined onto the root; without one, the stored path. */
  lemma PathsAreResolved(ds: ImageDataset, c: string, i: int)
    requires Column(ds, c).Ok? && 0 <= i < |ds.table.rows|
    requires ds.imageColumn in ds.table.columns && ds.maskColumn in ds.table.columns
    requires c == ds.imageColumn || c == ds.maskColumn
    ensures ds.rootDir.Some? ==> Column(ds, c).value[i] == Str(PathJoin(ds.rootDir.value, Get(ds.table.rows[i], c).s))
    ensures ds.rootDir.None? ==> Column(ds, c).value[i] == Get(ds.table.rows[i], c)
  {
    DfResolvesOnlyPaths(ds, i, c);
  }

  /** The ids reported by a dataset are its id column, untouched by path
      resolution when the id column is neither path column. */
  lemma IdsAreIdColumn(ds: ImageDataset)
    requires Column(ds, ds.idColumn).Ok?
    requires ds.imageColumn in ds.table.columns && ds.maskColumn in ds.table.columns
    requires ds.idColumn != ds.imageColumn && ds.idColumn != ds.maskColumn
    ensures Column(ds, ds.idColumn).value == Values(ds.table, ds.idColumn)
  {
    var ids := Column(ds, ds.idColumn).value;
    forall i | 0 <= i < |ids|
      ensures ids[i] == Values(ds.table, ds.idColumn)[i]
    {
      DfResolvesOnlyPaths(ds, i, ds.idColumn);
    }
  }
}

=== FILE: classrad_dataset.dfy ===
/** The classrad Dataset and ImageDataset: applying a split document,
    splitting on a column value, selecting cross-validation folds by
    position, collecting the validation labels of all folds, the
    fit-on-train ordering of standardisation, restricting features after
    selection, and the ImageDataset column setters. */
module ClassradDataset {
  import opened Wrappers
  import opened Seqs
  import opened Frames
  import opened SplitDocuments

  /** A fold attribute (`X_train_fold`, ...): a list of frames after a split
      document was applied, or the single frame of the fold last selected by
      position. */
  datatype FoldSlot = FoldList(frames: seq<Frame>) | Current(frame: Frame)

  /** The scaler: unfitted, or fitted on a training table. */
  datatype Scaler = Unfitted | Fitted(fittedOn: Frame)

  /** The Dataset object's state. `y` is a one-column frame. */
  datatype Dataset = Dataset(
    df: Frame, features: seq<string>, target: string, idColumn: string,
    X: Frame, y: Frame, metaDf: Frame,
    xTrain: Option<Frame>, xVal: Option<Frame>, xTest: Option<Frame>,
    yTrain: Option<Frame>, yVal: Option<Frame>, yTest: Option<Frame>,
    metaTrain: Option<Frame>, metaTest: Option<Frame>,
    dfTrain: Option<Frame>, dfTest: Option<Frame>,
    xTrainFold: FoldSlot, xValFold: FoldSlot, yTrainFold: FoldSlot, yValFold: FoldSlot,
    labelsCvFolds: seq<Value>, cvSplits: Option<seq<FoldIndices>>, nSplits: Option<nat>,
    bestFeatures: Option<seq<string>>, scaler: Scaler)

  /** X, y and the metadata have the table's rows, label for label, so a row
      mask computed on the table selects the same rows from each. */
  predicate Aligned(ds: Dataset) {
    Index(ds.X) == Index(ds.df) && Index(ds.y) == Index(ds.df) && Index(ds.metaDf) == Index(ds.df)
  }

  /** `Dataset(...)`: KeyError when a feature, the target, a metadata column
      or the id column is absent; otherwise nothing is split yet. */
  function NewDataset(df: Frame, features: seq<string>, target: string, idColumn: string, metaColumns: seq<string>): (r: Result<Dataset>)
    ensures r.Ok? <==> forall c :: c in features + [target] + metaColumns + [idColumn] ==> c in df.columns
    ensures r.Ok? ==> Aligned(r.value)
    ensures r.Ok? ==> (r.value.X.columns == features && r.value.y.columns == [target]
      && r.value.metaDf.columns == metaColumns + [idColumn])
    ensures r.Ok? ==> (r.value.df == df && r.value.features == features
      && r.value.target == target && r.value.idColumn == idColumn)
    ensures r.Ok? ==> (r.value.xTrain.None? && r.value.xVal.None? && r.value.xTest.None?
      && r.value.yTrain.None? && r.value.yVal.None? && r.value.yTest.None?
      && r.value.metaTrain.None? && r.value.metaTest.None? && r.value.dfTrain.None? && r.value.dfTest.None?)
    ensures r.Ok? ==> (r.value.xTrainFold == FoldList([]) && r.value.xValFold == FoldList([])
      && r.value.yTrainFold == FoldList([]) && r.value.yValFold == FoldList([]))
    ensures r.Ok? ==> (r.value.labelsCvFolds == [] && r.value.cvSplits.None? && r.value.nSplits.None?
      && r.value.bestFeatures.None? && r.value.scaler.Unfitted?)
  {
    var X :- Project(df, features);
    var y :- Project(df, [target]);
    var meta :- Project(df, metaColumns + [idColumn]);
    Ok(Dataset(df, features, target, idColumn, X, y, meta,
      None, None, None, None, None, None, None, None, None, None,
      FoldList([]), FoldList([]), FoldList([]), FoldList([]),
      [], None, None, None, Unfitted))
  }

  /** `slot.append(f)` for every f in turn: a list grows; a single frame has
      no `append`, so AttributeError when there is anything to append. */
  function AppendAll(slot: FoldSlot, frames: seq<Frame>): (r: Result<FoldSlot>)
    ensures r.Ok? <==> (slot.FoldList? || |frames| == 0)
    ensures r.Ok? && slot.FoldList? ==> r.value == FoldList(slot.frames + frames)
    ensures r.Ok? && slot.Current? ==> r.value == slot
  {
    match slot
    case FoldList(fs) => Ok(FoldList(fs + frames))
    case Current(_) =>
      if |frames| == 0 then Ok(slot) else Raise(AttributeError("'DataFrame' object has no attribute 'append'"))
  }

  /** `f.loc[rows]` for the id-membership mask of every fold, in fold order. */
  function FoldFrames(ds: Dataset, f: Frame, folds: seq<FoldIds>, train: bool): (frames: seq<Frame>)
    requires Index(f) == Index(ds.df)
    ensures |frames| == |folds|
    ensures forall i :: 0 <= i < |folds| ==>
      frames[i] == Where(f, IsIn(ds.df, ds.idColumn, if train then folds[i].trainIds else folds[i].valIds))
  {
    seq(|folds|, i requires 0 <= i < |folds| =>
      Where(f, IsIn(ds.df, ds.idColumn, if train then folds[i].trainIds else folds[i].valIds)))
  }

  /** `load_splits_from_json`: the test partition of X, y and the metadata is
      the rows whose id is a test id, the training partition the others; one
      training and one validation fold of X and y is appended per entry under
      "train", in document order, whatever the entries' keys. */
  function LoadSplitsFromJson(ds: Dataset, doc: SplitDocument): (r: Result<Dataset>)
    requires Aligned(ds)
    ensures r.Ok? <==> (ds.idColumn in ds.df.columns
      && (|doc.train| == 0 || (ds.xTrainFold.FoldList? && ds.xValFold.FoldList?
        && ds.yTrainFold.FoldList? && ds.yValFold.FoldList?)))
    ensures r.Ok? ==> var test := IsIn(ds.df, ds.idColumn, doc.test);
      && r.value.xTest == Some(Where(ds.X, test)) && r.value.xTrain == Some(Where(ds.X, Negate(test)))
      && r.value.yTest == Some(Where(ds.y, test)) && r.value.yTrain == Some(Where(ds.y, Negate(test)))
      && r.value.metaTest == Some(Where(ds.metaDf, test)) && r.value.metaTrain == Some(Where(ds.metaDf, Negate(test)))
    ensures r.Ok? ==> r.value.nSplits == Some(|doc.train|)
    ensures r.Ok? && |doc.train| > 0 ==>
      (r.value.xTrainFold == FoldList(ds.xTrainFold.frames + FoldFrames(ds, ds.X, FoldsInOrder(doc), true))
      && r.value.xValFold == FoldList(ds.xValFold.frames + FoldFrames(ds, ds.X, FoldsInOrder(doc), false))
      && r.value.yTrainFold == FoldList(ds.yTrainFold.frames + FoldFrames(ds, ds.y, FoldsInOrder(doc), true))
      && r.value.yValFold == FoldList(ds.yValFold.frames + FoldFrames(ds, ds.y, FoldsInOrder(doc), false)))
    ensures r.Ok? && |doc.train| == 0 ==>
      (r.value.xTrainFold == ds.xTrainFold && r.value.xValFold == ds.xValFold
      && r.value.yTrainFold == ds.yTrainFold && r.value.yValFold == ds.yValFold)
    ensures r.Ok? ==> r.value == ds.(
      xTest := r.value.xTest, yTest := r.value.yTest, metaTest := r.value.metaTest,
      xTrain := r.value.xTrain, yTrain := r.value.yTrain, metaTrain := r.value.metaTrain,
      nSplits := r.value.nSplits,
      xTrainFold := r.value.xTrainFold, xValFold := r.value.xValFold,
      yTrainFold := r.value.yTrainFold, yValFold := r.value.yValFold)
  {
    (:- HasColumns(ds.df, [ds.idColumn]);
    var test := IsIn(ds.df, ds.idColumn, doc.test);
    var train := Negate(test);
    var folds := FoldsInOrder(doc);
    var xTrainFold :- AppendAll(ds.xTrainFold, FoldFrames(ds, ds.X, folds, true));
    var xValFold :- AppendAll(ds.xValFold, FoldFrames(ds, ds.X, folds, false));
    var yTrainFold :- AppendAll(ds.yTrainFold, FoldFrames(ds, ds.y, folds, true));
    var yValFold :- AppendAll(ds.yValFold, FoldFrames(ds, ds.y, folds, false));
    Ok(ds.(
      xTest := Some(Where(ds.X, test)), yTest := Some(Where(ds.y, test)), metaTest := Some(Where(ds.metaDf, test)),
      xTrain := Some(Where(ds.X, train)), yTrain := Some(Where(ds.y, train)), metaTrain := Some(Where(ds.metaDf, train)),
      nSplits := Some(|doc.train|),
      xTrainFold := xTrainFold, xValFold := xValFold, yTrainFold := yTrainFold, yValFold := yValFold)))
  }

  /** After loading, every table row is in exactly one of the test and
      training partitions of X, and it is a test row exactly when its id is a
      test id; y and the metadata are split by the same mask. */
  lemma LoadSplitsPartitions(ds: Dataset, doc: SplitDocument, i: int)
    requires Aligned(ds) && LoadSplitsFromJson(ds, doc).Ok? && 0 <= i < |ds.df.rows|
    ensures var d := LoadSplitsFromJson(ds, doc).value;
      multiset(d.xTest.value.rows) + multiset(d.xTrain.value.rows) == multiset(ds.X.rows)
    ensures var d := LoadSplitsFromJson(ds, doc).value;
      Get(ds.df.rows[i], ds.idColumn) in doc.test ==> ds.X.rows[i] in d.xTest.value.rows
    ensures var d := LoadSplitsFromJson(ds, doc).value;
      Get(ds.df.rows[i], ds.idColumn) !in doc.test ==> ds.X.rows[i] in d.xTrain.value.rows
    ensures var d := LoadSplitsFromJson(ds, doc).value;
      |d.xTest.value.rows| == |d.yTest.value.rows| == |d.metaTest.value.rows|
  {
    var test := IsIn(ds.df, ds.idColumn, doc.test);
    assert |ds.X.rows| == |Index(ds.X)| == |Index(ds.df)|;
    SelectPartition(ds.X.rows, test);
    SelectMember(ds.X.rows, test, ds.X.rows[i]);
    SelectMember(ds.X.rows, Negate(test), ds.X.rows[i]);
  }

  /** `split_train_test_from_column`: test rows are those whose `column` equals
      `testValue`, training rows the others; KeyError when the column, a
      feature or the target is absent. */
  function SplitTrainTestFromColumn(ds: Dataset, column: string, testValue: Value): (r: Result<Dataset>)
    ensures r.Ok? <==> (column in ds.df.columns && forall c :: c in ds.features + [ds.target] ==> c in ds.df.columns)
    ensures r.Ok? ==> var test := EqualTo(ds.df, column, testValue);
      && r.value.dfTest == Some(Where(ds.df, test)) && r.value.dfTrain == Some(Where(ds.df, Negate(test)))
      && r.value.xTest == Some(Frame(ds.features, ProjectRows(Select(ds.df.rows, test), ds.features)))
      && r.value.xTrain == Some(Frame(ds.features, ProjectRows(Select(ds.df.rows, Negate(test)), ds.features)))
      && r.value.yTest == Some(Frame([ds.target], ProjectRows(Select(ds.df.rows, test), [ds.target])))
      && r.value.yTrain == Some(Frame([ds.target], ProjectRows(Select(ds.df.rows, Negate(test)), [ds.target])))
    ensures r.Ok? ==> r.value == ds.(
      dfTest := r.value.dfTest, dfTrain := r.value.dfTrain,
      xTest := r.value.xTest, yTest := r.value.yTest, xTrain := r.value.xTrain, yTrain := r.value.yTrain)
  {
    (:- HasColumns(ds.df, [column]);
    var test := EqualTo(ds.df, column, testValue);
    var dfTest := Where(ds.df, test);
    var dfTrain := Where(ds.df, Negate(test));
    var xTest :- Project(dfTest, ds.features);
    var yTest :- Project(dfTest, [ds.target]);
    var xTrain := Project(dfTrain, ds.features).value;
    var yTrain := Project(dfTrain, [ds.target]).value;
    Ok(ds.(dfTest := Some(dfTest), dfTrain := Some(dfTrain),
      xTest := Some(xTest), yTest := Some(yTest), xTrain := Some(xTrain), yTrain := Some(yTrain))))
  }

  /** The column split is a partition of the table: together the two sides
      hold every row exactly once, and a row is on the test side exactly when
      its `column` value equals `testValue`. */
  lemma SplitTrainTestPartitions(ds: Dataset, column: string, testValue: Value, i: int)
    requires SplitTrainTestFromColumn(ds, column, testValue).Ok? && 0 <= i < |ds.df.rows|
    ensures var d := SplitTrainTestFromColumn(ds, column, testValue).value;
      multiset(d.dfTest.value.rows) + multiset(d.dfTrain.value.rows) == multiset(ds.df.rows)
    ensures var d := SplitTrainTestFromColumn(ds, column, testValue).value;
      Get(ds.df.rows[i], column) == testValue ==> ds.df.rows[i] in d.dfTest.value.rows
    ensures var d := SplitTrainTestFromColumn(ds, column, testValue).value;
      Get(ds.df.rows[i], column) != testValue ==> ds.df.rows[i] in d.dfTrain.value.rows
  {
    var test := EqualTo(ds.df, column, testValue);
    SelectPartition(ds.df.rows, test);
    SelectMember(ds.df.rows, test, ds.df.rows[i]);
    SelectMember(ds.df.rows, Negate(test), ds.df.rows[i]);
  }

  /** `get_cross_validation_fold`: with no folds defined, nothing changes;
      otherwise the fold attributes become the positional selections of the
      training features and labels. IndexError for an out-of-range position,
      AttributeError when the training partition is unset. */
  function GetCrossValidationFold(ds: Dataset, trainIdx: seq<int>, valIdx: seq<int>): (r: Result<Dataset>)
    ensures ds.cvSplits.None? ==> r == Ok(ds)
    ensures ds.cvSplits.Some? ==> (r.Ok? <==> (ds.xTrain.Some? && ds.yTrain.Some?
      && InRange(|ds.xTrain.value.rows|, trainIdx) && InRange(|ds.xTrain.value.rows|, valIdx)
      && InRange(|ds.yTrain.value.rows|, trainIdx) && InRange(|ds.yTrain.value.rows|, valIdx)))
    ensures ds.cvSplits.Some? && r.Ok? ==>
      (r.value == ds.(
        xTrainFold := Current(Iloc(ds.xTrain.value, trainIdx).value),
        xValFold := Current(Iloc(ds.xTrain.value, valIdx).value),
        yTrainFold := Current(Iloc(ds.yTrain.value, trainIdx).value),
        yValFold := Current(Iloc(ds.yTrain.value, valIdx).value)))
  {
    if ds.cvSplits.None? then Ok(ds)
    else
      :- Need(ds.xTrain.Some?, AttributeError("'NoneType' object has no attribute 'iloc'"));
      var xt :- Iloc(ds.xTrain.value, trainIdx);
      var xv :- Iloc(ds.xTrain.value, valIdx);
      :- Need(ds.yTrain.Some?, AttributeError("'NoneType' object has no attribute 'iloc'"));
      var yt :- Iloc(ds.yTrain.value, trainIdx);
      var yv :- Iloc(ds.yTrain.value, valIdx);
      Ok(ds.(xTrainFold := Current(xt), xValFold := Current(xv), yTrainFold := Current(yt), yValFold := Current(yv)))
  }

  /** A fold's positions are valid for the training features and labels. */
  predicate FoldSelectable(ds: Dataset, fold: FoldIndices) {
    && ds.xTrain.Some? && ds.yTrain.Some?
    && InRange(|ds.xTrain.value.rows|, fold.trainIdx) && InRange(|ds.xTrain.value.rows|, fold.valIdx)
    && InRange(|ds.yTrain.value.rows|, fold.trainIdx) && InRange(|ds.yTrain.value.rows|, fold.valIdx)
  }

  predicate FoldsSelectable(ds: Dataset, splits: seq<FoldIndices>) {
    forall k :: 0 <= k < |splits| ==> FoldSelectable(ds, splits[k])
  }

  /** The validation labels of each fold, in fold order. */
  function ValidationLabels(ds: Dataset, splits: seq<FoldIndices>): (labels: seq<seq<Value>>)
    requires FoldsSelectable(ds, splits)
    ensures |labels| == |splits|
    ensures forall k :: 0 <= k < |splits| ==> |labels[k]| == |splits[k].valIdx|
  {
    seq(|splits|, k requires 0 <= k < |splits| => FoldLabels(ds, splits[k]))
  }

  /** `y_train.iloc[val_idx].values`. */
  function FoldLabels(ds: Dataset, fold: FoldIndices): (labels: seq<Value>)
    requires FoldSelectable(ds, fold)
    ensures |labels| == |fold.valIdx|
  {
    Values(Iloc(ds.yTrain.value, fold.valIdx).value, ds.target)
  }

  /** The labels of the first i + 1 folds are those of the first i followed
      by fold i's. */
  lemma ValidationLabelsSnoc(ds: Dataset, splits: seq<FoldIndices>, i: int)
    requires 0 <= i < |splits| && forall k :: 0 <= k <= i ==> FoldSelectable(ds, splits[k])
    ensures Flatten(ValidationLabels(ds, splits[..i + 1]))
      == Flatten(ValidationLabels(ds, splits[..i])) + FoldLabels(ds, splits[i])
  {
    var longer := ValidationLabels(ds, splits[..i + 1]);
    assert longer[..i] == ValidationLabels(ds, splits[..i]);
  }

  /** Selecting a fold succeeds exactly when its positions are valid, and the
      validation labels it leaves behind are the fold's labels. */
  lemma SelectedFoldLabels(ds: Dataset, fold: FoldIndices)
    requires ds.cvSplits.Some?
    ensures GetCrossValidationFold(ds, fold.trainIdx, fold.valIdx).Ok? <==> FoldSelectable(ds, fold)
    ensures GetCrossValidationFold(ds, fold.trainIdx, fold.valIdx).Ok? ==>
      var selected := GetCrossValidationFold(ds, fold.trainIdx, fold.valIdx).value;
      selected.yValFold.Current? && Values(selected.yValFold.frame, ds.target) == FoldLabels(ds, fold)
  {
  }

  /** The loop of `create_cross_validation_labels`: selects every fold in
      turn and collects its validation labels, stopping at the first fold
      whose selection raises. Selecting a fold reads only the folds and the
      training partition, which the loop does not change, so each selection
      is made on the dataset as it was on entry. */
  method CollectValidationLabels(ds: Dataset, splits: seq<FoldIndices>) returns (r: Result<seq<Value>>)
    requires ds.cvSplits.Some?
    ensures r.Ok? <==> FoldsSelectable(ds, splits)
    ensures r.Ok? ==> r.value == Flatten(ValidationLabels(ds, splits))
  {
    var labels := [];
    var i := 0;
    while i < |splits|
      invariant 0 <= i <= |splits|
      invariant forall k :: 0 <= k < i ==> FoldSelectable(ds, splits[k])
      invariant labels == Flatten(ValidationLabels(ds, splits[..i]))
    {
      var next := GetCrossValidationFold(ds, splits[i].trainIdx, splits[i].valIdx);
      SelectedFoldLabels(ds, splits[i]);
      if next.Raise? {
        return Raise(next.exc);
      }
      ValidationLabelsSnoc(ds, splits, i);
      labels := labels + Values(next.value.yValFold.frame, ds.target);
      i := i + 1;
    }
    assert splits[..i] == splits;
    return Ok(labels);
  }

  /** `create_cross_validation_labels`: appends the validation labels of all
      folds, in fold order, to `labelsCvFolds`, leaving the fold attributes at
      the last fold. TypeError when no folds are defined. */
  method CreateCrossValidationLabels(ds: Dataset) returns (r: Result<Dataset>)
    ensures ds.cvSplits.None? ==> r.Raise? && r.exc.TypeError?
    ensures ds.cvSplits.Some? ==> (r.Ok? <==> FoldsSelectable(ds, ds.cvSplits.value))
    ensures r.Ok? ==> (r.value.labelsCvFolds == ds.labelsCvFolds + Flatten(ValidationLabels(ds, ds.cvSplits.value))
      && |r.value.labelsCvFolds| == |ds.labelsCvFolds| + TotalLength(ValidationLabels(ds, ds.cvSplits.value)))
    ensures r.Ok? && |ds.cvSplits.value| == 0 ==> r.value == ds
    ensures r.Ok? && |ds.cvSplits.value| > 0 ==>
      var last := ds.cvSplits.value[|ds.cvSplits.value| - 1];
      r.value == GetCrossValidationFold(ds, last.trainIdx, last.valIdx).value.(labelsCvFolds := r.value.labelsCvFolds)
  {
    if ds.cvSplits.None? {
      return Raise(TypeError("'NoneType' object is not iterable"));
    }
    var splits := ds.cvSplits.value;
    var collected := CollectValidationLabels(ds, splits);
    if collected.Raise? {
      return Raise(collected.exc);
    }
    FlattenLength(ValidationLabels(ds, splits));
    var selected := ds;
    if |splits| > 0 {
      var last := splits[|splits| - 1];
      SelectedFoldLabels(ds, last);
      selected := GetCrossValidationFold(ds, last.trainIdx, last.valIdx).value;
    }
    return Ok(selected.(labelsCvFolds := ds.labelsCvFolds + collected.value));
  }

  /** Applies the fitted scaler to a table: each feature cell is replaced by
      `scale` of the fitted table, the row and the column (the scaling
      arithmetic itself is a parameter); row labels are kept. ValueError when
      the table's columns differ from the fitted ones. */
  function Transform(fittedOn: Frame, f: Frame, scale: (Frame, Row, string) -> Value): (r: Result<Frame>)
    ensures r.Ok? <==> f.columns == fittedOn.columns
    ensures r.Ok? ==> (r.value.columns == f.columns && Index(r.value) == Index(f))
    ensures r.Ok? ==> forall i, c :: 0 <= i < |f.rows| && c in f.columns ==>
      Get(r.value.rows[i], c) == scale(fittedOn, f.rows[i], c)
  {
    (:- Need(f.columns == fittedOn.columns, ValueError("The feature names should match those that were passed during fit."));
    Ok(Frame(f.columns, seq(|f.rows|, i requires 0 <= i < |f.rows| =>
      Row(f.rows[i].index, map c | c in f.columns :: scale(fittedOn, f.rows[i], c))))))
  }

  /** Transforming an optional table: an unset table is an error. */
  function TransformSet(fittedOn: Frame, f: Option<Frame>, scale: (Frame, Row, string) -> Value): (r: Result<Frame>)
    ensures r.Ok? <==> (f.Some? && f.value.columns == fittedOn.columns)
    ensures r.Ok? ==> r == Transform(fittedOn, f.value, scale)
  {
    (:- Need(f.Some?, ValueError("Expected 2D array, got scalar array instead"));
    Transform(fittedOn, f.value, scale))
  }

  /** `standardize_features`: the scaler is fitted on the training features
      only, and the training, validation (skipped when unset), test and full
      feature tables are all scaled with that fit. */
  function StandardizeFeatures(ds: Dataset, scale: (Frame, Row, string) -> Value): (r: Result<Dataset>)
    ensures r.Ok? <==> (ds.xTrain.Some? && ds.xTest.Some?
      && (ds.xVal.Some? ==> ds.xVal.value.columns == ds.xTrain.value.columns)
      && ds.xTest.value.columns == ds.xTrain.value.columns && ds.X.columns == ds.xTrain.value.columns)
    ensures r.Ok? ==> var fit := ds.xTrain.value;
      && r.value.scaler == Fitted(fit)
      && r.value.xTrain == Some(Transform(fit, fit, scale).value)
      && r.value.xTest == Some(Transform(fit, ds.xTest.value, scale).value)
      && r.value.X == Transform(fit, ds.X, scale).value
      && (ds.xVal.None? ==> r.value.xVal.None?)
      && (ds.xVal.Some? ==> r.value.xVal == Some(Transform(fit, ds.xVal.value, scale).value))
    ensures r.Ok? ==> r.value == ds.(scaler := r.value.scaler, xTrain := r.value.xTrain,
      xVal := r.value.xVal, xTest := r.value.xTest, X := r.value.X)
  {
    (:- Need(ds.xTrain.Some?, AttributeError("'NoneType' object has no attribute 'columns'"));
    var fit := ds.xTrain.value;
    var xTrain := Transform(fit, fit, scale).value;
    var xVal :- if ds.xVal.None? then Ok(None) else
      var v :- Transform(fit, ds.xVal.value, scale); Ok(Some(v));
    var xTest :- TransformSet(fit, ds.xTest, scale);
    var X :- Transform(fit, ds.X, scale);
    Ok(ds.(scaler := Fitted(fit), xTrain := Some(xTrain), xVal := xVal, xTest := Some(xTest), X := X)))
  }

  /** Standardising keeps X row-aligned with the table, so a split document
      can still be applied afterwards. */
  lemma StandardizeKeepsAligned(ds: Dataset, scale: (Frame, Row, string) -> Value)
    requires Aligned(ds) && StandardizeFeatures(ds, scale).Ok?
    ensures Aligned(StandardizeFeatures(ds, scale).value)
  {
  }

  /** `drop_unselected_features_from_X`: AssertionError without selected
      features; otherwise the training, test, full and (when set) validation
      feature tables are restricted to them, KeyError when one lacks one. */
  function DropUnselectedFeaturesFromX(ds: Dataset): (r: Result<Dataset>)
    ensures ds.bestFeatures.None? ==> r == Raise(AssertionError)
    ensures r.Ok? ==> var best := ds.bestFeatures.value;
      && r.value.xTrain.Some? && r.value.xTrain.value.columns == best
      && r.value.xTest.Some? && r.value.xTest.value.columns == best
      && r.value.X.columns == best
      && (r.value.xVal.Some? <==> ds.xVal.Some?)
      && (r.value.xVal.Some? ==> r.value.xVal.value.columns == best)
    ensures ds.bestFeatures.Some? ==> (r.Ok? <==> (ds.xTrain.Some? && ds.xTest.Some?
      && (forall c :: c in ds.bestFeatures.value ==> c in ds.xTrain.value.columns && c in ds.xTest.value.columns && c in ds.X.columns)
      && (ds.xVal.Some? ==> forall c :: c in ds.bestFeatures.value ==> c in ds.xVal.value.columns)))
    ensures r.Ok? ==> (Index(r.value.X) == Index(ds.X) && Index(r.value.xTrain.value) == Index(ds.xTrain.value))
    ensures r.Ok? ==> var best := ds.bestFeatures.value;
      && Restricted(ds.X, r.value.X, best)
      && Restricted(ds.xTrain.value, r.value.xTrain.value, best)
      && Restricted(ds.xTest.value, r.value.xTest.value, best)
      && (ds.xVal.Some? ==> Restricted(ds.xVal.value, r.value.xVal.value, best))
    ensures r.Ok? ==> r.value == ds.(xTrain := r.value.xTrain, xTest := r.value.xTest, xVal := r.value.xVal, X := r.value.X)
  {
    (:- Need(ds.bestFeatures.Some?, AssertionError);
    var best := ds.bestFeatures.value;
    :- Need(ds.xTrain.Some?, TypeError("'NoneType' object is not subscriptable"));
    var xTrain :- Project(ds.xTrain.value, best);
    :- Need(ds.xTest.Some?, TypeError("'NoneType' object is not subscriptable"));
    var xTest :- Project(ds.xTest.value, best);
    var xVal :- if ds.xVal.None? then Ok(None) else
      var v :- Project(ds.xVal.value, best); Ok(Some(v));
    var X :- Project(ds.X, best);
    Ok(ds.(xTrain := Some(xTrain), xTest := Some(xTest), xVal := xVal, X := X)))
  }

  /** Restricting to the selected features keeps X row-aligned with the table. */
  lemma DropUnselectedKeepsAligned(ds: Dataset)
    requires Aligned(ds) && DropUnselectedFeaturesFromX(ds).Ok?
    ensures Aligned(DropUnselectedFeaturesFromX(ds).value)
  {
  }

  /** The classrad ImageDataset: every attribute starts unset. */
  datatype ImageDataset = ImageDataset(
    df: Option<Frame>, imageColumn: Option<string>, maskColumn: Option<string>, idColumn: Option<string>)

  /** `_set_image_col` and `_set_mask_col`: AttributeError before a table is
      set, ValueError with the given message when the column is absent. */
  function CheckSetColumn(ds: ImageDataset, c: string, message: string): (r: Check)
    ensures r.Pass? <==> (ds.df.Some? && c in ds.df.value.columns)
    ensures ds.df.None? ==> r.exc.AttributeError?
    ensures ds.df.Some? && c !in ds.df.value.columns ==> r == Fail(ValueError(message))
  {
    if ds.df.None? then Fail(AttributeError("'NoneType' object has no attribute 'columns'"))
    else Need(c in ds.df.value.columns, ValueError(message))
  }

  /** The image column's message ends in a space; the mask column's does not. */
  function SetImageColumn(ds: ImageDataset, c: string): (r: Result<ImageDataset>)
    ensures r.Ok? <==> (ds.df.Some? && c in ds.df.value.columns)
    ensures ds.df.Some? && c !in ds.df.value.columns ==> r == Raise(ValueError(c + " not in columns of dataframe. "))
    ensures r.Ok? ==> r.value == ds.(imageColumn := Some(c))
  {
    (:- CheckSetColumn(ds, c, c + " not in columns of dataframe. ");
    Ok(ds.(imageColumn := Some(c))))
  }

  function SetMaskColumn(ds: ImageDataset, c: string): (r: Result<ImageDataset>)
    ensures r.Ok? <==> (ds.df.Some? && c in ds.df.value.columns)
    ensures ds.df.Some? && c !in ds.df.value.columns ==> r == Raise(ValueError(c + " not in columns of dataframe."))
    ensures r.Ok? ==> r.value == ds.(maskColumn := Some(c))
  {
    (:- CheckSetColumn(ds, c, c + " not in columns of dataframe.");
    Ok(ds.(maskColumn := Some(c))))
  }

  /** `_set_ID_col`: ValueError before a table is set, when the named column is
      absent, or when its values are not unique; without a name the id column
      stays unset. */
  function SetIdColumn(ds: ImageDataset, c: Option<string>): (r: Result<ImageDataset>)
    ensures ds.df.None? ==> r == Raise(ValueError("DataFrame not set!"))
    ensures r.Ok? <==> (ds.df.Some? && (c.Some? ==> c.value in ds.df.value.columns && NoDuplicates(Values(ds.df.value, c.value))))
    ensures r.Ok? ==> r.value == ds.(idColumn := c)
  {
    (:- Need(ds.df.Some?, ValueError("DataFrame not set!"));
    match c
    case None => Ok(ds.(idColumn := None))
    case Some(name) =>
      :- Need(name in ds.df.value.columns, ValueError(name + " not in columns of dataframe."));
      :- Need(NoDuplicates(Values(ds.df.value, name)), ValueError("IDs are not unique!"));
      Ok(ds.(idColumn := Some(name))))
  }

  /** `ImageDataset.from_dataframe`: sets the table, then the image, mask and
      id columns, stopping at the first failure. */
  function FromDataframe(df: Frame, imageColumn: string, maskColumn: string, idColumn: Option<string>): (r: Result<ImageDataset>)
    ensures r.Ok? <==> (imageColumn in df.columns && maskColumn in df.columns
      && (idColumn.Some? ==> idColumn.value in df.columns && NoDuplicates(Values(df, idColumn.value))))
    ensures imageColumn !in df.columns ==> r == Raise(ValueError(imageColumn + " not in columns of dataframe. "))
    ensures r.Ok? ==> r.value == ImageDataset(Some(df), Some(imageColumn), Some(maskColumn), idColumn)
  {
    var ds := ImageDataset(Some(df), None, None, None);
    var ds :- SetImageColumn(ds, imageColumn);
    var ds :- SetMaskColumn(ds, maskColumn);
    SetIdColumn(ds, idColumn)
  }

  /** A dataset built from a table with a named id column has unique ids. */
  lemma FromDataframeIdsUnique(df: Frame, imageColumn: string, maskColumn: string, idColumn: string)
    requires FromDataframe(df, imageColumn, maskColumn, Some(idColumn)).Ok?
    ensures var ds := FromDataframe(df, imageColumn, maskColumn, Some(idColumn)).value;
      forall i, j :: 0 <= i < j < |df.rows| ==> Get(ds.df.value.rows[i], idColumn) != Get(ds.df.value.rows[j], idColumn)
  {
    var vs := Values(df, idColumn);
    forall i, j | 0 <= i < j < |df.rows|
      ensures Get(df.rows[i], idColumn) != Get(df.rows[j], idColumn)
    {
      assert vs[i] != vs[j];
    }
  }
}

=== FILE: frames.dfy ===
/** A value-level model of the pandas DataFrame operations the framework uses:
    column access, projection, boolean-mask and positional row selection,
    whole-column assignment and assignment by index label. */
module Frames {
  import opened Wrappers
  import opened Seqs

  /** A cell value; `Null` stands for None/NaN. */
  datatype Value = Null | Int(i: int) | Num(r: real) | Str(s: string) | Bool(b: bool)

  /** A row's index label (pandas' default integer index). */
  type Label = int

  /** One table row: its index label and its cells by column name. */
  datatype Row = Row(index: Label, cells: map<string, Value>)

  /** A DataFrame: ordered column names and rows in order. A Series is a
      frame with one column. */
  datatype Frame = Frame(columns: seq<string>, rows: seq<Row>)

  /** The cell of a row; a cell the row does not hold reads as missing (NaN). */
  function Get(r: Row, c: string): Value {
    if c in r.cells then r.cells[c] else Null
  }

  /** `df.index`: the row labels in order. */
  function Index(f: Frame): (labels: seq<Label>)
    ensures |labels| == |f.rows|
    ensures forall i :: 0 <= i < |f.rows| ==> labels[i] == f.rows[i].index
  {
    seq(|f.rows|, i requires 0 <= i < |f.rows| => f.rows[i].index)
  }

  /** The values of column c, row by row. */
  function Values(f: Frame, c: string): (vs: seq<Value>)
    ensures |vs| == |f.rows|
    ensures forall i :: 0 <= i < |f.rows| ==> vs[i] == Get(f.rows[i], c)
  {
    seq(|f.rows|, i requires 0 <= i < |f.rows| => Get(f.rows[i], c))
  }

  /** Raises KeyError for the first of `cols` the frame lacks. */
  function HasColumns(f: Frame, cols: seq<string>): (r: Check)
    ensures r.Pass? <==> forall c :: c in cols ==> c in f.columns
    decreases |cols|
  {
    if |cols| == 0 then Pass
    else if cols[0] !in f.columns then Fail(KeyError(cols[0]))
    else HasColumns(f, cols[1..])
  }

  /** The row restricted to the given columns; other cells read as missing. */
  function ProjectRow(r: Row, cols: seq<string>): (p: Row)
    ensures p.index == r.index
    ensures forall c :: c in cols ==> Get(p, c) == Get(r, c)
    ensures forall c :: c !in cols ==> Get(p, c) == Null
  {
    Row(r.index, map c | c in cols :: Get(r, c))
  }

  function ProjectRows(rows: seq<Row>, cols: seq<string>): (ps: seq<Row>)
    ensures |ps| == |rows|
    ensures forall i :: 0 <= i < |rows| ==> ps[i] == ProjectRow(rows[i], cols)
  {
    seq(|rows|, i requires 0 <= i < |rows| => ProjectRow(rows[i], cols))
  }

  /** `dst` is `src` cut down to the columns `cols`: same rows and labels,
      `src`'s cells in those columns, nothing in any other. */
  ghost predicate Restricted(src: Frame, dst: Frame, cols: seq<string>) {
    dst.columns == cols && |dst.rows| == |src.rows|
    && forall i :: 0 <= i < |src.rows| ==>
      dst.rows[i].index == src.rows[i].index
      && forall c :: Get(dst.rows[i], c) == if c in cols then Get(src.rows[i], c) else Null
  }

  /** `df[cols]`: KeyError when a column is absent. */
  function Project(f: Frame, cols: seq<string>): (r: Result<Frame>)
    ensures r.Ok? <==> forall c :: c in cols ==> c in f.columns
    ensures r.Ok? ==> r.value == Frame(cols, ProjectRows(f.rows, cols))
  {
    (:- HasColumns(f, cols);
    Ok(Frame(cols, ProjectRows(f.rows, cols))))
  }

  /** `df.loc[mask]`: the rows where the mask is true, columns unchanged. */
  function Where(f: Frame, mask: seq<bool>): (g: Frame)
    requires |mask| == |f.rows|
    ensures g.columns == f.columns
  {
    Frame(f.columns, Select(f.rows, mask))
  }

  /** `df[c].isin(vals)`. */
  function IsIn(f: Frame, c: string, vals: seq<Value>): (m: seq<bool>)
    ensures |m| == |f.rows|
    ensures forall i :: 0 <= i < |f.rows| ==> (m[i] <==> Get(f.rows[i], c) in vals)
  {
    seq(|f.rows|, i requires 0 <= i < |f.rows| => Get(f.rows[i], c) in vals)
  }

  /** `df[c] == v`. */
  function EqualTo(f: Frame, c: string, v: Value): (m: seq<bool>)
    ensures |m| == |f.rows|
    ensures forall i :: 0 <= i < |f.rows| ==> (m[i] <==> Get(f.rows[i], c) == v)
  {
    seq(|f.rows|, i requires 0 <= i < |f.rows| => Get(f.rows[i], c) == v)
  }

  /** A row is kept by `Where` exactly when its position's mask entry is true. */
  lemma WhereMember(f: Frame, mask: seq<bool>, r: Row)
    requires |mask| == |f.rows|
    ensures r in Where(f, mask).rows <==> exists i :: 0 <= i < |f.rows| && mask[i] && f.rows[i] == r
  {
    SelectMember(f.rows, mask, r);
  }

  /** Selecting projected rows equals projecting selected rows. */
  lemma {:induction false} SelectProjectRows(rows: seq<Row>, mask: seq<bool>, cols: seq<string>)
    requires |mask| == |rows|
    ensures Select(ProjectRows(rows, cols), mask) == ProjectRows(Select(rows, mask), cols)
    decreases |rows|
  {
    if |rows| > 0 {
      assert ProjectRows(rows, cols)[1..] == ProjectRows(rows[1..], cols);
      SelectProjectRows(rows[1..], mask[1..], cols);
      assert ProjectRows(Select(rows, mask), cols)
          == (if mask[0] then [ProjectRow(rows[0], cols)] else []) + ProjectRows(Select(rows[1..], mask[1..]), cols);
    }
  }

  /** Python's reading of a (possibly negative) position into a sequence of
      length n, or None when it is out of range. */
  function Position(n: nat, i: int): (p: Option<nat>)
    ensures p.Some? <==> -(n as int) <= i < n
    ensures p.Some? ==> p.value < n && (p.value == i || p.value == n + i)
  {
    if 0 <= i < n then Some(i) else if -(n as int) <= i < 0 then Some(n + i) else None
  }

  predicate InRange(n: nat, positions: seq<int>) {
    forall k :: 0 <= k < |positions| ==> -(n as int) <= positions[k] < n
  }

  /** Raises IndexError for the first out-of-range position. */
  function CheckPositions(n: nat, positions: seq<int>): (r: Check)
    ensures r.Pass? <==> InRange(n, positions)
    decreases |positions|
  {
    if |positions| == 0 then Pass
    else if !(-(n as int) <= positions[0] < n) then Fail(IndexError(positions[0]))
    else
      var rest := CheckPositions(n, positions[1..]);
      assert forall k :: 1 <= k < |positions| ==> positions[k] == positions[1..][k - 1];
      rest
  }

  /** `df.iloc[positions]`: IndexError for an out-of-range position. */
  function Iloc(f: Frame, positions: seq<int>): (r: Result<Frame>)
    ensures r.Ok? <==> InRange(|f.rows|, positions)
    ensures r.Ok? ==> r.value.columns == f.columns && |r.value.rows| == |positions|
    ensures r.Ok? ==> forall k :: 0 <= k < |positions| ==>
      r.value.rows[k] == f.rows[Position(|f.rows|, positions[k]).value]
  {
    (:- CheckPositions(|f.rows|, positions);
    Ok(Frame(f.columns, seq(|positions|, k requires 0 <= k < |positions| =>
      f.rows[Position(|f.rows|, positions[k]).value]))))
  }

  /** The positional training and validation indices of one cross-validation fold. */
  datatype FoldIndices = FoldIndices(trainIdx: seq<int>, valIdx: seq<int>)

  /** The column list after assigning column c: appended when new. */
  function AddColumn(columns: seq<string>, c: string): (cs: seq<string>)
    ensures c in cs
    ensures forall d :: d in cs <==> d in columns || d == c
    ensures c in columns ==> cs == columns
  {
    if c in columns then columns else columns + [c]
  }

  function SetCell(r: Row, c: string, v: Value): (s: Row)
    ensures s.index == r.index && Get(s, c) == v
    ensures forall d :: d != c ==> Get(s, d) == Get(r, d)
  {
    Row(r.index, r.cells[c := v])
  }

  /** `df[c] = vs`: column c holds vs[i] in row i. */
  function AssignValues(f: Frame, c: string, vs: seq<Value>): (g: Frame)
    requires |vs| == |f.rows|
    ensures g.columns == AddColumn(f.columns, c)
    ensures |g.rows| == |f.rows|
    ensures forall i :: 0 <= i < |f.rows| ==> g.rows[i] == SetCell(f.rows[i], c, vs[i])
  {
    Frame(AddColumn(f.columns, c), seq(|f.rows|, i requires 0 <= i < |f.rows| => SetCell(f.rows[i], c, vs[i])))
  }

  /** `df[c] = v` for a scalar v. */
  function Assign(f: Frame, c: string, v: Value): (g: Frame)
    ensures g.columns == AddColumn(f.columns, c)
    ensures |g.rows| == |f.rows|
    ensures forall i :: 0 <= i < |f.rows| ==> g.rows[i] == SetCell(f.rows[i], c, v)
  {
    AssignValues(f, c, seq(|f.rows|, _ => v))
  }

  /** Column c of every row whose label is a key of m is set to m's value. */
  function WriteMap(f: Frame, c: string, m: map<Label, Value>): (g: Frame)
    ensures g.columns == AddColumn(f.columns, c)
    ensures |g.rows| == |f.rows|
    ensures forall i :: 0 <= i < |f.rows| ==>
      g.rows[i] == if f.rows[i].index in m then SetCell(f.rows[i], c, m[f.rows[i].index]) else f.rows[i]
  {
    Frame(AddColumn(f.columns, c), seq(|f.rows|, i requires 0 <= i < |f.rows| =>
      if f.rows[i].index in m then SetCell(f.rows[i], c, m[f.rows[i].index]) else f.rows[i]))
  }

  /** Two label writes into the same column amount to one write of the
      combined assignment, the later write winning. */
  lemma WriteMapTwice(f: Frame, c: string, m1: map<Label, Value>, m2: map<Label, Value>)
    ensures WriteMap(WriteMap(f, c, m1), c, m2) == WriteMap(f, c, m1 + m2)
  {
    var a, b := WriteMap(WriteMap(f, c, m1), c, m2), WriteMap(f, c, m1 + m2);
    forall i | 0 <= i < |f.rows|
      ensures a.rows[i] == b.rows[i]
    {
      var r := f.rows[i];
      if r.index in m1 && r.index !in m2 {
        assert a.rows[i] == SetCell(r, c, m1[r.index]);
      }
    }
  }

  /** Label writes into two different, existing columns commute. */
  lemma WriteMapCommute(f: Frame, c1: string, m1: map<Label, Value>, c2: string, m2: map<Label, Value>)
    requires c1 != c2 && c1 in f.columns && c2 in f.columns
    ensures WriteMap(WriteMap(f, c1, m1), c2, m2) == WriteMap(WriteMap(f, c2, m2), c1, m1)
  {
    var a, b := WriteMap(WriteMap(f, c1, m1), c2, m2), WriteMap(WriteMap(f, c2, m2), c1, m1);
    forall i | 0 <= i < |f.rows|
      ensures a.rows[i] == b.rows[i]
    {
      var r := f.rows[i];
      if r.index in m1 && r.index in m2 {
        assert r.cells[c1 := m1[r.index]][c2 := m2[r.index]] == r.cells[c2 := m2[r.index]][c1 := m1[r.index]];
      }
    }
  }

  /** Writing two columns in alternation, first (m1, n1) and then (m2, n2),
      equals one combined write per column, the later writes winning. */
  lemma InterleavedWrites(f: Frame, c: string, d: string,
                          m1: map<Label, Value>, n1: map<Label, Value>, m2: map<Label, Value>, n2: map<Label, Value>)
    requires c != d && c in f.columns && d in f.columns
    ensures WriteMap(WriteMap(WriteMap(WriteMap(f, c, m1), d, n1), c, m2), d, n2)
      == WriteMap(WriteMap(f, c, m1 + m2), d, n1 + n2)
  {
    var h := WriteMap(f, c, m1);
    WriteMapCommute(h, d, n1, c, m2);
    WriteMapTwice(f, c, m1, m2);
    WriteMapTwice(WriteMap(f, c, m1 + m2), d, n1, n2);
  }

  /** A label write keeps the row labels. */
  lemma WriteMapIndex(f: Frame, c: string, m: map<Label, Value>)
    ensures Index(WriteMap(f, c, m)) == Index(f)
  {
  }

  /** Raises KeyError for the first label that no row carries. */
  function HasLabels(f: Frame, labels: seq<Label>): (r: Check)
    ensures r.Pass? <==> forall k :: 0 <= k < |labels| ==> labels[k] in Index(f)
    decreases |labels|
  {
    if |labels| == 0 then Pass
    else if labels[0] !in Index(f) then Fail(KeyError("label not in index"))
    else
      var rest := HasLabels(f, labels[1..]);
      assert forall k :: 1 <= k < |labels| ==> labels[k] == labels[1..][k - 1];
      rest
  }

  /** No written label labels more than one row. */
  predicate LabelsOnce(f: Frame, labels: seq<Label>) {
    forall k :: 0 <= k < |labels| ==> multiset(Index(f))[labels[k]] <= 1
  }

  /** `df.loc[labels, c] = vals`: assignment by label, the value at position k
      going to the row labelled labels[k]. Unknown labels raise KeyError. The
      number of selected rows must equal the number of values, otherwise
      ValueError: a length mismatch, or a written label shared by several
      rows, which selects more rows than there are values. */
  function SetByLabels(f: Frame, labels: seq<Label>, c: string, vals: seq<Value>): (r: Result<Frame>)
    ensures r.Ok? <==> (|labels| == |vals| && (forall k :: 0 <= k < |labels| ==> labels[k] in Index(f))
      && LabelsOnce(f, labels))
    ensures r.Ok? ==> r.value == WriteMap(f, c, ZipMap(labels, vals))
    ensures (|labels| == |vals| && HasLabels(f, labels).Pass? && !LabelsOnce(f, labels))
      ==> r == Raise(ValueError(UnequalSetting))
  {
    (:- Need(|labels| == |vals|, ValueError("shape mismatch"));
    :- HasLabels(f, labels);
    :- Need(LabelsOnce(f, labels), ValueError(UnequalSetting));
    Ok(WriteMap(f, c, ZipMap(labels, vals))))
  }

  /** A write at labels shared by several rows of f raises in any table with
      f's row labels. */
  lemma SharedLabelsRaise(f: Frame, g: Frame, labels: seq<Label>, c: string, vals: seq<Value>)
    requires Index(g) == Index(f) && |labels| == |vals|
    requires forall k :: 0 <= k < |labels| ==> labels[k] in Index(f)
    requires !LabelsOnce(f, labels)
    ensures SetByLabels(g, labels, c, vals) == Raise(ValueError(UnequalSetting))
  {
  }

  const UnequalSetting := "Must have equal len keys and value when setting with an iterable"

  /** `df.loc[labels, c] = v` for a scalar v: every row carrying one of the
      labels gets v, however many rows share a label. */
  function SetAtLabels(f: Frame, labels: seq<Label>, c: string, v: Value): (r: Result<Frame>)
    ensures r.Ok? <==> forall k :: 0 <= k < |labels| ==> labels[k] in Index(f)
    ensures r.Ok? ==> r.value.columns == AddColumn(f.columns, c) && |r.value.rows| == |f.rows|
    ensures r.Ok? ==> forall i :: 0 <= i < |f.rows| ==> r.value.rows[i].index == f.rows[i].index
    ensures r.Ok? ==> forall i, d :: 0 <= i < |f.rows| && d != c ==> Get(r.value.rows[i], d) == Get(f.rows[i], d)
    ensures r.Ok? ==> forall i :: 0 <= i < |f.rows| ==>
      Get(r.value.rows[i], c) == (if f.rows[i].index in labels then v else Get(f.rows[i], c))
  {
    (:- HasLabels(f, labels);
    var vs := seq(|labels|, _ => v);
    ZipMapConstant(labels, vs, v);
    Ok(WriteMap(f, c, ZipMap(labels, vs))))
  }

  /** Zipping against a constant sequence maps every key to that constant. */
  lemma {:induction false} ZipMapConstant<K>(keys: seq<K>, vals: seq<Value>, v: Value)
    requires |keys| == |vals| && forall k :: 0 <= k < |vals| ==> vals[k] == v
    ensures forall l :: l in ZipMap(keys, vals) ==> ZipMap(keys, vals)[l] == v
    decreases |keys|
  {
    if |keys| > 0 {
      ZipMapConstant(keys[..|keys| - 1], vals[..|vals| - 1], v);
    }
  }
}

=== FILE: hyperparams.dfy ===
/** The Radiomics HyperparamOptimizer: the fixed search grids, the grid
    lookup by model name, the per-model parameter cache on disk, and the
    load-or-tune control flow that never lets a failure escape. */
module Hyperparams {
  import opened Wrappers
  import opened Seqs
  import opened Text
  import opened Frames

  /** A search grid: parameter names with their candidate values, in the
      order the dictionary lists them. */
  type Grid = seq<(string, seq<Value>)>

  /** A parameter assignment (a JSON object of parameters). */
  type Params = map<string, Value>

  /** A classifier: its name and its current parameters. */
  datatype Model = Model(name: string, params: Params)

  /** A parameter file: readable JSON, or a file that does not parse. */
  datatype CacheFile = Valid(params: Params) | Corrupt

  /** The parameter files on disk, by path. */
  type Cache = map<string, CacheFile>

  /** The models' names, in the caller's order. */
  function ModelNames(models: seq<Model>): (names: seq<string>)
    ensures |names| == |models|
    ensures forall i :: 0 <= i < |models| ==> names[i] == models[i].name
  {
    seq(|models|, i requires 0 <= i < |models| => models[i].name)
  }

  /** `model.set_params(params)`: the given parameters are set, the others kept. */
  function SetParams(model: Model, params: Params): (m: Model)
    ensures m.name == model.name
    ensures m.params.Keys == model.params.Keys + params.Keys
    ensures forall k :: k in params ==> m.params[k] == params[k]
    ensures forall k :: k in model.params && k !in params ==> m.params[k] == model.params[k]
  {
    model.(params := model.params + params)
  }

  /** Setting the same parameters twice is the same as setting them once. */
  lemma SetParamsIdempotent(model: Model, params: Params)
    ensures SetParams(SetParams(model, params), params) == SetParams(model, params)
  {
    var once, twice := SetParams(model, params), SetParams(SetParams(model, params), params);
    assert once.params == twice.params;
  }

  function RandomForestGrid(): Grid {
    [ ("n_estimators", [Int(200), Int(600), Int(1000)]),
      ("max_features", [Str("auto"), Str("sqrt")]),
      ("max_depth", [Int(10), Int(50), Null]),
      ("min_samples_split", [Int(2), Int(5), Int(10)]),
      ("min_samples_leaf", [Int(1), Int(4)]),
      ("bootstrap", [Bool(true), Bool(false)]) ]
  }

  function XGBoostGrid(): Grid {
    [ ("learning_rate", [Num(0.05), Num(0.10), Num(0.20), Num(0.30)]),
      ("max_depth", [Int(2), Int(4), Int(8), Int(12), Int(15)]),
      ("min_child_weight", [Int(1), Int(3), Int(7)]),
      ("gamma", [Num(0.0), Num(0.1), Num(0.3)]),
      ("colsample_bytree", [Num(0.3), Num(0.5), Num(0.7)]) ]
  }

  function LogRegGrid(): Grid {
    [ ("C", [Num(0.001), Num(0.01), Num(0.1), Int(1), Int(10), Int(100), Int(1000)]),
      ("penalty", [Str("l1"), Str("l2"), Str("elasticnet"), Str("none")]) ]
  }

  function SvmGrid(): Grid {
    [ ("kernel", [Str("rbf")]),
      ("C", [Num(0.001), Num(0.01), Num(0.1), Int(1), Int(10)]),
      ("gamma", [Num(0.001), Num(0.01), Num(0.1), Int(1)]) ]
  }

  /** `get_param_grid`: the fixed grid of one of the four supported models;
      for any other name the error is returned rather than raised, so no grid
      is selected. */
  function GetParamGrid(name: string): (g: Option<Grid>)
    ensures g.Some? <==> name in {"Random Forest", "XGBoost", "Logistic Regression", "SVM"}
    ensures name == "Random Forest" ==> g == Some(RandomForestGrid())
    ensures name == "XGBoost" ==> g == Some(XGBoostGrid())
    ensures name == "Logistic Regression" ==> g == Some(LogRegGrid())
    ensures name == "SVM" ==> g == Some(SvmGrid())
  {
    if name == "Random Forest" then Some(RandomForestGrid())
    else if name == "XGBoost" then Some(XGBoostGrid())
    else if name == "Logistic Regression" then Some(LogRegGrid())
    else if name == "SVM" then Some(SvmGrid())
    else None
  }

  /** The number of candidates: the product of the value-list lengths. */
  function GridSize(g: Grid): nat
    decreases |g|
  {
    if |g| == 0 then 1 else |g[0].1| * GridSize(g[1..])
  }

  /** Every assignment in `rest` extended with `key` set to each of `vals`. */
  function Extend(key: string, vals: seq<Value>, rest: seq<Params>): seq<Params>
    decreases |vals|
  {
    if |vals| == 0 then []
    else Extend(key, vals[..|vals| - 1], rest) + MapSeq(rest, (q: Params) => q[key := vals[|vals| - 1]])
  }

  lemma {:induction false} ExtendMember(key: string, vals: seq<Value>, rest: seq<Params>, p: Params)
    requires p in Extend(key, vals, rest)
    ensures exists v, q :: v in vals && q in rest && p == q[key := v]
    decreases |vals|
  {
    var front := vals[..|vals| - 1];
    if p in Extend(key, front, rest) {
      ExtendMember(key, front, rest, p);
      var v, q :| v in front && q in rest && p == q[key := v];
      assert v in vals;
    } else {
      var last := MapSeq(rest, (q: Params) => q[key := vals[|vals| - 1]]);
      var k :| 0 <= k < |last| && last[k] == p;
      var v, q := vals[|vals| - 1], rest[k];
      assert v in vals && q in rest && p == q[key := v];
    }
  }

  lemma {:induction false} ExtendCount(key: string, vals: seq<Value>, rest: seq<Params>)
    ensures |Extend(key, vals, rest)| == |vals| * |rest|
    decreases |vals|
  {
    if |vals| > 0 {
      ExtendCount(key, vals[..|vals| - 1], rest);
      assert |vals| * |rest| == (|vals| - 1) * |rest| + |rest|;
    }
  }

  /** All candidate assignments of a grid (GridSearchCV's parameter grid). */
  function Combinations(g: Grid): (r: seq<Params>)
    decreases |g|
  {
    if |g| == 0 then [map[]] else Extend(g[0].0, g[0].1, Combinations(g[1..]))
  }

  /** A grid has exactly as many candidates as the product of its list lengths. */
  lemma {:induction false} CombinationsCount(g: Grid)
    ensures |Combinations(g)| == GridSize(g)
    decreases |g|
  {
    if |g| > 0 {
      CombinationsCount(g[1..]);
      ExtendCount(g[0].0, g[0].1, Combinations(g[1..]));
    }
  }

  /** Every candidate sets every grid parameter, to one of its listed values. */
  lemma {:induction false} CombinationsDrawFromGrid(g: Grid, p: Params, i: int)
    requires p in Combinations(g) && 0 <= i < |g|
    ensures g[i].0 in p
    ensures exists j :: (0 <= j <= i && g[j].0 == g[i].0 && p[g[i].0] in g[j].1)
    decreases |g|
  {
    ExtendMember(g[0].0, g[0].1, Combinations(g[1..]), p);
    var v, q :| v in g[0].1 && q in Combinations(g[1..]) && p == q[g[0].0 := v];
    if i > 0 && g[i].0 != g[0].0 {
      CombinationsDrawFromGrid(g[1..], q, i - 1);
      var j :| 0 <= j <= i - 1 && g[1..][j].0 == g[i].0 && q[g[i].0] in g[1..][j].1;
      assert g[j + 1] == g[1..][j];
    }
  }

  /** The size of a grid, one row at a time from the last. */
  lemma {:induction false} GridSizeSuffixes(g: Grid, sizes: seq<nat>)
    requires |sizes| == |g| + 1 && sizes[|g|] == 1
    requires forall k :: 0 <= k < |g| ==> sizes[k] == |g[k].1| * sizes[k + 1]
    ensures GridSize(g) == sizes[0]
    decreases |g|
  {
    if |g| > 0 {
      GridSizeSuffixes(g[1..], sizes[1..]);
    }
  }

  /** The four grids have 216, 540, 28 and 20 candidates. */
  lemma GridSizes()
    ensures |Combinations(RandomForestGrid())| == 216
    ensures |Combinations(XGBoostGrid())| == 540
    ensures |Combinations(LogRegGrid())| == 28
    ensures |Combinations(SvmGrid())| == 20
  {
    RandomForestGridSize();
    XGBoostGridSize();
    LogRegGridSize();
    SvmGridSize();
  }

  lemma RandomForestGridSize()
    ensures |Combinations(RandomForestGrid())| == 216
  {
    CombinationsCount(RandomForestGrid());
    GridSizeSuffixes(RandomForestGrid(), [216, 72, 36, 12, 4, 2, 1]);
  }

  lemma XGBoostGridSize()
    ensures |Combinations(XGBoostGrid())| == 540
  {
    CombinationsCount(XGBoostGrid());
    GridSizeSuffixes(XGBoostGrid(), [540, 135, 27, 9, 3, 1]);
  }

  lemma LogRegGridSize()
    ensures |Combinations(LogRegGrid())| == 28
  {
    CombinationsCount(LogRegGrid());
    GridSizeSuffixes(LogRegGrid(), [28, 4, 1]);
  }

  lemma SvmGridSize()
    ensures |Combinations(SvmGrid())| == 20
  {
    CombinationsCount(SvmGrid());
    GridSizeSuffixes(SvmGrid(), [20, 20, 4, 1]);
  }

  /** `param_dir / (name + ".json")`. */
  function ParamPath(dir: string, name: string): (p: string)
    ensures var file := name + ".json";
      if file[0] == '/' then p == file else |p| >= |file| && p[|p| - |file|..] == file
  {
    PathJoin(dir, name + ".json")
  }

  /** `save_params`: writes the parameters to the model's file. */
  function SaveParams(cache: Cache, dir: string, name: string, params: Params): (c: Cache)
    ensures c.Keys == cache.Keys + {ParamPath(dir, name)}
    ensures c[ParamPath(dir, name)] == Valid(params)
    ensures forall path :: path in cache && path != ParamPath(dir, name) ==> c[path] == cache[path]
  {
    cache[ParamPath(dir, name) := Valid(params)]
  }

  /** `load_params`: FileNotFoundError when the model's file is absent,
      ValueError when it does not parse; otherwise its parameters are set on
      the model. */
  function LoadParams(cache: Cache, dir: string, model: Model): (r: Result<Model>)
    ensures ParamPath(dir, model.name) !in cache ==> r == Raise(FileNotFoundError(ParamPath(dir, model.name)))
    ensures r.Ok? <==> ParamPath(dir, model.name) in cache && cache[ParamPath(dir, model.name)].Valid?
    ensures r.Ok? ==> r.value == SetParams(model, cache[ParamPath(dir, model.name)].params)
  {
    var path := ParamPath(dir, model.name);
    if path !in cache then Raise(FileNotFoundError(path))
    else match cache[path]
      case Corrupt => Raise(ValueError("Expecting value"))
      case Valid(params) => Ok(SetParams(model, params))
  }

  /** Saved parameters load back onto the model. */
  lemma SaveThenLoad(cache: Cache, dir: string, model: Model, params: Params)
    ensures LoadParams(SaveParams(cache, dir, model.name, params), dir, model) == Ok(SetParams(model, params))
  {
  }

  /** The grid search: the best parameters it finds for the model on the
      grid, or None when it raises. Its fitting and scoring are not modelled. */
  type Search = (Model, Grid) -> Option<Params>

  /** `update_model_params_grid_search`: ValueError without a grid; otherwise
      the best parameters are set on the model and saved. */
  function UpdateModelParamsGridSearch(cache: Cache, dir: string, model: Model, grid: Option<Grid>, search: Search): (r: Result<(Cache, Model)>)
    ensures grid.None? ==> r == Raise(ValueError("First select param grid!"))
    ensures r.Ok? <==> grid.Some? && search(model, grid.value).Some?
    ensures r.Ok? ==> var best := search(model, grid.value).value;
      r.value == (SaveParams(cache, dir, model.name, best), SetParams(model, best))
  {
    (:- Need(grid.Some?, ValueError("First select param grid!"));
    match search(model, grid.value)
    case None => Raise(FitFailed(model.name))
    case Some(best) => Ok((SaveParams(cache, dir, model.name, best), SetParams(model, best))))
  }

  /** `tune_hyperparameters`: selects the grid and searches it; any exception
      is swallowed, leaving the cache and the model as they were. */
  function TuneHyperparameters(cache: Cache, dir: string, model: Model, search: Search): (r: (Cache, Model))
    ensures var grid := GetParamGrid(model.name);
      grid.None? || search(model, grid.value).None? ==> r == (cache, model)
    ensures var grid := GetParamGrid(model.name);
      grid.Some? && search(model, grid.value).Some? ==>
        r == (SaveParams(cache, dir, model.name, search(model, grid.value).value),
              SetParams(model, search(model, grid.value).value))
  {
    match UpdateModelParamsGridSearch(cache, dir, model, GetParamGrid(model.name), search)
    case Ok(tuned) => tuned
    case Raise(_) => (cache, model)
  }

  /** The outcome of `load_or_tune_hyperparameters`: the cache afterwards, the
      model returned, and whether tuning was attempted. */
  datatype Resolution = Resolution(cache: Cache, model: Model, tuned: bool)

  /** `load_or_tune_hyperparameters`: loads the cached parameters; when that
      fails for any reason, tunes instead. It never raises. */
  function LoadOrTune(cache: Cache, dir: string, model: Model, search: Search): (r: Resolution)
    ensures !r.tuned <==> LoadParams(cache, dir, model).Ok?
    ensures !r.tuned ==> r == Resolution(cache, LoadParams(cache, dir, model).value, false)
    ensures r.tuned ==> var t := TuneHyperparameters(cache, dir, model, search);
      r == Resolution(t.0, t.1, true)
  {
    match LoadParams(cache, dir, model)
    case Ok(loaded) => Resolution(cache, loaded, false)
    case Raise(_) =>
      var t := TuneHyperparameters(cache, dir, model, search);
      Resolution(t.0, t.1, true)
  }

  /** Once a call has loaded or successfully tuned parameters, calling again,
      on the original model or on the returned one, loads those parameters
      without tuning, leaves the cache alone and returns the same model. */
  lemma LoadOrTuneIdempotent(cache: Cache, dir: string, model: Model, search: Search)
    requires var first := LoadOrTune(cache, dir, model, search);
      ParamPath(dir, model.name) in first.cache && first.cache[ParamPath(dir, model.name)].Valid?
    ensures var first := LoadOrTune(cache, dir, model, search);
      LoadOrTune(first.cache, dir, model, search) == Resolution(first.cache, first.model, false)
    ensures var first := LoadOrTune(cache, dir, model, search);
      LoadOrTune(first.cache, dir, first.model, search) == Resolution(first.cache, first.model, false)
  {
    var first := LoadOrTune(cache, dir, model, search);
    var params := first.cache[ParamPath(dir, model.name)].params;
    assert first.model == SetParams(model, params);
    SetParamsIdempotent(model, params);
  }

  /** For a model without a grid and without a cached file, resolution tries
      to tune, writes nothing and leaves the model unchanged. */
  lemma UnsupportedModelUnchanged(cache: Cache, dir: string, model: Model, search: Search)
    requires GetParamGrid(model.name).None? && ParamPath(dir, model.name) !in cache
    ensures LoadOrTune(cache, dir, model, search) == Resolution(cache, model, true)
  {
  }

  /** When the search picks one of the grid's candidates, so do the tuned
      parameters: every grid parameter is set to one of its listed values. */
  lemma TunedParamsFromGrid(cache: Cache, dir: string, model: Model, search: Search, i: int)
    requires var grid := GetParamGrid(model.name);
      grid.Some? && search(model, grid.value).Some? && search(model, grid.value).value in Combinations(grid.value)
    requires 0 <= i < |GetParamGrid(model.name).value|
    ensures var grid := GetParamGrid(model.name).value;
      var tuned := TuneHyperparameters(cache, dir, model, search).1;
      grid[i].0 in tuned.params
      && exists j :: (0 <= j <= i && grid[j].0 == grid[i].0 && tuned.params[grid[i].0] in grid[j].1)
  {
    var grid := GetParamGrid(model.name).value;
    CombinationsDrawFromGrid(grid, search(model, grid).value, i);
  }
}

=== FILE: optuna_trainer.dfy ===
/** The autorad Trainer: optimizer selection, the Optuna objective (a NaN
    outcome when a fold fails to fit, otherwise the mean fold AUC), the
    two-level lookup of preprocessed data, and the order of the saving steps
    after a study. Optuna's sampler and study, the model's own parameter
    suggestions, fitting and scoring are parameters. */
module OptunaTrainer {
  import opened Wrappers
  import opened Seqs
  import opened Text
  import opened Frames
  import opened Hyperparams
  import opened AutoradDataset

  datatype Optimizer = OptunaOptimizer(nTrials: nat)

  /** The Trainer's state: the dataset, the candidate models, the result
      directory, the experiment (study) name and the optimizer, if set. */
  datatype Trainer = Trainer(
    dataset: FeatureDataset, models: seq<Model>, resultDir: string,
    experimentName: string, optimizer: Option<Optimizer>)

  /** `Trainer(...)`: no optimizer yet. */
  function NewTrainer(dataset: FeatureDataset, models: seq<Model>, resultDir: string, experimentName: string): (t: Trainer)
    ensures t.optimizer.None? && t.models == models && t.resultDir == resultDir
  {
    Trainer(dataset, models, resultDir, experimentName, None)
  }

  /** `set_optimizer`: only "optuna" is recognised. */
  function SetOptimizer(t: Trainer, name: string, nTrials: nat): (r: Result<Trainer>)
    ensures r.Ok? <==> name == "optuna"
    ensures r.Raise? ==> r.exc == ValueError("Optimizer not recognized.")
    ensures r.Ok? ==> (r.value.dataset == t.dataset && r.value.models == t.models
                       && r.value.resultDir == t.resultDir && r.value.experimentName == t.experimentName)
  {
    if name == "optuna" then Ok(t.(optimizer := Some(OptunaOptimizer(nTrials))))
    else Raise(ValueError("Optimizer not recognized."))
  }

  /** The `optimizer` property: raises while no optimizer is set. */
  function GetOptimizer(t: Trainer): (r: Result<Optimizer>)
    ensures r.Ok? <==> t.optimizer.Some?
    ensures r.Raise? ==> r.exc == ValueError("Optimizer is not set!")
  {
    match t.optimizer
    case None => Raise(ValueError("Optimizer is not set!"))
    case Some(o) => Ok(o)
  }

  /** The optimizer can be read exactly after a successful `set_optimizer`,
      and it then has the requested number of trials; a new trainer has none. */
  lemma OptimizerAfterSet(t: Trainer, name: string, nTrials: nat)
    ensures GetOptimizer(NewTrainer(t.dataset, t.models, t.resultDir, t.experimentName)).Raise?
    ensures SetOptimizer(t, name, nTrials).Ok? ==>
      GetOptimizer(SetOptimizer(t, name, nTrials).value) == Ok(OptunaOptimizer(nTrials))
    ensures t.optimizer.None? && name != "optuna" ==> GetOptimizer(t).Raise?
  {
  }

  /** An Optuna trial as far as the objective sees it: for each parameter
      name and number of choices, the position it samples. The sampler is
      not modelled, so any position may come back; it is read modulo the
      number of choices. */
  datatype Trial = Trial(pick: (string, nat) -> nat)

  /** `trial.suggest_categorical(name, choices)`: one of the choices; ValueError
      when there are none. */
  function Suggest(trial: Trial, name: string, choices: seq<string>): (r: Result<string>)
    ensures r.Ok? <==> |choices| > 0
    ensures r.Ok? ==> r.value in choices
  {
    if |choices| == 0 then Raise(ValueError("The `choices` must contain one or more elements."))
    else Ok(choices[trial.pick(name, |choices|) % |choices|])
  }

  /** Every choice is the suggestion of some trial. */
  lemma SuggestReachesEveryChoice(name: string, choices: seq<string>, k: int)
    requires 0 <= k < |choices|
    ensures Suggest(Trial((n: string, c: nat) => k), name, choices) == Ok(choices[k])
  {
  }

  /** A Python dict with string keys, in insertion order. */
  type Dict<V> = seq<(string, V)>

  /** `d[key]`: the entry under key, if any. */
  function Lookup<V>(d: Dict<V>, key: string): (r: Option<V>)
    ensures r.Some? <==> key in Firsts(d)
    ensures r.Some? ==> (key, r.value) in d
    decreases |d|
  {
    if |d| == 0 then None
    else if d[0].0 == key then Some(d[0].1)
    else
      var rest := Lookup(d[1..], key);
      assert Firsts(d) == [d[0].0] + Firsts(d[1..]);
      rest
  }

  /** The pickled preprocessing results: by feature-selection method, then by
      oversampling method. */
  type Preprocessed = Dict<Dict<TrainingData>>

  /** The data a trial trains on and the parameters it recorded on the way. */
  datatype Suggested = Suggested(data: TrainingData, params: Params)

  /** `optimize_preprocessing`: FileNotFoundError when `preprocessed.pkl` is
      absent (None); otherwise the trial picks a feature-selection method among
      the file's keys, then an oversampling method among that method's keys,
      and gets the data stored under both. */
  function OptimizePreprocessing(trial: Trial, resultDir: string, preprocessed: Option<Preprocessed>): (r: Result<Suggested>)
    ensures preprocessed.None? ==> r == Raise(FileNotFoundError(PathJoin(resultDir, "preprocessed.pkl")))
    ensures preprocessed.Some? && |preprocessed.value| == 0 ==> r.Raise?
    ensures r.Ok? ==> r.value.params.Keys == {"feature_selection_method", "oversampling_method"}
    ensures r.Ok? ==>
      var fs, os := r.value.params["feature_selection_method"], r.value.params["oversampling_method"];
      fs.Str? && os.Str?
      && Lookup(preprocessed.value, fs.s).Some?
      && os.s in Firsts(Lookup(preprocessed.value, fs.s).value)
      && Lookup(Lookup(preprocessed.value, fs.s).value, os.s) == Some(r.value.data)
  {
    match preprocessed
    case None => Raise(FileNotFoundError(PathJoin(resultDir, "preprocessed.pkl")))
    case Some(table) =>
      var fs :- Suggest(trial, "feature_selection_method", Firsts(table));
      var methods := Lookup(table, fs).value;
      var os :- Suggest(trial, "oversampling_method", Firsts(methods));
      Ok(Suggested(Lookup(methods, os).value,
                   map["feature_selection_method" := Str(fs), "oversampling_method" := Str(os)]))
  }

  /** The data of a trial: the preprocessed lookup, or `dataset.data`, which
      raises until a split has been loaded. */
  function TrialData(t: Trainer, trial: Trial, autoPreprocess: bool, preprocessed: Option<Preprocessed>): (r: Result<Suggested>)
    ensures autoPreprocess ==> r == OptimizePreprocessing(trial, t.resultDir, preprocessed)
    ensures !autoPreprocess ==> (r.Ok? <==> t.dataset.split.Some?)
    ensures !autoPreprocess && r.Ok? ==> r.value == Suggested(t.dataset.split.value, map[])
  {
    if autoPreprocess then OptimizePreprocessing(trial, t.resultDir, preprocessed)
    else
      var d :- Data(t.dataset);
      Ok(Suggested(d, map[]))
  }

  /** One cross-validation fold as `iter_training` yields it. */
  datatype TrainingFold = TrainingFold(xTrain: Frame, yTrain: Frame, xVal: Frame, yVal: Frame)

  /** What `model.fit` does: fits, or raises. */
  datatype FitOutcome = Fitted | FitError(exc: Exception)

  /** A metric value: a real number or NaN. */
  datatype Score = NaN | Real(r: real)

  function Sum(xs: seq<real>): real
    decreases |xs|
  {
    if |xs| == 0 then 0.0 else Sum(xs[..|xs| - 1]) + xs[|xs| - 1]
  }

  /** `np.mean`: NaN for no values. */
  function Mean(xs: seq<real>): (m: Score)
    ensures m.NaN? <==> |xs| == 0
    ensures m.Real? ==> m.r * (|xs| as real) == Sum(xs)
  {
    if |xs| == 0 then NaN else Real(Sum(xs) / (|xs| as real))
  }

  /** The external behaviour the objective relies on: the dictionary a
      model's `param_fn` returns (handed to `set_params`), the names and values
      that `param_fn` suggests on the trial (what the trial records; they need
      not be the dictionary's keys), `get_model_by_name`, `iter_training`,
      `fit`, and the validation AUC of a fitted model. */
  datatype Learning = Learning(
    paramFn: (Model, Trial) -> Params,
    suggested: (Model, Trial) -> Params,
    modelByName: (string, seq<Model>) -> Model,
    iterTraining: TrainingData -> seq<TrainingFold>,
    fit: (Model, TrainingFold) -> FitOutcome,
    auc: (Model, TrainingFold) -> real)

  /** The fold loop's result: every fold's AUC, or NaN because a fit raised
      ValueError. */
  datatype FoldScores = AllFitted(aucs: seq<real>) | FitFailedNaN

  /** The fold loop of `_objective`: fit, then score, fold by fold. A
      ValueError from fit ends the loop with NaN; any other exception
      propagates. */
  function ScoreFolds(model: Model, folds: seq<TrainingFold>, env: Learning): Result<FoldScores>
    decreases |folds|
  {
    if |folds| == 0 then Ok(AllFitted([]))
    else match env.fit(model, folds[0])
      case FitError(e) => if e.ValueError? then Ok(FitFailedNaN) else Raise(e)
      case Fitted =>
        var rest :- ScoreFolds(model, folds[1..], env);
        match rest
        case FitFailedNaN => Ok(FitFailedNaN)
        case AllFitted(aucs) => Ok(AllFitted([env.auc(model, folds[0])] + aucs))
  }

  /** The first fold whose fit raises, or the number of folds when all fit. */
  function FirstFailure(model: Model, folds: seq<TrainingFold>, env: Learning): (k: nat)
    ensures k <= |folds|
    ensures forall j :: 0 <= j < k ==> env.fit(model, folds[j]).Fitted?
    ensures k < |folds| ==> env.fit(model, folds[k]).FitError?
    decreases |folds|
  {
    if |folds| == 0 || env.fit(model, folds[0]).FitError? then 0
    else
      var k := FirstFailure(model, folds[1..], env);
      assert forall j :: 1 <= j < k + 1 ==> folds[j] == folds[1..][j - 1];
      k + 1
  }

  /** When every fold fits, the loop yields each fold's AUC in fold order;
      otherwise the first failing fit decides: NaN for a ValueError, the
      exception itself for anything else. */
  lemma {:induction false} ScoreFoldsSpec(model: Model, folds: seq<TrainingFold>, env: Learning)
    ensures var k, r := FirstFailure(model, folds, env), ScoreFolds(model, folds, env);
      (k == |folds| ==> (r.Ok? && r.value.AllFitted? && |r.value.aucs| == |folds|
                          && forall j :: 0 <= j < |folds| ==> r.value.aucs[j] == env.auc(model, folds[j])))
      && (k < |folds| && env.fit(model, folds[k]).exc.ValueError? ==> r == Ok(FitFailedNaN))
      && (k < |folds| && !env.fit(model, folds[k]).exc.ValueError? ==> r == Raise(env.fit(model, folds[k]).exc))
    decreases |folds|
  {
    if |folds| > 0 && env.fit(model, folds[0]).Fitted? {
      ScoreFoldsSpec(model, folds[1..], env);
      var r := ScoreFolds(model, folds[1..], env);
      if FirstFailure(model, folds, env) == |folds| {
        assert forall j :: 1 <= j < |folds| ==> folds[j] == folds[1..][j - 1];
      }
    }
  }

  /** What a trial records besides its value: the fitted model and its AUC. */
  datatype Attrs = Attrs(model: Model, auc: Score)

  /** The objective's value, the user attributes set (None when none were),
      and the parameters the trial suggested. */
  datatype ObjectiveOutcome = ObjectiveOutcome(value: Score, attrs: Option<Attrs>, params: Params)

  /** The model a trial trains: looked up by the suggested name, with its
      suggested parameters set (`set_optuna_params`). */
  function TrialModel(t: Trainer, name: string, trial: Trial, env: Learning): (m: Model)
    ensures m.name == env.modelByName(name, t.models).name
    ensures var base, ps := env.modelByName(name, t.models), env.paramFn(env.modelByName(name, t.models), trial);
      && m.params.Keys == base.params.Keys + ps.Keys
      && (forall k :: k in ps ==> m.params[k] == ps[k])
      && (forall k :: k in base.params && k !in ps ==> m.params[k] == base.params[k])
  {
    var base := env.modelByName(name, t.models);
    SetParams(base, env.paramFn(base, trial))
  }

  /** Setting a trial's suggested parameters again leaves the trial model as
      it is. */
  lemma TrialModelStable(t: Trainer, name: string, trial: Trial, env: Learning)
    ensures var m := TrialModel(t, name, trial, env);
      SetParams(m, env.paramFn(env.modelByName(name, t.models), trial)) == m
  {
    var base := env.modelByName(name, t.models);
    SetParamsIdempotent(base, env.paramFn(base, trial));
  }

  /** `_objective`: picks the data and a model by name, sets the model's
      suggested parameters and runs the fold loop. On a fit ValueError the
      value is NaN and no attribute is set; otherwise the value is the mean
      fold AUC, recorded with the model. */
  function Objective(t: Trainer, trial: Trial, autoPreprocess: bool, preprocessed: Option<Preprocessed>,
                     env: Learning): (r: Result<ObjectiveOutcome>)
    ensures r.Ok? && r.value.attrs.Some? ==> r.value.attrs.value.auc == r.value.value
    ensures r.Ok? ==> TrialData(t, trial, autoPreprocess, preprocessed).Ok? && |t.models| > 0
    ensures r.Ok? ==> ("model" in r.value.params && r.value.params["model"].Str?
                       && r.value.params["model"].s in ModelNames(t.models))
  {
    var source :- TrialData(t, trial, autoPreprocess, preprocessed);
    var name :- Suggest(trial, "model", ModelNames(t.models));
    var model := TrialModel(t, name, trial, env);
    var params := source.params + env.suggested(env.modelByName(name, t.models), trial) + map["model" := Str(name)];
    var scored :- ScoreFolds(model, env.iterTraining(source.data), env);
    match scored
    case FitFailedNaN => Ok(ObjectiveOutcome(NaN, None, params))
    case AllFitted(aucs) =>
      var auc := Mean(aucs);
      Ok(ObjectiveOutcome(auc, Some(Attrs(model, auc)), params))
  }

  /** Once the data and the model name are settled: if every fold fits, the
      objective is the mean of the fold AUCs and that same value is recorded
      with the model; if a fit raises ValueError first, it is NaN and nothing
      is recorded; any other fit exception propagates. */
  lemma ObjectiveOutcomes(t: Trainer, trial: Trial, autoPreprocess: bool, preprocessed: Option<Preprocessed>,
                          env: Learning)
    requires TrialData(t, trial, autoPreprocess, preprocessed).Ok? && |t.models| > 0
    ensures var source := TrialData(t, trial, autoPreprocess, preprocessed).value;
      var name := Suggest(trial, "model", ModelNames(t.models)).value;
      var model := TrialModel(t, name, trial, env);
      var folds := env.iterTraining(source.data);
      var k := FirstFailure(model, folds, env);
      var r := Objective(t, trial, autoPreprocess, preprocessed, env);
      (k == |folds| ==> (r.Ok?
                          && var aucs := seq(|folds|, j requires 0 <= j < |folds| => env.auc(model, folds[j]));
                          r.value.value == Mean(aucs) && r.value.attrs == Some(Attrs(model, Mean(aucs)))))
      && (k < |folds| && env.fit(model, folds[k]).exc.ValueError? ==>
            r.Ok? && r.value.value.NaN? && r.value.attrs.None?)
      && (k < |folds| && !env.fit(model, folds[k]).exc.ValueError? ==>
            r == Raise(env.fit(model, folds[k]).exc))
  {
    var source := TrialData(t, trial, autoPreprocess, preprocessed).value;
    var name := Suggest(trial, "model", ModelNames(t.models)).value;
    var model := TrialModel(t, name, trial, env);
    var folds := env.iterTraining(source.data);
    ScoreFoldsSpec(model, folds, env);
    var scored := ScoreFolds(model, folds, env);
    if FirstFailure(model, folds, env) == |folds| {
      assert scored.value.aucs == seq(|folds|, j requires 0 <= j < |folds| => env.auc(model, folds[j]));
    }
  }

  /** Without automatic preprocessing a trial records no preprocessing
      choice unless a model's `param_fn` suggests one on the trial. */
  lemma ObjectiveParamsWithoutPreprocessing(t: Trainer, trial: Trial, preprocessed: Option<Preprocessed>, env: Learning)
    requires Objective(t, trial, false, preprocessed, env).Ok?
    requires forall m: Model :: "feature_selection_method" !in env.suggested(m, trial)
    ensures "feature_selection_method" !in Objective(t, trial, false, preprocessed, env).value.params
  {
  }

  /** The best trial of a finished study. */
  datatype TrialRecord = TrialRecord(params: Params, attrs: Option<Attrs>)

  /** `create_study(study_name)`, `study.optimize(objective, n_trials)` and
      `study.best_trial`: None when no trial completed, where `best_trial`
      raises. Sampling and selection are not modelled. */
  type Study = (string, nat, bool) -> Option<TrialRecord>

  /** The persistent effects of `run`, in order. */
  datatype Effect =
    | ParamsSaved(path: string, params: Params)
    | PreprocessorLogged(featureSelection: Value, oversampling: Value)
    | ModelLogged(model: Model, auc: Score)

  /** The effects that happened and the exception that ended the run, if any. */
  datatype RunOutcome = RunOutcome(effects: seq<Effect>, error: Option<Exception>)

  /** `save_best_params`: the best parameters go to `result_dir/best_params.json`. */
  function SaveBestParams(t: Trainer, best: TrialRecord): (e: Effect)
    ensures e.ParamsSaved? && e.params == best.params
    ensures e.path == PathJoin(t.resultDir, "best_params.json")
  {
    ParamsSaved(PathJoin(t.resultDir, "best_params.json"), best.params)
  }

  /** `save_best_preprocessor`: KeyError when the best parameters lack either
      preprocessing choice; the preprocessor is fitted on `dataset.data`,
      which raises until a split has been loaded. */
  function SaveBestPreprocessor(t: Trainer, best: TrialRecord): (r: Result<Effect>)
    ensures r.Ok? <==> ("feature_selection_method" in best.params && "oversampling_method" in best.params
                        && t.dataset.split.Some?)
    ensures "feature_selection_method" !in best.params ==> r == Raise(KeyError("feature_selection_method"))
    ensures r.Ok? ==> r.value == PreprocessorLogged(best.params["feature_selection_method"], best.params["oversampling_method"])
  {
    (:- Need("feature_selection_method" in best.params, KeyError("feature_selection_method"));
    :- Need("oversampling_method" in best.params, KeyError("oversampling_method"));
    var _ :- Data(t.dataset);
    Ok(PreprocessorLogged(best.params["feature_selection_method"], best.params["oversampling_method"])))
  }

  /** `save_best_model`: KeyError when the best trial recorded no model. */
  function SaveBestModel(best: TrialRecord): (r: Result<Effect>)
    ensures r.Ok? <==> best.attrs.Some?
    ensures r.Ok? ==> r.value == ModelLogged(best.attrs.value.model, best.attrs.value.auc)
  {
    match best.attrs
    case None => Raise(KeyError("model"))
    case Some(a) => Ok(ModelLogged(a.model, a.auc))
  }

  /** The steps of `run` after the study: save the best parameters, then
      (when `withPreprocessor`) the preprocessor, then the model; an exception
      stops the run after the effects already made. */
  function SaveSteps(t: Trainer, best: TrialRecord, withPreprocessor: bool): (o: RunOutcome)
    ensures |o.effects| >= 1 && o.effects[0] == SaveBestParams(t, best)
  {
    var saved := SaveBestParams(t, best);
    if withPreprocessor && SaveBestPreprocessor(t, best).Raise? then
      RunOutcome([saved], Some(SaveBestPreprocessor(t, best).exc))
    else
      var done := if withPreprocessor then [saved, SaveBestPreprocessor(t, best).value] else [saved];
      match SaveBestModel(best)
      case Raise(e) => RunOutcome(done, Some(e))
      case Ok(logged) => RunOutcome(done + [logged], None)
  }

  /** `run` as written: the preprocessor is saved whatever `auto_preprocess`
      was. */
  function RunAsWritten(t: Trainer, autoPreprocess: bool, study: Study): (o: RunOutcome)
    ensures t.optimizer.None? ==> o == RunOutcome([], Some(ValueError("Optimizer is not set!")))
    ensures t.optimizer.Some? && study(t.experimentName, t.optimizer.value.nTrials, autoPreprocess).None? ==>
      o == RunOutcome([], Some(NoCompletedTrial))
    ensures t.optimizer.Some? && study(t.experimentName, t.optimizer.value.nTrials, autoPreprocess).Some? ==>
      |o.effects| >= 1 && o.effects[0] == SaveBestParams(t, study(t.experimentName, t.optimizer.value.nTrials, autoPreprocess).value)
  {
    match GetOptimizer(t)
    case Raise(e) => RunOutcome([], Some(e))
    case Ok(opt) =>
      match study(t.experimentName, opt.nTrials, autoPreprocess)
      case None => RunOutcome([], Some(NoCompletedTrial))
      case Some(best) => SaveSteps(t, best, true)
  }

  /** What `study.best_trial` raises when no trial completed. */
  const NoCompletedTrial := ValueError("No trials are completed yet.")

  /** With `auto_preprocess` the code as written is the corrected run, so it
      saves parameters, preprocessor and model in that order. */
  lemma RunAsWrittenWithPreprocessing(t: Trainer, study: Study)
    ensures RunAsWritten(t, true, study) == Run(t, true, study)
  {
  }

  /** As written, a study whose best trial has no preprocessing choice (what
      the objective records without `auto_preprocess`) ends in KeyError right
      after the best parameters are saved, and the model is never saved. */
  lemma RunAsWrittenFailsWithoutPreprocessing(t: Trainer, study: Study)
    requires t.optimizer.Some?
    requires var best := study(t.experimentName, t.optimizer.value.nTrials, false);
      best.Some? && "feature_selection_method" !in best.value.params
    ensures var best := study(t.experimentName, t.optimizer.value.nTrials, false).value;
      RunAsWritten(t, false, study) == RunOutcome([SaveBestParams(t, best)], Some(KeyError("feature_selection_method")))
  {
  }

  /** `run`, corrected: the preprocessor is saved only when preprocessing was
      optimised. */
  function Run(t: Trainer, autoPreprocess: bool, study: Study): (o: RunOutcome)
    ensures t.optimizer.None? ==> o == RunOutcome([], Some(ValueError("Optimizer is not set!")))
    ensures t.optimizer.Some? && study(t.experimentName, t.optimizer.value.nTrials, autoPreprocess).None? ==>
      o == RunOutcome([], Some(NoCompletedTrial))
  {
    match GetOptimizer(t)
    case Raise(e) => RunOutcome([], Some(e))
    case Ok(opt) =>
      match study(t.experimentName, opt.nTrials, autoPreprocess)
      case None => RunOutcome([], Some(NoCompletedTrial))
      case Some(best) => SaveSteps(t, best, autoPreprocess)
  }

  /** A completed study whose best trial recorded a model is saved in order:
      parameters to `result_dir/best_params.json`, then the preprocessor when
      preprocessing was optimised and its choices were recorded, then the
      model; nothing fails. */
  lemma RunSavesInOrder(t: Trainer, autoPreprocess: bool, study: Study)
    requires t.optimizer.Some?
    requires var best := study(t.experimentName, t.optimizer.value.nTrials, autoPreprocess);
      best.Some? && best.value.attrs.Some?
      && (autoPreprocess ==> ("feature_selection_method" in best.value.params
                              && "oversampling_method" in best.value.params && t.dataset.split.Some?))
    ensures var best := study(t.experimentName, t.optimizer.value.nTrials, autoPreprocess).value;
      var a := best.attrs.value;
      Run(t, autoPreprocess, study) == RunOutcome(
        [ParamsSaved(PathJoin(t.resultDir, "best_params.json"), best.params)]
        + (if autoPreprocess
           then [PreprocessorLogged(best.params["feature_selection_method"], best.params["oversampling_method"])]
           else [])
        + [ModelLogged(a.model, a.auc)], None)
  {
  }

  /** Every run's effects are a prefix of the full save sequence. */
  lemma RunEffectsArePrefix(t: Trainer, autoPreprocess: bool, study: Study)
    requires t.optimizer.Some? && study(t.experimentName, t.optimizer.value.nTrials, autoPreprocess).Some?
    ensures var best := study(t.experimentName, t.optimizer.value.nTrials, autoPreprocess).value;
      var o := Run(t, autoPreprocess, study);
      o.effects[0] == ParamsSaved(PathJoin(t.resultDir, "best_params.json"), best.params)
      && (o.error.None? ==> o.effects[|o.effects| - 1] == SaveBestModel(best).value)
      && (o.error.Some? ==> SaveBestModel(best).Raise? || (autoPreprocess && SaveBestPreprocessor(t, best).Raise?))
  {
  }
}

=== FILE: radiomics_trainer.dfy ===
/** The Radiomics Trainer: the result table that records, for every row of
    the dataset, whether it is a test row, which cross-validation fold holds it
    out, and each model's out-of-fold and test predictions. */
module RadiomicsTrainer {
  import opened Wrappers
  import opened Seqs
  import opened Text
  import opened Frames
  import opened Hyperparams

  /** The labels of the rows at the given positions (`X_train.index[val_idx]`):
      IndexError for an out-of-range position. */
  function LabelsAt(f: Frame, positions: seq<int>): (r: Result<seq<Label>>)
    ensures r.Ok? <==> InRange(|f.rows|, positions)
    ensures r.Ok? ==> |r.value| == |positions|
    ensures r.Ok? ==> forall k :: 0 <= k < |positions| ==>
      r.value[k] == f.rows[Position(|f.rows|, positions[k]).value].index
  {
    var rows :- Iloc(f, positions);
    Ok(Index(rows))
  }

  /** Every fold's validation positions are valid positions of f. */
  predicate FoldsInRange(f: Frame, splits: seq<FoldIndices>) {
    forall k :: 0 <= k < |splits| ==> InRange(|f.rows|, splits[k].valIdx)
  }

  /** The validation labels of every fold. */
  function ValLabels(f: Frame, splits: seq<FoldIndices>): (ls: seq<seq<Label>>)
    requires FoldsInRange(f, splits)
  {
    seq(|splits|, k requires 0 <= k < |splits| => LabelsAt(f, splits[k].valIdx).value)
  }

  lemma ValLabelsPrefix(f: Frame, splits: seq<FoldIndices>, n: nat)
    requires FoldsInRange(f, splits) && n <= |splits|
    ensures FoldsInRange(f, splits[..n]) && ValLabels(f, splits[..n]) == ValLabels(f, splits)[..n]
  {
  }

  /** The last fold whose labels contain l, or -1 when there is none. */
  function LastFold(l: Label, folds: seq<seq<Label>>): (k: int)
    ensures -1 <= k < |folds|
    ensures k >= 0 ==> l in folds[k]
    ensures forall j :: k < j < |folds| ==> l !in folds[j]
    decreases |folds|
  {
    if |folds| == 0 then -1
    else if l in folds[|folds| - 1] then |folds| - 1
    else LastFold(l, folds[..|folds| - 1])
  }

  /** Every fold's validation positions are valid and all its labels are
      labels of f. */
  predicate FoldLabelsKnown(f: Frame, xTrain: Frame, splits: seq<FoldIndices>) {
    FoldsInRange(xTrain, splits)
      && forall k, l :: 0 <= k < |splits| && l in ValLabels(xTrain, splits)[k] ==> l in Index(f)
  }

  /** g has f's rows, in order, with the same labels. */
  predicate SameLabels(f: Frame, g: Frame) {
    |g.rows| == |f.rows| && forall i :: 0 <= i < |f.rows| ==> g.rows[i].index == f.rows[i].index
  }

  /** The fold loop of `init_result_df`: fold i writes i into "cv_split" at
      its validation rows. IndexError for a bad position and KeyError for a
      label the table lacks, in fold order. */
  function WriteCvSplits(f: Frame, xTrain: Frame, splits: seq<FoldIndices>): (r: Result<Frame>)
    ensures r.Ok? ==> SameLabels(f, r.value)
    ensures r.Ok? ==> r.value.columns == (if |splits| == 0 then f.columns else AddColumn(f.columns, "cv_split"))
    decreases |splits|
  {
    if |splits| == 0 then Ok(f)
    else
      var n := |splits| - 1;
      var g :- WriteCvSplits(f, xTrain, splits[..n]);
      var labels :- LabelsAt(xTrain, splits[n].valIdx);
      SetAtLabels(g, labels, "cv_split", Int(n))
  }

  lemma FoldLabelsKnownSnoc(f: Frame, xTrain: Frame, splits: seq<FoldIndices>)
    requires |splits| > 0
    ensures var n := |splits| - 1;
      FoldLabelsKnown(f, xTrain, splits) <==>
        FoldLabelsKnown(f, xTrain, splits[..n]) && InRange(|xTrain.rows|, splits[n].valIdx)
        && forall l :: l in LabelsAt(xTrain, splits[n].valIdx).value ==> l in Index(f)
  {
    var n := |splits| - 1;
    if FoldsInRange(xTrain, splits) {
      ValLabelsPrefix(xTrain, splits, n);
      assert ValLabels(xTrain, splits)[n] == LabelsAt(xTrain, splits[n].valIdx).value;
    }
    if FoldLabelsKnown(f, xTrain, splits[..n]) && InRange(|xTrain.rows|, splits[n].valIdx) {
      assert FoldsInRange(xTrain, splits) by {
        forall k | 0 <= k < |splits|
          ensures InRange(|xTrain.rows|, splits[k].valIdx)
        {
          if k < n {
            assert splits[k] == splits[..n][k];
          }
        }
      }
    }
  }

  /** The fold loop succeeds exactly when every fold's positions and labels
      are valid. */
  lemma {:induction false} WriteCvSplitsOk(f: Frame, xTrain: Frame, splits: seq<FoldIndices>)
    ensures WriteCvSplits(f, xTrain, splits).Ok? <==> FoldLabelsKnown(f, xTrain, splits)
    decreases |splits|
  {
    if |splits| > 0 {
      var n := |splits| - 1;
      WriteCvSplitsOk(f, xTrain, splits[..n]);
      FoldLabelsKnownSnoc(f, xTrain, splits);
      var front := WriteCvSplits(f, xTrain, splits[..n]);
      if front.Ok? {
        assert Index(front.value) == Index(f);
      }
    }
  }

  /** The fold loop changes only "cv_split", where each row ends up with the
      last fold that holds it out, or keeps its value when no fold does. */
  lemma {:induction false} WriteCvSplitsValues(f: Frame, xTrain: Frame, splits: seq<FoldIndices>)
    requires WriteCvSplits(f, xTrain, splits).Ok?
    ensures FoldsInRange(xTrain, splits)
    ensures var r := WriteCvSplits(f, xTrain, splits).value;
      forall i, d :: 0 <= i < |f.rows| && d != "cv_split" ==> Get(r.rows[i], d) == Get(f.rows[i], d)
    ensures var r := WriteCvSplits(f, xTrain, splits).value;
      forall i :: 0 <= i < |f.rows| ==>
        Get(r.rows[i], "cv_split") ==
          (var k := LastFold(f.rows[i].index, ValLabels(xTrain, splits));
           if k >= 0 then Int(k) else Get(f.rows[i], "cv_split"))
    decreases |splits|
  {
    WriteCvSplitsOk(f, xTrain, splits);
    if |splits| > 0 {
      var n := |splits| - 1;
      WriteCvSplitsValues(f, xTrain, splits[..n]);
      var g := WriteCvSplits(f, xTrain, splits[..n]).value;
      var labels := LabelsAt(xTrain, splits[n].valIdx).value;
      var r := WriteCvSplits(f, xTrain, splits).value;
      assert r == SetAtLabels(g, labels, "cv_split", Int(n)).value;
      ValLabelsPrefix(xTrain, splits, n);
      var ls := ValLabels(xTrain, splits);
      assert ls[n] == labels;
      forall i | 0 <= i < |f.rows|
        ensures Get(r.rows[i], "cv_split") ==
          (var k := LastFold(f.rows[i].index, ls); if k >= 0 then Int(k) else Get(f.rows[i], "cv_split"))
      {
        assert g.rows[i].index == f.rows[i].index;
        assert ls[..n] == ValLabels(xTrain, splits[..n]);
      }
    }
  }

  /** The meta columns with "test" set: 1 at the test labels, 0 elsewhere.
      KeyError for a missing meta column or an unknown test label. */
  function MarkTest(df: Frame, meta: seq<string>, xTest: Frame): (r: Result<Frame>)
    ensures r.Ok? <==> ((forall c :: c in meta ==> c in df.columns)
      && (forall k :: 0 <= k < |xTest.rows| ==> xTest.rows[k].index in Index(df)))
    ensures r.Ok? ==> r.value.columns == AddColumn(meta, "test") && SameLabels(df, r.value)
    ensures r.Ok? ==> forall i, c :: 0 <= i < |df.rows| && c in meta && c != "test" ==>
      Get(r.value.rows[i], c) == Get(df.rows[i], c)
    ensures r.Ok? ==> forall i :: 0 <= i < |df.rows| ==>
      Get(r.value.rows[i], "test") == if df.rows[i].index in Index(xTest) then Int(1) else Int(0)
  {
    var base :- Project(df, meta);
    var zeroed := Assign(base, "test", Int(0));
    assert Index(zeroed) == Index(df);
    SetAtLabels(zeroed, Index(xTest), "test", Int(1))
  }

  /** `init_result_df`: the meta columns, "test", then "cv_split" set to -1
      and overwritten fold by fold. */
  function InitResultDf(df: Frame, meta: seq<string>, xTrain: Frame, xTest: Frame,
                        splits: seq<FoldIndices>): (r: Result<Frame>)
    ensures r.Ok? ==> r.value.columns == AddColumn(AddColumn(meta, "test"), "cv_split")
    ensures r.Ok? ==> SameLabels(df, r.value)
  {
    var tested :- MarkTest(df, meta, xTest);
    var unsplit := Assign(tested, "cv_split", Int(-1));
    WriteCvSplits(unsplit, xTrain, splits)
  }

  /** The result table is built exactly when the meta columns exist and every
      test and fold label is a label of the dataset. */
  lemma InitResultDfOk(df: Frame, meta: seq<string>, xTrain: Frame, xTest: Frame, splits: seq<FoldIndices>)
    ensures InitResultDf(df, meta, xTrain, xTest, splits).Ok? <==>
      (forall c :: c in meta ==> c in df.columns)
      && (forall k :: 0 <= k < |xTest.rows| ==> xTest.rows[k].index in Index(df))
      && FoldLabelsKnown(df, xTrain, splits)
  {
    var tested := MarkTest(df, meta, xTest);
    if tested.Ok? {
      var unsplit := Assign(tested.value, "cv_split", Int(-1));
      assert Index(unsplit) == Index(df);
      WriteCvSplitsOk(unsplit, xTrain, splits);
    }
  }

  /** The result table holds the meta columns; "test" is 1 on the test rows
      and 0 elsewhere; "cv_split" is the last fold holding the row out, or -1
      when none does. */
  lemma InitResultDfValues(df: Frame, meta: seq<string>, xTrain: Frame, xTest: Frame, splits: seq<FoldIndices>, i: int)
    requires InitResultDf(df, meta, xTrain, xTest, splits).Ok? && 0 <= i < |df.rows|
    ensures FoldsInRange(xTrain, splits)
    ensures var r := InitResultDf(df, meta, xTrain, xTest, splits).value;
      (forall c :: c in meta && c != "test" && c != "cv_split" ==> Get(r.rows[i], c) == Get(df.rows[i], c))
      && Get(r.rows[i], "test") == (if df.rows[i].index in Index(xTest) then Int(1) else Int(0))
      && Get(r.rows[i], "cv_split") == Int(LastFold(df.rows[i].index, ValLabels(xTrain, splits)))
  {
    var tested := MarkTest(df, meta, xTest).value;
    var unsplit := Assign(tested, "cv_split", Int(-1));
    CvSplitAt(tested, xTrain, splits, i);
    assert df.rows[i].index == tested.rows[i].index;
  }

  /** One row of the fold loop run on a table whose "cv_split" is -1: other
      cells are kept and "cv_split" is the row's last fold, or -1. */
  lemma CvSplitAt(tested: Frame, xTrain: Frame, splits: seq<FoldIndices>, i: int)
    requires WriteCvSplits(Assign(tested, "cv_split", Int(-1)), xTrain, splits).Ok? && 0 <= i < |tested.rows|
    ensures FoldsInRange(xTrain, splits)
    ensures var r := WriteCvSplits(Assign(tested, "cv_split", Int(-1)), xTrain, splits).value;
      (forall c :: c != "cv_split" ==> Get(r.rows[i], c) == Get(tested.rows[i], c))
      && Get(r.rows[i], "cv_split") == Int(LastFold(tested.rows[i].index, ValLabels(xTrain, splits)))
  {
    var unsplit := Assign(tested, "cv_split", Int(-1));
    WriteCvSplitsValues(unsplit, xTrain, splits);
    assert unsplit.rows[i] == SetCell(tested.rows[i], "cv_split", Int(-1));
  }

  /** A fitted model's output for a table: a label and a probability per row. */
  datatype Predictions = Predictions(labels: seq<Value>, probas: seq<Value>)

  /** `model.fit(X, y)` followed by `model.predict_label_and_proba(X_pred)`:
      None when either raises. The learning itself is not modelled. */
  type Learner = (Model, Frame, Frame, Frame) -> Option<Predictions>

  /** The training features, training targets and test features, after
      standardisation and feature selection (which keep the row labels). */
  datatype Partitions = Partitions(xTrain: Frame, yTrain: Frame, xTest: Frame)

  function FitPredict(learner: Learner, model: Model, x: Frame, y: Frame, target: Frame): Result<Predictions> {
    match learner(model, x, y, target)
    case None => Raise(FitFailed(model.name))
    case Some(p) => Ok(p)
  }

  /** One fold's validation labels and the predictions for them. */
  datatype FoldOutput = FoldOutput(labels: seq<Label>, preds: Predictions)

  /** Selects a fold as `get_cross_validation_fold` does (IndexError for a bad
      position), fits on its training rows and predicts its validation rows. */
  function PredictFold(learner: Learner, model: Model, data: Partitions, fold: FoldIndices): (r: Result<FoldOutput>)
    ensures r.Ok? ==> InRange(|data.xTrain.rows|, fold.valIdx)
    ensures r.Ok? ==> r.value.labels == LabelsAt(data.xTrain, fold.valIdx).value
    ensures r.Ok? ==> var xt, yt, xv := Iloc(data.xTrain, fold.trainIdx), Iloc(data.yTrain, fold.trainIdx), Iloc(data.xTrain, fold.valIdx);
      xt.Ok? && yt.Ok? && xv.Ok? && learner(model, xt.value, yt.value, xv.value) == Some(r.value.preds)
  {
    var xt :- Iloc(data.xTrain, fold.trainIdx);
    var xv :- Iloc(data.xTrain, fold.valIdx);
    var yt :- Iloc(data.yTrain, fold.trainIdx);
    :- CheckPositions(|data.yTrain.rows|, fold.valIdx);
    var p :- FitPredict(learner, model, xt, yt, xv);
    Ok(FoldOutput(Index(xv), p))
  }

  /** Every fold predicted in order, nothing written: the reference for the
      interleaved predict-and-write loop. */
  function PredictFolds(learner: Learner, model: Model, data: Partitions, splits: seq<FoldIndices>): (r: Result<seq<FoldOutput>>)
    ensures r.Ok? ==> |r.value| == |splits| && FoldsInRange(data.xTrain, splits)
    ensures r.Ok? ==> forall k :: 0 <= k < |splits| ==> r.value[k].labels == ValLabels(data.xTrain, splits)[k]
    decreases |splits|
  {
    if |splits| == 0 then Ok([])
    else
      var outs :- PredictFolds(learner, model, data, splits[..|splits| - 1]);
      var o :- PredictFold(learner, model, data, splits[|splits| - 1]);
      assert forall k :: 0 <= k < |splits| - 1 ==> splits[..|splits| - 1][k] == splits[k];
      Ok(outs + [o])
  }

  /** Every fold has as many predictions and probabilities as labels. */
  predicate Writable(outs: seq<FoldOutput>) {
    forall k :: 0 <= k < |outs| ==>
      |outs[k].preds.labels| == |outs[k].labels| && |outs[k].preds.probas| == |outs[k].labels|
  }

  function FoldValues(o: FoldOutput, probas: bool): seq<Value> {
    if probas then o.preds.probas else o.preds.labels
  }

  /** All fold writes combined into one assignment by label, later folds
      winning: of the predicted labels, or of the probabilities. */
  function Overlay(outs: seq<FoldOutput>, probas: bool): map<Label, Value>
    requires Writable(outs)
    decreases |outs|
  {
    if |outs| == 0 then map[]
    else
      var o := outs[|outs| - 1];
      Overlay(outs[..|outs| - 1], probas) + ZipMap(o.labels, FoldValues(o, probas))
  }

  /** A label is written exactly when some fold holds it, and it receives the
      value of the last such fold. */
  lemma {:induction false} OverlayAt(outs: seq<FoldOutput>, probas: bool, l: Label)
    requires Writable(outs)
    ensures var k := LastFold(l, MapSeq(outs, (o: FoldOutput) => o.labels));
      (l in Overlay(outs, probas) <==> k >= 0)
      && (k >= 0 ==> Overlay(outs, probas)[l] == ZipMap(outs[k].labels, FoldValues(outs[k], probas))[l])
    decreases |outs|
  {
    if |outs| > 0 {
      var n := |outs| - 1;
      var all := MapSeq(outs, (o: FoldOutput) => o.labels);
      assert all[..n] == MapSeq(outs[..n], (o: FoldOutput) => o.labels);
      OverlayAt(outs[..n], probas, l);
    }
  }

  /** The fold loop of `train_cross_validation` for one model: for each fold,
      fit, predict the validation rows, write the labels, then the
      probabilities. */
  function WriteFolds(f: Frame, learner: Learner, model: Model, data: Partitions, splits: seq<FoldIndices>,
                      predCol: string, probaCol: string): (r: Result<Frame>)
    requires predCol != probaCol && predCol in f.columns && probaCol in f.columns
    ensures r.Ok? ==> var outs := PredictFolds(learner, model, data, splits);
      outs.Ok? && Writable(outs.value)
      && r.value == WriteMap(WriteMap(f, predCol, Overlay(outs.value, false)), probaCol, Overlay(outs.value, true))
    decreases |splits|
  {
    if |splits| == 0 then
      assert WriteMap(WriteMap(f, predCol, map[]), probaCol, map[]) == f;
      Ok(f)
    else
      var n := |splits| - 1;
      var g :- WriteFolds(f, learner, model, data, splits[..n], predCol, probaCol);
      var o :- PredictFold(learner, model, data, splits[n]);
      var g1 :- SetByLabels(g, o.labels, predCol, o.preds.labels);
      var g2 :- SetByLabels(g1, o.labels, probaCol, o.preds.probas);
      var front := PredictFolds(learner, model, data, splits[..n]).value;
      PredictFoldsSnoc(learner, model, data, splits, o);
      OverlaySnoc(front, o, false);
      OverlaySnoc(front, o, true);
      InterleavedWrites(f, predCol, probaCol, Overlay(front, false), Overlay(front, true),
                        ZipMap(o.labels, o.preds.labels), ZipMap(o.labels, o.preds.probas));
      Ok(g2)
  }

  lemma PredictFoldsSnoc(learner: Learner, model: Model, data: Partitions, splits: seq<FoldIndices>, o: FoldOutput)
    requires |splits| > 0 && PredictFolds(learner, model, data, splits[..|splits| - 1]).Ok?
    requires PredictFold(learner, model, data, splits[|splits| - 1]) == Ok(o)
    ensures PredictFolds(learner, model, data, splits)
      == Ok(PredictFolds(learner, model, data, splits[..|splits| - 1]).value + [o])
  {
  }

  lemma OverlaySnoc(outs: seq<FoldOutput>, o: FoldOutput, probas: bool)
    requires Writable(outs) && |o.preds.labels| == |o.labels| && |o.preds.probas| == |o.labels|
    ensures Writable(outs + [o])
    ensures Overlay(outs + [o], probas) == Overlay(outs, probas) + ZipMap(o.labels, FoldValues(o, probas))
  {
    assert (outs + [o])[..|outs|] == outs;
  }

  function PredColumn(name: string): string {
    name + "_pred"
  }

  function ProbaColumn(name: string): string {
    name + "_pred_proba"
  }

  /** A prediction column never coincides with a probability column, and
      different models get different prediction columns. */
  lemma ColumnNamesDistinct(a: string, b: string)
    ensures PredColumn(a) != ProbaColumn(b)
    ensures PredColumn(a) == PredColumn(b) ==> a == b
    ensures ProbaColumn(a) == ProbaColumn(b) ==> a == b
  {
    var p, q := PredColumn(a), ProbaColumn(b);
    assert p[|p| - 1] == 'd' && q[|q| - 1] == 'a';
    if PredColumn(a) == PredColumn(b) {
      assert a == PredColumn(a)[..|a|] && b == PredColumn(b)[..|b|];
    }
    if ProbaColumn(a) == ProbaColumn(b) {
      assert a == ProbaColumn(a)[..|a|] && b == ProbaColumn(b)[..|b|];
    }
  }

  /** The two prediction columns of a model, set to the sentinel -1. */
  function Sentinels(result: Frame, name: string): Frame {
    Assign(Assign(result, PredColumn(name), Int(-1)), ProbaColumn(name), Int(-1))
  }

  /** One model's pass of `train_cross_validation`: the sentinel columns, the
      fold loop, then a fit on the whole training partition whose test
      predictions are written at the test labels. The result equals one
      combined write per column in which test predictions override fold
      predictions, which override the sentinel. */
  function TrainModel(result: Frame, learner: Learner, model: Model, data: Partitions, splits: seq<FoldIndices>): (r: Result<Frame>)
    ensures r.Ok? ==> r.value.columns == AddColumn(AddColumn(result.columns, PredColumn(model.name)), ProbaColumn(model.name))
  {
    var predCol, probaCol := PredColumn(model.name), ProbaColumn(model.name);
    ColumnNamesDistinct(model.name, model.name);
    var g :- WriteFolds(Sentinels(result, model.name), learner, model, data, splits, predCol, probaCol);
    var p :- FitPredict(learner, model, data.xTrain, data.yTrain, data.xTest);
    var g1 :- SetByLabels(g, Index(data.xTest), predCol, p.labels);
    SetByLabels(g1, Index(data.xTest), probaCol, p.probas)
  }

  /** A test label that labels several rows of the result table stops the
      pass: the write of the test predictions selects more rows than there
      are predictions, and pandas raises ValueError. */
  lemma TrainModelSharedTestLabel(result: Frame, learner: Learner, model: Model, data: Partitions,
                                  splits: seq<FoldIndices>, p: Predictions)
    requires WriteFolds(Sentinels(result, model.name), learner, model, data, splits,
                        PredColumn(model.name), ProbaColumn(model.name)).Ok?
    requires learner(model, data.xTrain, data.yTrain, data.xTest) == Some(p)
    requires |p.labels| == |data.xTest.rows|
    requires forall k :: 0 <= k < |data.xTest.rows| ==> data.xTest.rows[k].index in Index(result)
    requires !LabelsOnce(result, Index(data.xTest))
    ensures TrainModel(result, learner, model, data, splits) == Raise(ValueError(UnequalSetting))
  {
    var predCol, probaCol := PredColumn(model.name), ProbaColumn(model.name);
    ColumnNamesDistinct(model.name, model.name);
    var g := WriteFolds(Sentinels(result, model.name), learner, model, data, splits, predCol, probaCol).value;
    assert Index(g) == Index(result);
    assert FitPredict(learner, model, data.xTrain, data.yTrain, data.xTest) == Ok(p);
    SharedLabelsRaise(result, g, Index(data.xTest), predCol, p.labels);
  }

  /** One model's pass equals one combined write per column on top of the
      sentinels, in which the test predictions override the fold predictions
      and later folds override earlier ones. */
  lemma TrainModelOverlay(result: Frame, learner: Learner, model: Model, data: Partitions, splits: seq<FoldIndices>)
    requires TrainModel(result, learner, model, data, splits).Ok?
    ensures var outs := PredictFolds(learner, model, data, splits);
      var test := learner(model, data.xTrain, data.yTrain, data.xTest);
      var testIndex := Index(data.xTest);
      outs.Ok? && Writable(outs.value) && test.Some?
      && |test.value.labels| == |testIndex| && |test.value.probas| == |testIndex|
      && TrainModel(result, learner, model, data, splits).value == WriteMap(
        WriteMap(Sentinels(result, model.name), PredColumn(model.name),
                 Overlay(outs.value, false) + ZipMap(testIndex, test.value.labels)),
        ProbaColumn(model.name), Overlay(outs.value, true) + ZipMap(testIndex, test.value.probas))
  {
    var predCol, probaCol := PredColumn(model.name), ProbaColumn(model.name);
    ColumnNamesDistinct(model.name, model.name);
    var base := Sentinels(result, model.name);
    var g := WriteFolds(base, learner, model, data, splits, predCol, probaCol).value;
    var p := learner(model, data.xTrain, data.yTrain, data.xTest).value;
    var g1 := SetByLabels(g, Index(data.xTest), predCol, p.labels).value;
    var outs := PredictFolds(learner, model, data, splits).value;
    InterleavedWrites(base, predCol, probaCol, Overlay(outs, false), Overlay(outs, true),
                      ZipMap(Index(data.xTest), p.labels), ZipMap(Index(data.xTest), p.probas));
  }

  /** What one model's pass leaves in a row: the test prediction on a test
      row; otherwise the prediction of the last fold holding the row out;
      otherwise the sentinel -1. Every other column is untouched. */
  lemma TrainModelCells(result: Frame, learner: Learner, model: Model, data: Partitions, splits: seq<FoldIndices>, i: int)
    requires TrainModel(result, learner, model, data, splits).Ok? && 0 <= i < |result.rows|
    ensures var r := TrainModel(result, learner, model, data, splits).value;
      var outs := PredictFolds(learner, model, data, splits).value;
      var test := learner(model, data.xTrain, data.yTrain, data.xTest).value;
      var l := result.rows[i].index;
      var k := LastFold(l, ValLabels(data.xTrain, splits));
      |r.rows| == |result.rows| && r.rows[i].index == l
      && (forall d :: d != PredColumn(model.name) && d != ProbaColumn(model.name) ==>
            Get(r.rows[i], d) == Get(result.rows[i], d))
      && (l in Index(data.xTest) ==>
            Get(r.rows[i], PredColumn(model.name)) == ZipMap(Index(data.xTest), test.labels)[l]
            && Get(r.rows[i], ProbaColumn(model.name)) == ZipMap(Index(data.xTest), test.probas)[l])
      && (l !in Index(data.xTest) && k >= 0 ==>
            Get(r.rows[i], PredColumn(model.name)) == ZipMap(outs[k].labels, outs[k].preds.labels)[l]
            && Get(r.rows[i], ProbaColumn(model.name)) == ZipMap(outs[k].labels, outs[k].preds.probas)[l])
      && (l !in Index(data.xTest) && k < 0 ==>
            Get(r.rows[i], PredColumn(model.name)) == Int(-1)
            && Get(r.rows[i], ProbaColumn(model.name)) == Int(-1))
  {
    var predCol, probaCol := PredColumn(model.name), ProbaColumn(model.name);
    ColumnNamesDistinct(model.name, model.name);
    TrainModelOverlay(result, learner, model, data, splits);
    var outs := PredictFolds(learner, model, data, splits).value;
    var l := result.rows[i].index;
    var all := MapSeq(outs, (o: FoldOutput) => o.labels);
    assert all == ValLabels(data.xTrain, splits);
    OverlayAt(outs, false, l);
    OverlayAt(outs, true, l);
    var base := Sentinels(result, model.name);
    assert Get(base.rows[i], predCol) == Int(-1) && Get(base.rows[i], probaCol) == Int(-1);
  }

  /** The prediction and probability columns of the models, in model order. */
  function ModelColumns(models: seq<Model>): (cs: seq<string>)
    decreases |models|
  {
    if |models| == 0 then []
    else [PredColumn(models[0].name), ProbaColumn(models[0].name)] + ModelColumns(models[1..])
  }

  /** Resolving hyperparameters keeps the model's name. */
  lemma LoadOrTuneKeepsName(cache: Cache, dir: string, model: Model, search: Search)
    ensures LoadOrTune(cache, dir, model, search).model.name == model.name
  {
  }

  /** The model loop of `train_cross_validation`: each model's parameters are
      loaded or tuned, then the model is trained and its columns written. Row
      labels and every column other than the models' own are left alone. */
  function TrainAll(result: Frame, cache: Cache, dir: string, models: seq<Model>, learner: Learner,
                    search: Search, data: Partitions, splits: seq<FoldIndices>): (r: Result<(Frame, Cache)>)
    ensures r.Ok? ==> KeptOutside(result, r.value.0, ModelColumns(models))
    ensures r.Ok? ==> forall d :: d in r.value.0.columns <==> d in result.columns || d in ModelColumns(models)
    decreases |models|
  {
    if |models| == 0 then Ok((result, cache))
    else
      var resolved := LoadOrTune(cache, dir, models[0], search);
      LoadOrTuneKeepsName(cache, dir, models[0], search);
      var g :- TrainModel(result, learner, resolved.model, data, splits);
      TrainModelRows(result, learner, resolved.model, data, splits);
      var rest :- TrainAll(g, resolved.cache, dir, models[1..], learner, search, data, splits);
      KeptOutsideChain(result, g, rest.0, [PredColumn(models[0].name), ProbaColumn(models[0].name)],
                       ModelColumns(models[1..]));
      Ok(rest)
  }

  /** `b` has `a`'s rows, with the same labels, and agrees with `a` on every
      column outside `cols`. */
  ghost predicate KeptOutside(a: Frame, b: Frame, cols: seq<string>)
  {
    |b.rows| == |a.rows|
    && (forall i :: 0 <= i < |a.rows| ==> b.rows[i].index == a.rows[i].index)
    && (forall i, d :: 0 <= i < |a.rows| && d !in cols ==> Get(b.rows[i], d) == Get(a.rows[i], d))
  }

  lemma KeptOutsideChain(a: Frame, b: Frame, c: Frame, cols1: seq<string>, cols2: seq<string>)
    requires KeptOutside(a, b, cols1) && KeptOutside(b, c, cols2)
    ensures KeptOutside(a, c, cols1 + cols2)
  {
  }

  lemma TrainModelRows(result: Frame, learner: Learner, model: Model, data: Partitions, splits: seq<FoldIndices>)
    requires TrainModel(result, learner, model, data, splits).Ok?
    ensures KeptOutside(result, TrainModel(result, learner, model, data, splits).value,
                        [PredColumn(model.name), ProbaColumn(model.name)])
  {
    forall i | 0 <= i < |result.rows|
      ensures var r := TrainModel(result, learner, model, data, splits).value;
        |r.rows| == |result.rows| && r.rows[i].index == result.rows[i].index
        && forall d :: d != PredColumn(model.name) && d != ProbaColumn(model.name) ==>
             Get(r.rows[i], d) == Get(result.rows[i], d)
    {
      TrainModelCells(result, learner, model, data, splits, i);
    }
  }

  /** With distinct model names and no prediction column already present, the
      result's columns are the original ones followed by each model's
      prediction and probability columns, in model order. */
  lemma {:induction false} TrainAllColumnOrder(result: Frame, cache: Cache, dir: string, models: seq<Model>, learner: Learner,
                                               search: Search, data: Partitions, splits: seq<FoldIndices>)
    requires TrainAll(result, cache, dir, models, learner, search, data, splits).Ok?
    requires NoDuplicates(ModelNames(models))
    requires forall c :: c in ModelColumns(models) ==> c !in result.columns
    ensures TrainAll(result, cache, dir, models, learner, search, data, splits).value.0.columns
      == result.columns + ModelColumns(models)
    decreases |models|
  {
    if |models| > 0 {
      var resolved := LoadOrTune(cache, dir, models[0], search);
      TrainAllStep(result, cache, dir, models, learner, search, data, splits);
      var g := TrainModel(result, learner, resolved.model, data, splits).value;
      assert PredColumn(models[0].name) in ModelColumns(models) && ProbaColumn(models[0].name) in ModelColumns(models);
      FirstModelColumns(result, g, resolved.model, models);
      LaterModelsFresh(result, g, resolved.model, models);
      TrainAllColumnOrder(g, resolved.cache, dir, models[1..], learner, search, data, splits);
    }
  }

  /** One turn of the model loop: the first model is trained on the table,
      and the rest of the loop runs on what that produced. */
  lemma TrainAllStep(result: Frame, cache: Cache, dir: string, models: seq<Model>, learner: Learner,
                     search: Search, data: Partitions, splits: seq<FoldIndices>)
    requires |models| > 0 && TrainAll(result, cache, dir, models, learner, search, data, splits).Ok?
    ensures var resolved := LoadOrTune(cache, dir, models[0], search);
      resolved.model.name == models[0].name
      && TrainModel(result, learner, resolved.model, data, splits).Ok?
      && TrainAll(TrainModel(result, learner, resolved.model, data, splits).value, resolved.cache, dir,
                  models[1..], learner, search, data, splits)
         == TrainAll(result, cache, dir, models, learner, search, data, splits)
  {
    LoadOrTuneKeepsName(cache, dir, models[0], search);
  }

  lemma FirstModelColumns(result: Frame, g: Frame, model: Model, models: seq<Model>)
    requires |models| > 0 && model.name == models[0].name
    requires PredColumn(model.name) !in result.columns && ProbaColumn(model.name) !in result.columns
    requires g.columns == AddColumn(AddColumn(result.columns, PredColumn(model.name)), ProbaColumn(model.name))
    ensures g.columns + ModelColumns(models[1..]) == result.columns + ModelColumns(models)
  {
    var p, q := PredColumn(model.name), ProbaColumn(model.name);
    ColumnNamesDistinct(model.name, model.name);
    assert g.columns == result.columns + [p, q];
    ConcatAssoc(result.columns, [p, q], ModelColumns(models[1..]));
  }

  lemma ConcatAssoc<T>(a: seq<T>, b: seq<T>, c: seq<T>)
    ensures (a + b) + c == a + (b + c)
  {
  }

  lemma LaterModelsFresh(result: Frame, g: Frame, model: Model, models: seq<Model>)
    requires |models| > 0 && model.name == models[0].name
    requires g.columns == AddColumn(AddColumn(result.columns, PredColumn(model.name)), ProbaColumn(model.name))
    requires NoDuplicates(ModelNames(models))
    requires forall c :: c in ModelColumns(models) ==> c !in result.columns
    ensures NoDuplicates(ModelNames(models[1..]))
    ensures forall c :: c in ModelColumns(models[1..]) ==> c !in g.columns
  {
    TailNamesDistinct(models);
    TailColumnsFresh(models);
  }

  lemma TailNamesDistinct(models: seq<Model>)
    requires |models| > 0 && NoDuplicates(ModelNames(models))
    ensures NoDuplicates(ModelNames(models[1..]))
  {
    NoDuplicatesTail(ModelNames(models));
    assert ModelNames(models[1..]) == ModelNames(models)[1..];
  }

  /** The later models' columns are columns of the whole list, and differ
      from the first model's two. */
  lemma TailColumnsFresh(models: seq<Model>)
    requires |models| > 0 && NoDuplicates(ModelNames(models))
    ensures forall c :: c in ModelColumns(models[1..]) ==>
      c in ModelColumns(models) && c != PredColumn(models[0].name) && c != ProbaColumn(models[0].name)
  {
    ModelColumnsFresh(models);
    TailColumnsIn(models);
  }

  lemma TailColumnsIn(models: seq<Model>)
    requires |models| > 0
    ensures forall c :: c in ModelColumns(models[1..]) ==> c in ModelColumns(models)
  {
    var all, tail := ModelColumns(models), ModelColumns(models[1..]);
    assert all == [PredColumn(models[0].name), ProbaColumn(models[0].name)] + tail;
    forall c | c in tail
      ensures c in all
    {
      var k :| 0 <= k < |tail| && tail[k] == c;
      assert all[k + 2] == c;
    }
  }

  lemma NoDuplicatesTail<T>(s: seq<T>)
    requires |s| > 0 && NoDuplicates(s)
    ensures NoDuplicates(s[1..])
  {
    forall i, j | 0 <= i < j < |s| - 1
      ensures s[1..][i] != s[1..][j]
    {
      assert s[1..][i] == s[i + 1] && s[1..][j] == s[j + 1];
    }
  }

  /** With distinct names, the first model's columns are not among the
      columns of the models after it. */
  lemma ModelColumnsFresh(models: seq<Model>)
    requires |models| > 0 && NoDuplicates(ModelNames(models))
    ensures forall c :: c in ModelColumns(models[1..]) ==>
      c != PredColumn(models[0].name) && c != ProbaColumn(models[0].name)
  {
    var m := models[0];
    var names := ModelNames(models);
    forall c | c in ModelColumns(models[1..])
      ensures c != PredColumn(m.name) && c != ProbaColumn(m.name)
    {
      ModelColumnsFrom(models[1..], c);
      var j :| 0 <= j < |models[1..]| && (c == PredColumn(models[1..][j].name) || c == ProbaColumn(models[1..][j].name));
      assert names[j + 1] == models[1..][j].name;
      ColumnNamesDistinct(m.name, models[1..][j].name);
      ColumnNamesDistinct(models[1..][j].name, m.name);
    }
  }

  lemma {:induction false} ModelColumnsFrom(models: seq<Model>, c: string)
    requires c in ModelColumns(models)
    ensures exists j :: 0 <= j < |models| && (c == PredColumn(models[j].name) || c == ProbaColumn(models[j].name))
    decreases |models|
  {
    if c != PredColumn(models[0].name) && c != ProbaColumn(models[0].name) {
      ModelColumnsFrom(models[1..], c);
      var j :| 0 <= j < |models[1..]| && (c == PredColumn(models[1..][j].name) || c == ProbaColumn(models[1..][j].name));
      assert models[j + 1] == models[1..][j];
    }
  }

  /** `save_results`: `<result_dir>/predictions_<task>.csv`. */
  function ResultsPath(resultDir: string, task: string): (p: string)
    ensures var file := "predictions_" + task + ".csv";
      |p| >= |file| && p[|p| - |file|..] == file
  {
    PathJoin(resultDir, "predictions_" + task + ".csv")
  }

  /** The outcome of `train_cross_validation`: the result table, the parameter
      files afterwards, and where the table is saved. */
  datatype Run = Run(predictions: Frame, cache: Cache, resultsPath: string)

  /** `train_cross_validation`: initialises the result table, then runs every
      model, then names the file the table is saved to. */
  function TrainCrossValidation(df: Frame, meta: seq<string>, data: Partitions, splits: seq<FoldIndices>,
                                models: seq<Model>, cache: Cache, resultDir: string, task: string,
                                learner: Learner, search: Search): (r: Result<Run>)
    ensures r.Ok? ==> InitResultDf(df, meta, data.xTrain, data.xTest, splits).Ok?
    ensures r.Ok? ==> SameLabels(df, r.value.predictions)
    ensures r.Ok? ==> forall d :: d in r.value.predictions.columns <==>
      d in meta || d == "test" || d == "cv_split" || d in ModelColumns(models)
    ensures r.Ok? ==> r.value.resultsPath == ResultsPath(resultDir, task)
  {
    var init :- InitResultDf(df, meta, data.xTrain, data.xTest, splits);
    var out :- TrainAll(init, cache, PathJoin(resultDir, "optimal_params"), models, learner, search, data, splits);
    Ok(Run(out.0, out.1, ResultsPath(resultDir, task)))
  }

  /** In the saved table, "test" marks the test rows and "cv_split" names the
      last fold holding the row out (-1 for none), unless a model column
      shares the name. */
  lemma TrainCrossValidationMarks(df: Frame, meta: seq<string>, data: Partitions, splits: seq<FoldIndices>,
                                  models: seq<Model>, cache: Cache, resultDir: string, task: string,
                                  learner: Learner, search: Search, i: int)
    requires TrainCrossValidation(df, meta, data, splits, models, cache, resultDir, task, learner, search).Ok?
    requires 0 <= i < |df.rows|
    ensures FoldsInRange(data.xTrain, splits)
    ensures var r := TrainCrossValidation(df, meta, data, splits, models, cache, resultDir, task, learner, search).value;
      "test" !in ModelColumns(models) ==>
        Get(r.predictions.rows[i], "test") == if df.rows[i].index in Index(data.xTest) then Int(1) else Int(0)
    ensures var r := TrainCrossValidation(df, meta, data, splits, models, cache, resultDir, task, learner, search).value;
      "cv_split" !in ModelColumns(models) ==>
        Get(r.predictions.rows[i], "cv_split") == Int(LastFold(df.rows[i].index, ValLabels(data.xTrain, splits)))
  {
    var init := InitResultDf(df, meta, data.xTrain, data.xTest, splits).value;
    var out := TrainAll(init, cache, PathJoin(resultDir, "optimal_params"), models, learner, search, data, splits).value;
    InitResultDfValues(df, meta, data.xTrain, data.xTest, splits, i);
    assert KeptOutside(init, out.0, ModelColumns(models));
  }
}

=== FILE: seqs.dfy ===
/** Sequence helpers: boolean-mask selection, keep-first de-duplication,
    zipping into a map, and flattening. */
module Seqs {

  /** No element occurs twice. */
  predicate NoDuplicates<T(==)>(s: seq<T>) {
    forall i, j :: 0 <= i < j < |s| ==> s[i] != s[j]
  }

  /** Applies f to every element. */
  function MapSeq<T, U>(s: seq<T>, f: T -> U): (r: seq<U>)
    ensures |r| == |s|
    ensures forall i :: 0 <= i < |s| ==> r[i] == f(s[i])
  {
    seq(|s|, i requires 0 <= i < |s| => f(s[i]))
  }

  /** The elements of s at the positions where mask is true, in order
      (pandas' boolean-mask indexing). */
  function Select<T>(s: seq<T>, mask: seq<bool>): (r: seq<T>)
    requires |mask| == |s|
    ensures |r| == CountTrue(mask)
    ensures forall x :: x in r ==> x in s
    decreases |s|
  {
    if |s| == 0 then []
    else (if mask[0] then [s[0]] else []) + Select(s[1..], mask[1..])
  }

  function CountTrue(mask: seq<bool>): nat
    decreases |mask|
  {
    if |mask| == 0 then 0 else (if mask[0] then 1 else 0) + CountTrue(mask[1..])
  }

  /** Element-wise negation of a mask (pandas' `~`). */
  function Negate(mask: seq<bool>): (r: seq<bool>)
    ensures |r| == |mask|
    ensures forall i :: 0 <= i < |mask| ==> r[i] != mask[i]
  {
    seq(|mask|, i requires 0 <= i < |mask| => !mask[i])
  }

  /** An element is selected exactly when it sits at a position the mask keeps. */
  lemma {:induction false} SelectMember<T>(s: seq<T>, mask: seq<bool>, x: T)
    requires |mask| == |s|
    ensures x in Select(s, mask) <==> exists i :: 0 <= i < |s| && mask[i] && s[i] == x
    decreases |s|
  {
    if |s| > 0 {
      SelectMember(s[1..], mask[1..], x);
      var rest := Select(s[1..], mask[1..]);
      if x in rest {
        var i :| 0 <= i < |s[1..]| && mask[1..][i] && s[1..][i] == x;
        assert mask[i + 1] && s[i + 1] == x;
      }
      if exists i :: 0 <= i < |s| && mask[i] && s[i] == x {
        var i :| 0 <= i < |s| && mask[i] && s[i] == x;
        if i > 0 {
          assert mask[1..][i - 1] && s[1..][i - 1] == x;
        }
      }
    }
  }

  /** A mask and its negation split a sequence into two parts that together
      hold every element exactly as often as the sequence does. */
  lemma {:induction false} SelectPartition<T>(s: seq<T>, mask: seq<bool>)
    requires |mask| == |s|
    ensures multiset(Select(s, mask)) + multiset(Select(s, Negate(mask))) == multiset(s)
    ensures |Select(s, mask)| + |Select(s, Negate(mask))| == |s|
    decreases |s|
  {
    if |s| > 0 {
      assert Negate(mask)[1..] == Negate(mask[1..]);
      SelectPartition(s[1..], mask[1..]);
      assert s == [s[0]] + s[1..];
    }
  }

  /** Selecting after mapping equals mapping after selecting: a row-wise
      projection commutes with a row mask. */
  lemma {:induction false} SelectMapSeq<T, U>(s: seq<T>, mask: seq<bool>, f: T -> U)
    requires |mask| == |s|
    ensures Select(MapSeq(s, f), mask) == MapSeq(Select(s, mask), f)
    decreases |s|
  {
    if |s| > 0 {
      assert MapSeq(s, f)[1..] == MapSeq(s[1..], f);
      SelectMapSeq(s[1..], mask[1..], f);
    }
  }

  /** Selection keeps the keys of a keyed sequence unique. */
  lemma {:induction false} SelectUniqueKeys<K, V>(s: seq<(K, V)>, mask: seq<bool>)
    requires |mask| == |s| && NoDuplicates(Firsts(s))
    ensures NoDuplicates(Firsts(Select(s, mask)))
    decreases |s|
  {
    if |s| > 0 {
      assert Firsts(s[1..]) == Firsts(s)[1..];
      SelectUniqueKeys(s[1..], mask[1..]);
      var rest := Select(s[1..], mask[1..]);
      forall x | x in rest
        ensures x.0 != s[0].0
      {
        var k :| 0 <= k < |s[1..]| && s[1..][k] == x;
        assert Firsts(s)[k + 1] == x.0;
      }
      if mask[0] {
        var fs := Firsts([s[0]] + rest);
        forall i, j | 0 <= i < j < |fs|
          ensures fs[i] != fs[j]
        {
          if i == 0 {
            assert rest[j - 1] in rest;
          } else {
            assert fs[i] == Firsts(rest)[i - 1] && fs[j] == Firsts(rest)[j - 1];
          }
        }
      }
    }
  }

  /** Keeps the first occurrence of every element, in order
      (pandas' `drop_duplicates`). */
  function Distinct<T(==,!new)>(s: seq<T>): (r: seq<T>)
    ensures NoDuplicates(r)
    ensures forall x :: x in r <==> x in s
    decreases |s|
  {
    if |s| == 0 then []
    else
      var front := Distinct(s[..|s| - 1]);
      if s[|s| - 1] in front then front else front + [s[|s| - 1]]
  }

  /** The first components of a sequence of pairs. */
  function Firsts<K, V>(s: seq<(K, V)>): (r: seq<K>)
    ensures |r| == |s|
    ensures forall i :: 0 <= i < |s| ==> r[i] == s[i].0
  {
    seq(|s|, i requires 0 <= i < |s| => s[i].0)
  }

  /** The second components of a sequence of pairs. */
  function Seconds<K, V>(s: seq<(K, V)>): (r: seq<V>)
    ensures |r| == |s|
    ensures forall i :: 0 <= i < |s| ==> r[i] == s[i].1
  {
    seq(|s|, i requires 0 <= i < |s| => s[i].1)
  }

  /** Every key is paired with one value only. */
  predicate Functional<K(==), V(==)>(s: seq<(K, V)>) {
    forall i, j :: 0 <= i < |s| && 0 <= j < |s| && s[i].0 == s[j].0 ==> s[i].1 == s[j].1
  }

  /** After de-duplicating the pairs, the keys are unique exactly when no key
      is paired with two different values. */
  lemma DistinctKeysUnique<K(!new), V(!new)>(s: seq<(K, V)>)
    ensures NoDuplicates(Firsts(Distinct(s))) <==> Functional(s)
  {
    var d := Distinct(s);
    if Functional(s) {
      forall i, j | 0 <= i < j < |d|
        ensures Firsts(d)[i] != Firsts(d)[j]
      {
        assert d[i] != d[j];
        assert d[i] in s && d[j] in s;
      }
    } else {
      var i, j :| 0 <= i < |s| && 0 <= j < |s| && s[i].0 == s[j].0 && s[i].1 != s[j].1;
      assert s[i] in d && s[j] in d;
      var a :| 0 <= a < |d| && d[a] == s[i];
      var b :| 0 <= b < |d| && d[b] == s[j];
      assert a != b && Firsts(d)[a] == Firsts(d)[b];
    }
  }

  /** Pairs up two aligned sequences. */
  function Zip<K, V>(ks: seq<K>, vs: seq<V>): (r: seq<(K, V)>)
    requires |ks| == |vs|
    ensures |r| == |ks|
    ensures forall i :: 0 <= i < |ks| ==> r[i] == (ks[i], vs[i])
  {
    seq(|ks|, i requires 0 <= i < |ks| => (ks[i], vs[i]))
  }

  /** Splitting pairs into keys and values and zipping them back is the identity. */
  lemma ZipFirstsSeconds<K, V>(s: seq<(K, V)>)
    ensures Zip(Firsts(s), Seconds(s)) == s
  {
  }

  /** Pairs keys with values; a later occurrence of a key overrides an earlier
      one, as sequential assignment does. */
  function ZipMap<K, V>(keys: seq<K>, vals: seq<V>): (m: map<K, V>)
    requires |keys| == |vals|
    ensures m.Keys == set k | k in keys
    decreases |keys|
  {
    if |keys| == 0 then map[]
    else ZipMap(keys[..|keys| - 1], vals[..|vals| - 1])[keys[|keys| - 1] := vals[|vals| - 1]]
  }

  /** With distinct keys, every key maps to the value at its own position. */
  lemma {:induction false} ZipMapAt<K, V>(keys: seq<K>, vals: seq<V>, i: int)
    requires |keys| == |vals| && NoDuplicates(keys) && 0 <= i < |keys|
    ensures keys[i] in ZipMap(keys, vals) && ZipMap(keys, vals)[keys[i]] == vals[i]
    decreases |keys|
  {
    if i < |keys| - 1 {
      ZipMapAt(keys[..|keys| - 1], vals[..|vals| - 1], i);
    }
  }

  /** Concatenation of a sequence of sequences. */
  function Flatten<T>(ss: seq<seq<T>>): seq<T>
    decreases |ss|
  {
    if |ss| == 0 then [] else Flatten(ss[..|ss| - 1]) + ss[|ss| - 1]
  }

  /** Sum of the lengths of a sequence of sequences. */
  function TotalLength<T>(ss: seq<seq<T>>): nat
    decreases |ss|
  {
    if |ss| == 0 then 0 else TotalLength(ss[..|ss| - 1]) + |ss[|ss| - 1]|
  }

  lemma {:induction false} FlattenLength<T>(ss: seq<seq<T>>)
    ensures |Flatten(ss)| == TotalLength(ss)
    decreases |ss|
  {
    if |ss| > 0 {
      FlattenLength(ss[..|ss| - 1]);
    }
  }
}

=== FILE: split_documents.dfy ===
/** The persisted split document
      {"test": [ids], "train": {"fold_0": [train_ids, val_ids], ...}}
    and the fold list read back from it. */
module SplitDocuments {
  import opened Wrappers
  import opened Text
  import opened Frames

  /** One fold: the training ids and the validation ids. */
  datatype FoldIds = FoldIds(trainIds: seq<Value>, valIds: seq<Value>)

  datatype FoldEntry = FoldEntry(key: string, fold: FoldIds)

  predicate DistinctKeys(entries: seq<FoldEntry>) {
    forall i, j :: 0 <= i < j < |entries| ==> entries[i].key != entries[j].key
  }

  /** The "train" object: a JSON object, so its keys are distinct; entries are
      kept in document order. */
  type FoldTable = t: seq<FoldEntry> | DistinctKeys(t) witness []

  datatype SplitDocument = SplitDocument(test: seq<Value>, train: FoldTable)

  /** The key of the i-th fold. */
  function FoldKey(i: nat): string {
    "fold_" + NatToString(i)
  }

  lemma FoldKeyInjective(i: nat, j: nat)
    requires FoldKey(i) == FoldKey(j)
    ensures i == j
  {
    assert FoldKey(i)[5..] == NatToString(i);
    assert FoldKey(j)[5..] == NatToString(j);
    NatToStringInjective(i, j);
  }

  /** The fold stored under `key`, if any. */
  function Lookup(t: seq<FoldEntry>, key: string): (r: Option<FoldIds>)
    ensures r.None? <==> forall k :: 0 <= k < |t| ==> t[k].key != key
    decreases |t|
  {
    if |t| == 0 then None
    else if t[0].key == key then Some(t[0].fold)
    else
      var rest := Lookup(t[1..], key);
      assert forall k :: 1 <= k < |t| ==> t[k] == t[1..][k - 1];
      rest
  }

  /** In a table with distinct keys, looking up an entry's key finds that entry. */
  lemma {:induction false} LookupAt(t: seq<FoldEntry>, k: int)
    requires DistinctKeys(t) && 0 <= k < |t|
    ensures Lookup(t, t[k].key) == Some(t[k].fold)
    decreases |t|
  {
    if k > 0 {
      assert t[1..][k - 1] == t[k];
      LookupAt(t[1..], k - 1);
    }
  }

  /** Looks up fold_from .. fold_{n-1} in order; KeyError for the first missing key. */
  function FoldsFrom(t: seq<FoldEntry>, from: nat, n: nat): (r: Result<seq<FoldIds>>)
    requires from <= n
    ensures r.Ok? <==> forall i :: from <= i < n ==> Lookup(t, FoldKey(i)).Some?
    ensures r.Ok? ==> |r.value| == n - from
    ensures r.Ok? ==> forall i :: from <= i < n ==> Lookup(t, FoldKey(i)) == Some(r.value[i - from])
    decreases n - from
  {
    if from == n then Ok([])
    else
      match Lookup(t, FoldKey(from))
      case None => Raise(KeyError(FoldKey(from)))
      case Some(fold) =>
        var rest :- FoldsFrom(t, from + 1, n);
        Ok([fold] + rest)
  }

  /** The cross-validation folds of a document, read as fold_0 .. fold_{n-1}
      where n is the number of entries under "train" (autorad's reading). */
  function CvSplits(doc: SplitDocument): (r: Result<seq<FoldIds>>)
    ensures r.Ok? <==> forall i :: 0 <= i < |doc.train| ==> Lookup(doc.train, FoldKey(i)).Some?
    ensures r.Ok? ==> |r.value| == |doc.train|
    ensures r.Ok? ==> forall i :: 0 <= i < |doc.train| ==> Lookup(doc.train, FoldKey(i)) == Some(r.value[i])
  {
    FoldsFrom(doc.train, 0, |doc.train|)
  }

  /** The folds in document order, whatever their keys (classrad's reading). */
  function FoldsInOrder(doc: SplitDocument): (folds: seq<FoldIds>)
    ensures |folds| == |doc.train|
    ensures forall i :: 0 <= i < |doc.train| ==> folds[i] == doc.train[i].fold
  {
    seq(|doc.train|, i requires 0 <= i < |doc.train| => doc.train[i].fold)
  }

  /** The document a splitter saves: the test ids and the folds under
      fold_0 .. fold_{k-1}, in that order. */
  function MakeDocument(test: seq<Value>, folds: seq<FoldIds>): (d: SplitDocument)
    ensures d.test == test && |d.train| == |folds|
    ensures forall i :: 0 <= i < |folds| ==> d.train[i] == FoldEntry(FoldKey(i), folds[i])
  {
    var entries := seq(|folds|, i requires 0 <= i < |folds| => FoldEntry(FoldKey(i), folds[i]));
    assert DistinctKeys(entries) by {
      forall i, j | 0 <= i < j < |entries|
        ensures entries[i].key != entries[j].key
      {
        if FoldKey(i) == FoldKey(j) {
          FoldKeyInjective(i, j);
        }
      }
    }
    SplitDocument(test, entries)
  }

  /** Saving folds and reading them back, by key or in document order,
      reproduces exactly the saved folds and test ids. */
  lemma RoundTrip(test: seq<Value>, folds: seq<FoldIds>)
    ensures MakeDocument(test, folds).test == test
    ensures CvSplits(MakeDocument(test, folds)) == Ok(folds)
    ensures FoldsInOrder(MakeDocument(test, folds)) == folds
  {
    var d := MakeDocument(test, folds);
    forall i | 0 <= i < |folds|
      ensures Lookup(d.train, FoldKey(i)) == Some(folds[i])
    {
      LookupAt(d.train, i);
    }
    var r := CvSplits(d);
    assert r.Ok?;
    assert r.value == folds;
  }
}

=== FILE: text.dfy ===
/** String helpers: decimal rendering of natural numbers (Python's `str(i)`)
    and joining a path onto a directory (`os.path.join` / pathlib's `/`). */
module Text {

  function DigitChar(d: nat): char
    requires d < 10
  {
    (48 + d) as char
  }

  /** The decimal digits of n, without leading zeros. */
  function NatToString(n: nat): (s: string)
    ensures 1 <= |s|
    ensures n >= 10 ==> 2 <= |s|
    ensures forall k :: 0 <= k < |s| ==> '0' <= s[k] <= '9'
    decreases n
  {
    if n < 10 then [DigitChar(n)] else NatToString(n / 10) + [DigitChar(n % 10)]
  }

  /** Different numbers render differently. */
  lemma {:induction false} NatToStringInjective(a: nat, b: nat)
    requires NatToString(a) == NatToString(b)
    ensures a == b
    decreases a
  {
    var sa, sb := NatToString(a), NatToString(b);
    if a >= 10 && b >= 10 {
      assert sa[|sa| - 1] == sb[|sb| - 1];
      assert a % 10 == b % 10;
      assert sa[..|sa| - 1] == NatToString(a / 10);
      assert sb[..|sb| - 1] == NatToString(b / 10);
      NatToStringInjective(a / 10, b / 10);
    }
  }

  /** Joins `name` onto directory `root`: an absolute name replaces the root,
      an empty root or one ending in a separator gets no extra separator. */
  function PathJoin(root: string, name: string): (p: string)
    ensures |name| > 0 && name[0] == '/' ==> p == name
    ensures (|name| == 0 || name[0] != '/') ==> |root| + |name| <= |p| <= |root| + |name| + 1
    ensures (|name| == 0 || name[0] != '/') ==> p[|p| - |name|..] == name
    ensures (|name| == 0 || name[0] != '/') && root != "" ==> p[..|root|] == root
  {
    if |name| > 0 && name[0] == '/' then name
    else if root == "" || root[|root| - 1] == '/' then root + name
    else root + "/" + name
  }
}

=== FILE: wrappers.dfy ===
/** Failure-carrying datatypes used in place of Python's None and exceptions. */
module Wrappers {

  /** Python's Optional: None or a value. */
  datatype Option<T> = None | Some(value: T) {
    function GetOr(default: T): T {
      match this
      case Some(v) => v
      case None => default
    }
  }

  /** The exception classes the modelled code raises or lets propagate. */
  datatype Exception =
    | KeyError(key: string)
    | IndexError(position: int)
    | ValueError(message: string)
    | AttributeError(message: string)
    | TypeError(message: string)
    | AssertionError
    | FileNotFoundError(path: string)
    | FitFailed(model: string)

  /** A computation that either returns a value or raises an exception. */
  datatype Result<T> = Ok(value: T) | Raise(exc: Exception) {
    predicate IsFailure() {
      Raise?
    }

    function PropagateFailure<U>(): Result<U>
      requires Raise?
    {
      Raise(exc)
    }

    function Extract(): T
      requires Ok?
    {
      value
    }
  }

  /** Raises `exc` unless `condition` holds; used with `:-`. */
  datatype Check = Pass | Fail(exc: Exception) {
    predicate IsFailure() {
      Fail?
    }

    function PropagateFailure<U>(): Result<U>
      requires Fail?
    {
      Raise(exc)
    }
  }

  function Need(condition: bool, exc: Exception): Check {
    if condition then Pass else Fail(exc)
  }
}
